=== FILE: README.md ===
# Vault — a verified model of its core

Vault is a multi-tenant secret store with a command-line front end. Secrets
are kept in an embedded ordered key/value tree (sled). Each secret is
encrypted under a master key derived with Argon2id from a tenant passphrase.
Each record is tagged with the AEAD that sealed it (AES-256-GCM or
ChaCha20-Poly1305). Every write leaves an audit record. Sessions are stored
in a file and carry a role that decides what each command may do.

This project models, in Dafny:

- the store (`app/src/storage/mod.rs`): tenants, secrets and audit records under
  `tenant:{id}`, `secret:{tenant}:{ns}:{key}` and `audit:{tenant}:{ts}`, the
  lock state, and `unlock`, `put`, `get`, `delete`, `list`, `search`,
  `get_stats`;
- the record layer (`crypto`) and envelope encryption, over an idealised AEAD
  and key derivation;
- the three role tables and session rules (`auth`, `storage::session`, and the
  crate-root `auth`);
- the legacy single-tenant store (`src/storage.rs`);
- plain records and builders: users, invitations, audit entries, tenants,
  configuration, secret generators;
- the sync configuration check, backend dispatch and status summary, and the
  conflict resolver;
- the decisions inside the command handlers: `init`, `login`, `logout`,
  `whoami`, `users`, `roles`, `audit`, `export`, `import`, and the sync
  permission check.

Modelling conventions:

- **Time.** Time is an integer count of nanoseconds. Each operation receives
  the one clock reading it needs.
- **Randomness.** UUIDs, salts, nonces and random indices are explicit
  inputs (`Draws`, `Coins`).
- **Cryptography.** It is symbolic. A derived key is the term naming its
  passphrase, salt and cost setting, so derivation is deterministic and
  injective. A ciphertext is `Sealed(algorithm, key, nonce, plaintext)` or an
  opaque byte string. Opening succeeds exactly on a ciphertext sealed with the
  same algorithm, key and nonce.
- **Store.** The tree is a strictly ascending list of entries. Its `Get` view
  is the map each operation is specified against.
- **Results.** Store operations return the new store together with a
  `Result`, whose errors mirror `VaultError`.
- **Command handlers.** Each handler returns `Proceed(effect)`, `Stop(message)`
  or `Fail(error)`. Calls into storage methods that the store does not define
  (`init_tenant_with_password`, `clear_session_key`, `get_user_role`,
  `list_users`, `remove_user`, `change_user_role`) appear as effects or as
  inputs.

## Model

| member | source | states |
|---|---|---|
| Store.KeyKindsDistinct | app/src/storage/mod.rs:72-72 | tenant, secret and audit keys never collide |
| Store.AuditKeyInjective | app/src/storage/mod.rs:371-371 | two audit keys of one tenant coincide exactly when their timestamps do, so a second event in the same nanosecond overwrites the first |
| Store.SplitSecretKey | app/src/storage/mod.rs:154-154 | with colon-free tenant and namespace, splitting a secret key at ':' gives "secret", tenant, namespace and the pieces of the key |
| Store.SecretKeyCollision | app/src/storage/mod.rs:154-154 | the separator is not escaped: tenant "a" with namespace "b:c" and tenant "a:b" with namespace "c" share a secret key |
| Store.SecretKeyInjective | app/src/storage/mod.rs:154-154 | without ':' in tenant and namespace, a secret key determines tenant, namespace and key |
| Store.LogAuditEvent | app/src/storage/mod.rs:361-376 | writes exactly one audit record under `audit:{tenant}:{now}`, built by the user "system", and changes nothing else |
| Store.TenantExists | app/src/storage/mod.rs:71-74 | true exactly when the tree holds a record under `tenant:{id}` |
| Store.GetTenant | app/src/storage/mod.rs:351-359 | `None` when the key is absent, the tenant when a tenant record is there, a serialisation error otherwise |
| Store.InitTenant | app/src/storage/mod.rs:76-94 | afterwards the tenant exists and reads back as `Tenant::new(id, id, admin, salt)`; the one audit record added is the `tenant_created` entry "Tenant {id} created by {admin}" by user "system"; no other key changes |
| Store.Unlock | app/src/storage/mod.rs:96-121 | a missing tenant fails with TenantNotFound and leaves the store alone; otherwise the master key derived from the tenant's salt (AES-256-GCM) and the current tenant are both set, whatever the passphrase |
| Store.PutWithTags | app/src/storage/mod.rs:127-163 | locked: VaultLocked and no change; unlocked: the secret key holds a version-1 record with the given tags and the value encrypted, one secret_created audit record is added, and nothing else changes |
| Store.Put | app/src/storage/mod.rs:123-125 | `put` is `put_with_tags` with no tags |
| Store.GetWithMetadata | app/src/storage/mod.rs:172-195 | locked: VaultLocked; an absent key gives `None` and no audit record; a present one decrypts to the stored value and metadata and adds one secret_accessed record; failures change nothing |
| Store.Get | app/src/storage/mod.rs:165-170 | agrees with `get_with_metadata` on success, failure and error, and returns its value |
| Store.Delete | app/src/storage/mod.rs:231-247 | no tenant: VaultLocked; an absent key: SecretNotFound and no change; a present key is removed and one audit record added |
| Store.PutThenGet | app/src/storage/mod.rs:127-195 | reading back what was just written gives the value and its metadata, including the tags |
| Store.ReadHolds | app/src/storage/mod.rs:172-195 | in a readable store, `get_with_metadata` returns a value and metadata exactly when the secret key holds a record that decrypts under the master key to that value, with that metadata |
| Store.DecryptsUnique | app/src/storage/mod.rs:180-186 | a stored record decrypts to at most one string |
| Store.DeleteThenGet | app/src/storage/mod.rs:231-247 | after a successful delete the key reads as absent |
| Store.InitUnlockPutGet | app/tests/integration/storage_tests.rs:47-62 | initialise, unlock, put, then get returns the value |
| Store.WrongPassphraseReadFails | app/tests/integration/storage_tests.rs:157-170 | unlock with the wrong passphrase succeeds; only a later read of a secret written under the other key fails |
| Queries.ListWithMetadataAsWritten | app/src/storage/mod.rs:202-229 | as written: fails VaultLocked without a tenant; otherwise fails, always with a serialisation error, exactly when some record under the namespace prefix is not a secret; else lists, sorted by name, exactly the secrets there that carry the tag filter, each named by the text after the last ':' of its key; as a multiset the listing is the filtered scan, so each such secret appears once per stored key |
| Queries.ListAsWrittenFacts | app/src/storage/mod.rs:207-224 | the as-written scan fails exactly on a non-secret record, always with a serialisation error, and otherwise collects the passing secrets in scan order, named as written |
| Queries.CollectsPassingAsWritten | app/src/storage/mod.rs:207-224 | when no step fails, the loop's pushes are exactly the scanned secrets that pass the tag filter, in scan order, one each |
| Queries.ListAsWrittenAgrees | app/src/storage/mod.rs:197-229 | while no stored name in the namespace contains ':', the as-written `list_with_metadata` and `list` return exactly what the corrected ones return |
| Queries.PlainListedIsStored | app/src/storage/mod.rs:202-229 | while no stored name in the namespace contains ':', a pair is listed as written exactly when a secret with that metadata, passing the tag filter, is stored under that name |
| Queries.ListStepsAgree | app/src/storage/mod.rs:210-222 | under that condition the as-written and corrected loop bodies agree on every scanned entry |
| Queries.ListWithMetadata | app/src/storage/mod.rs:202-229 | fails without a tenant; otherwise succeeds exactly when every record under the namespace prefix is a secret, and lists, sorted by name, exactly the stored secrets of the namespace that carry the tag filter, none twice |
| Queries.ListDistinct | app/src/storage/mod.rs:207-224 | scanned keys are distinct, so the corrected scan reports no (name, metadata) pair twice, before or after sorting |
| Queries.ListFacts | app/src/storage/mod.rs:207-224 | the scan under the namespace prefix meets an error exactly when a non-secret record is there, and yields exactly the stored (name, metadata) pairs |
| Queries.ListedIff | app/src/storage/mod.rs:207-224 | an entry is yielded by the corrected listing scan exactly when it is a stored secret of the namespace with the tag |
| Queries.ListedIsStored | app/src/storage/mod.rs:210-222 | each listed entry is a stored secret of the namespace |
| Queries.StoredIsListed | app/src/storage/mod.rs:210-222 | each stored secret of the namespace with the tag is listed |
| Queries.ListAsWritten | app/src/storage/mod.rs:197-200 | `list` as written succeeds exactly when the listing does, and only with a current tenant; it gives one name per listed secret, and a name is returned exactly when the as-written listing names some stored secret by it |
| Queries.Names | app/src/storage/mod.rs:197-200 | the names of a listing, one per entry, in order |
| Queries.NamesOfListing | app/src/storage/mod.rs:197-229 | the names of a sorted, complete listing are in ascending order and are exactly the stored keys |
| Queries.List | app/src/storage/mod.rs:197-200 | corrected `list`: fails without a tenant; otherwise its names are ascending, none repeated, and are exactly the keys stored in the namespace |
| Queries.NamesDistinct | app/src/storage/mod.rs:197-200 | a stored name fixes its metadata, so a listing of stored secrets that repeats no pair repeats no name |
| Queries.PutThenList | app/src/storage/mod.rs:127-200 | whenever listing the namespace succeeds after a `put`, it names the key just written |
| Queries.SearchAsWritten | app/src/storage/mod.rs:249-292 | as written: fails without a tenant; fails only with a serialisation error, and never when every record of the tenant is a secret; reports, sorted, exactly the pairs (3rd, 4th `split(':')` piece) of keys with at least four pieces that pass the namespace filter and whose key or tags contain the lower-cased query |
| Queries.SearchAsWrittenFacts | app/src/storage/mod.rs:255-288 | the as-written scan fails only on a record that is not a secret, with a serialisation error, and yields exactly those split pairs |
| Queries.SearchAsWrittenAgrees | app/src/storage/mod.rs:249-292 | while the tenant id holds no ':' and each stored key at most one after the tenant prefix, the as-written search returns exactly what the corrected one returns |
| Queries.SearchStepsAgree | app/src/storage/mod.rs:258-264 | on a key `secret:{tenant}:{rest}` with at most one ':' in rest, the `split(':')` parse and the first-':' parse give the same step |
| Queries.Search | app/src/storage/mod.rs:249-292 | corrected search: fails without a tenant; succeeds when every record of the tenant is a secret; reports, sorted and with no pair twice, exactly the (namespace, key) pairs whose key or a tag contains the lower-cased query, within the namespace filter |
| Queries.SearchFacts | app/src/storage/mod.rs:255-288 | the search scan meets an error exactly on a non-secret record and yields exactly the matching pairs |
| Queries.SearchHitsDistinct | app/src/storage/mod.rs:255-288 | two different scanned entries never yield the same pair |
| Queries.SearchHitKey | app/src/storage/mod.rs:258-264 | a pair the corrected step reports spells out the entry's whole key |
| Queries.SearchDistinct | app/src/storage/mod.rs:249-292 | a successful corrected search holds no pair twice |
| Queries.SearchReports | app/src/storage/mod.rs:249-292 | every matching secret is reported by a search that succeeds |
| Queries.SearchedIsFound | app/src/storage/mod.rs:255-288 | each reported pair is a stored secret matching the query |
| Queries.SearchedKey | app/src/storage/mod.rs:260-264 | a tenant key whose remainder splits at its first ':' is the secret key of that namespace and key |
| Queries.FoundIsSearched | app/src/storage/mod.rs:255-288 | each stored secret matching the query is yielded by the scan |
| Queries.SplitColonKey | app/src/storage/mod.rs:213-213 | splitting the key of a secret named "a:b" yields five pieces, the last being "b" |
| Queries.ColonKeyListAsWritten | app/src/storage/mod.rs:213-213 | as written, a secret stored as "db:password" is listed as "password", a name under which `get` finds nothing |
| Queries.ColonKeySearchAsWritten | app/src/storage/mod.rs:260-264 | as written, searching "db" reports a key "db" that `get` does not find |
| Queries.ColonKeySearchMissed | app/src/storage/mod.rs:260-264 | as written, searching "password" misses the secret "db:password" |
| Queries.ColonKeyListed | app/src/storage/mod.rs:197-229 | corrected, `list` names the secret "db:password" |
| Queries.ColonKeyRead | app/src/storage/mod.rs:172-195 | `get` reads that secret under its full key |
| Queries.ColonKeyFound | app/src/storage/mod.rs:249-292 | that secret matches a search for "password" |
| Queries.ColonKeySearched | app/src/storage/mod.rs:249-292 | corrected, searching "password" reports ("ns", "db:password") |
| Stats.VisitKey | app/src/storage/mod.rs:302-318 | one step of the walk counts a `secret:` key and collects the tenant and "{tenant}:{namespace}" the key names |
| Stats.WalkMatchesKeys | app/src/storage/mod.rs:298-321 | after any prefix of the tree the walk's counts are the number of secret keys and the sets of distinct tenants and namespaces among those keys |
| Stats.GetStats | app/src/storage/mod.rs:294-326 | secret_count is the number of `secret:` keys; tenant_count and namespace_count are the numbers of distinct tenants and tenant:namespace pairs named by the keys; total_size is the sum of every stored value's size |
| Stats.SizeOfSnoc | app/src/storage/mod.rs:300-303 | visiting one more record adds exactly its value's size to total_size |
| Stats.InsertSize | app/src/storage/mod.rs:300-303 | an `insert` changes total_size by the new value's size less that of the value it replaces |
| Stats.TenantKeyNames | app/src/storage/mod.rs:306-310 | a tenant key names its tenant and no namespace |
| Stats.SecretKeyNames | app/src/storage/mod.rs:306-318 | a secret key names its tenant and its tenant:namespace |
| Stats.AuditKeyNames | app/src/storage/mod.rs:306-318 | an audit key names neither |
| Stats.InitTenantKeys | app/src/storage/mod.rs:76-94 | `init_tenant` adds exactly the tenant key and one audit key |
| Stats.PutKeys | app/src/storage/mod.rs:127-163 | `put` on an unlocked store adds exactly the secret key and one audit key |
| Stats.StatsOfTwoNamespaces | app/tests/integration/storage_tests.rs:136-156 | after creating a tenant and storing secrets in two namespaces, the walk counts two secrets, one tenant and two namespaces |
| Aead.DeriveKey | app/src/crypto/kdf.rs:27-56 | the derived key records its salt and settings and the passphrase's UTF-8 bytes |
| Aead.DeriveKeyInjective | app/src/crypto/kdf.rs:27-56 | two derivations agree exactly when passphrase, salt and settings agree |
| Aead.Seal | app/src/crypto/aes.rs:6-18 | opening under the same key and nonce returns the plaintext; opening under any other key fails |
| Aead.Open | app/src/crypto/aes.rs:20-31 | succeeds exactly on a ciphertext sealed with this algorithm, key and nonce, returning its plaintext; otherwise the cipher's decryption error |
| Crypto.DeriveFromPassphrase | app/src/crypto/mod.rs:39-51 | the master key keeps the requested algorithm and holds Argon2id of the passphrase and salt with the default costs |
| Crypto.DeriveSameKeyIff | app/src/crypto/mod.rs:39-51 | two derivations give the same key exactly when passphrase and salt agree |
| Crypto.Encrypt | app/src/crypto/mod.rs:65-90 | the record carries the key's algorithm, version 1, and the drawn salt and nonce, and decrypts to the plaintext |
| Crypto.Decrypt | app/src/crypto/mod.rs:93-102 | succeeds exactly on a record sealed under this key with the cipher its tag names, returning the plaintext; the key's own algorithm plays no part |
| Crypto.DecryptIgnoresKeyAlgorithm | app/src/crypto/mod.rs:93-102 | two master keys with equal bytes and different algorithms decrypt every record alike |
| Crypto.WrongPassphraseFails | app/tests/integration/crypto_tests.rs:184-206 | a record encrypted under one passphrase or salt fails to decrypt under another |
| Crypto.RetaggedRecordFails | app/src/crypto/mod.rs:93-102 | changing a record's algorithm tag makes it fail to decrypt |
| Crypto.FreshNoncesDiffer | app/tests/integration/crypto_tests.rs:104-127 | two encryptions with different nonces differ, yet both decrypt to the plaintext |
| Envelope.DekKeysDistinct | app/src/crypto/envelope.rs:16-62 | two DEKs stand for the same master key exactly when their bytes agree |
| Envelope.DekEncrypt | app/src/crypto/envelope.rs:41-49 | the record carries the DEK's algorithm and decrypts back under the same DEK |
| Envelope.Deserialize | app/src/crypto/envelope.rs:95-98 | a bincode blob yields its record; anything else is a serialisation error |
| Envelope.EncryptDek | app/src/crypto/envelope.rs:90-93 | the wrapped DEK unwraps back to the same DEK |
| Envelope.DecryptDek | app/src/crypto/envelope.rs:95-107 | succeeds exactly when the blob deserialises and decrypts to 32 bytes, pairing them with the given algorithm; a wrong length is the Crypto error "Invalid DEK length" |
| Envelope.EnvelopeEncrypt | app/src/crypto/envelope.rs:115-136 | the envelope records the KEK's id and the algorithm, and opens to the plaintext |
| Envelope.EnvelopeDecrypt | app/src/crypto/envelope.rs:138-147 | a failed unwrap is returned as is, without touching the data; success returns the plaintext sealed under the unwrapped DEK |
| Envelope.EnvelopeWrongKekFails | app/src/crypto/envelope.rs:138-147 | an envelope does not open under a KEK with a different master key |
| Envelope.EnvelopeIgnoresAlgorithmField | app/src/crypto/envelope.rs:138-147 | the envelope's algorithm field does not affect decryption |
| Envelope.OtherDekFails | app/src/crypto/envelope.rs:51-59 | a payload sealed under one DEK does not open under another |
| AppAuth.PermissionLattice | app/src/auth/mod.rs:18-32 | admin implies write implies read; the only role that audits without writing is Auditor; the only administrator who cannot audit is Owner |
| AppAuth.ParseRole | app/src/cli/commands/users.rs:51-57 | a parsed role's name is the lower-cased argument |
| AppAuth.ParseRoleIff | app/src/cli/commands/users.rs:51-57 | an argument parses to a role exactly when its lower-case form is that role's name |
| AppAuth.ParseRoleName | app/src/cli/commands/admin.rs:24-34 | every role's own name parses back to it |
| AppAuth.ParseRoleCaseInsensitive | app/src/cli/commands/users.rs:181-191 | two arguments with the same lower-case form parse alike |
| AppAuth.NewSession | app/src/auth/mod.rs:46-56 | created now, with the given ids and role, lasting exactly the given number of hours |
| AppAuth.TimeUntilExpiry | app/src/auth/mod.rs:67-69 | now plus the time left is the expiry |
| AppAuth.ValidIffTimeLeft | app/src/auth/mod.rs:58-69 | a session is valid exactly while time remains |
| AppAuth.NewSessionValidity | app/src/auth/mod.rs:46-60 | a fresh session is valid exactly before now plus its duration |
| AppAuth.RefreshAsWritten | app/src/auth/mod.rs:62-65 | `refresh` as written moves only the expiry, leaving as much time as the old span from creation to expiry |
| AppAuth.RefreshAsWrittenGrows | app/src/auth/mod.rs:62-65 | as written, each later refresh lengthens the span from creation to expiry by the time elapsed since creation |
| AppAuth.RefreshAsWrittenCounterexample | app/src/auth/mod.rs:62-65 | a 24-hour session created at hour 0 expires at hour 47 after a refresh at hour 23, and at hour 93 (47 hours away) after a second at hour 46 |
| AppAuth.Refresh | app/src/auth/mod.rs:62-65 | corrected: restarts the session at now with its original duration, nothing else changes |
| AppAuth.RefreshAtKeepsLifetime | app/src/auth/mod.rs:62-65 | any number of corrected refreshes keep the duration; the expiry is the last refresh plus that duration |
| AppAuth.RefreshCorrected | app/src/auth/mod.rs:62-65 | the same 24-hour session refreshed at hours 23 and 46 expires at hour 70, 24 hours after the last refresh |
| AppAuth.WholeHours | app/src/cli/commands/auth.rs:195-197 | whole hours truncated toward zero, as `num_hours` does |
| AppAuth.LoadSession | app/src/auth/mod.rs:93-108 | an undecodable file is a JSON error; a stored session is returned exactly when valid; an expired one is removed |
| AppAuth.GetCurrentSession | app/src/auth/mod.rs:118-121 | succeeds exactly with a valid stored session; otherwise Auth("No valid session found"), or the JSON error |
| AppAuth.SavedSessionLifetime | app/src/auth/mod.rs:82-121 | a saved session is current until its expiry, after which the file is removed |
| SessionFile.Save | app/src/auth/mod.rs:82-91 | the file then holds the session |
| SessionFile.Clear | app/src/auth/mod.rs:110-116 | the file is gone and the call succeeds |
| SessionFile.Load | app/src/auth/mod.rs:93-108 | no file is `Ok(None)`; undecodable bytes are an error; a stored session is returned exactly when valid and removed otherwise |
| SessionFile.LoadTwice | app/src/auth/mod.rs:93-108 | a second load at the same instant finds what the first returned |
| SessionFile.LoadAfterSave | app/src/auth/mod.rs:82-108 | a just-saved session loads back exactly when valid |
| SessionFile.LoadAfterClear | app/src/auth/mod.rs:93-116 | after clearing there is no session to load |
| SessionFile.Current | app/src/auth/mod.rs:118-121 | `load_session` with "no session" turned into the given Auth error |
| StorageSession.PermissionLattice | app/src/storage/session.rs:31-46 | admin implies write and audit, write implies read, and only Auditor audits without writing |
| StorageSession.NewSession | app/src/storage/session.rs:49-62 | created and last accessed now, expiring after the given hours, with no client address or agent |
| StorageSession.TimeUntilExpiry | app/src/storage/session.rs:74-76 | the storage session's copy of `AppAuth.TimeUntilExpiry`: now plus the time left is the expiry |
| StorageSession.ValidIffTimeLeft | app/src/storage/session.rs:64-76 | valid exactly while time remains |
| StorageSession.Refresh | app/src/storage/session.rs:68-72 | records the access and leaves exactly one hour; nothing else changes |
| StorageSession.RefreshOneHour | app/src/storage/session.rs:68-72 | after a refresh the session is valid for exactly the next hour, which shortens a longer session |
| StorageSession.LoadSession | app/src/storage/session.rs:102-119 | an undecodable file is a serialisation error; a stored session is returned exactly when valid; an expired one is removed |
| StorageSession.GetCurrentSession | app/src/storage/session.rs:131-134 | succeeds exactly with a valid stored session; otherwise Auth("No active session found") |
| LegacyAuth.NewSession | src/auth.rs:25-34 | created now and expiring 24 hours later |
| LegacyAuth.NewSessionValidity | src/auth.rs:25-38 | a fresh session is valid exactly during its first 24 hours |
| LegacyAuth.PermissionLattice | src/auth.rs:40-50 | admin implies write implies read |
| RoleTables.ToStorage | app/src/storage/session.rs:22-28 | the application's Admin corresponds to TenantAdmin; the other roles keep their names |
| RoleTables.ToLegacy | src/auth.rs:16-22 | the same correspondence for the crate-root table |
| RoleTables.ToStorageBijective | app/src/storage/session.rs:22-28 | that correspondence is a bijection |
| RoleTables.ReadWriteAdminAgree | app/src/auth/mod.rs:18-28 | the three tables agree on reading, writing and administration |
| RoleTables.AuditDiffersOnlyForOwner | app/src/storage/session.rs:43-45 | the two audit tables disagree on exactly one role, Owner |
| LegacyStore.DeriveFromPassphrase | src/crypto.rs:18-29 | Argon2id of the passphrase and salt with the crate's default costs |
| LegacyStore.Encrypt | src/crypto.rs:37-56 | the record carries the drawn nonce and salt and decrypts to the plaintext |
| LegacyStore.Decrypt | src/crypto.rs:58-66 | succeeds exactly on an AES-256-GCM record sealed under this key, returning the plaintext; otherwise a decryption error |
| LegacyStore.WrongPassphraseFails | src/crypto.rs:18-66 | a record sealed under one passphrase fails under another |
| LegacyStore.InitTenant | src/storage.rs:50-66 | writes `tenant:{id}` with name = id and nothing else |
| LegacyStore.GetTenant | src/storage.rs:142-150 | `None` exactly when the key is absent; the tenant when a tenant record is there |
| LegacyStore.Unlock | src/storage.rs:68-76 | fails "Tenant not found" for a missing tenant, otherwise sets the master key from the tenant's salt |
| LegacyStore.Put | src/storage.rs:78-102 | fails "Vault is locked" without a master key; otherwise binds `secret:default:{ns}:{key}` to the newly sealed record and changes no other key, whichever tenant was unlocked |
| LegacyStore.Get | src/storage.rs:104-118 | fails "Vault is locked" without a master key; reads `secret:default:{ns}:{key}`, absent gives `None` |
| LegacyStore.Delete | src/storage.rs:135-140 | always succeeds; the key is absent afterwards and no other key changes |
| LegacyStore.PutThenGet | src/storage.rs:78-118 | reading back what was just written gives the value |
| LegacyStore.DeleteThenGet | src/storage.rs:104-140 | after delete the key reads as absent |
| LegacyStore.PutThenListAsWritten | src/storage.rs:120-133 | with colon-free namespace and key, a stored key is listed |
| LegacyStore.BasicStorageOperations | src/lib.rs:13-43 | init, unlock, put, get, list, delete and get again behave as the crate's own test expects |
| LegacyStore.ListAsWritten | src/storage.rs:120-133 | one name per key under `secret:default:{ns}:`, in store order, each the last ':' piece |
| LegacyStore.Suffixes | src/storage.rs:120-133 | each name is the rest of its key after the common prefix |
| LegacyStore.List | src/storage.rs:120-133 | corrected: one name per key under the prefix, and a name is listed exactly when a secret is stored under it |
| LegacyStore.ListNamesStored | src/storage.rs:120-133 | names read off the scan are exactly the stored keys |
| LegacyStore.LastPieceOfPlainKey | src/storage.rs:127-127 | for colon-free namespace and key the last piece is the key |
| LegacyStore.ColonKeyListAsWritten | src/storage.rs:127-127 | as written, "db:password" is listed as "password", a name `get` finds nothing under |
| LegacyStore.ColonKeyListed | src/storage.rs:120-133 | corrected, `list` names it "db:password" |
| Tenants.DefaultSettings | app/src/storage/tenant.rs:38-53 | no limits, AES-256-GCM, KDF 65536/3/1, audit on, sync off |
| Tenants.New | app/src/storage/tenant.rs:56-66 | the given id, name, admin and salt, created now, an all-zero hash, default settings |
| Tenants.NewWithPassword | app/src/storage/tenant.rs:68-78 | the same, with exactly the given hash |
| Tenants.NewIsZeroHash | app/src/storage/tenant.rs:56-78 | the two constructors differ only in the password hash |
| Users.NewUser | app/src/storage/user.rs:20-33 | the given email, tenant and role; active; no login, hash or key |
| Users.WithPassword | app/src/storage/user.rs:35-39 | sets the hash and nothing else |
| Users.WithPublicKey | app/src/storage/user.rs:41-45 | sets the key and nothing else |
| Users.BuildersCommute | app/src/storage/user.rs:35-45 | the two builders can be applied in either order |
| Users.UpdateLastLogin | app/src/storage/user.rs:47-50 | records the instant and nothing else |
| Users.Deactivate | app/src/storage/user.rs:52-54 | clears the active flag and nothing else |
| Users.ChangeRole | app/src/storage/user.rs:56-59 | replaces the role and nothing else |
| Users.UpdatesSettle | app/src/storage/user.rs:47-59 | the updates are idempotent, the last role change wins, and re-setting the current role changes nothing |
| Users.Token | app/src/storage/user.rs:78-84 | one alphanumeric character per draw |
| Users.TokenBijective | app/src/storage/user.rs:78-84 | the token determines the draws, and every alphanumeric string is some token |
| Users.NewInvitation | app/src/storage/user.rs:76-98 | the given fields, unaccepted, expiring seven days after now, with a 32-character alphanumeric token |
| Users.Accept | app/src/storage/user.rs:105-107 | marks the invitation accepted and nothing else |
| Users.InvitationLifetime | app/src/storage/user.rs:76-103 | a fresh invitation is valid exactly during its first seven days, and never once accepted |
| Users.AcceptedNeverValid | app/src/storage/user.rs:100-107 | an accepted invitation is invalid at every instant, and accepting twice is accepting once |
| Audit.New | app/src/storage/audit.rs:32-51 | the four given fields, the id and time, and no optional field |
| Audit.WithResource | app/src/storage/audit.rs:53-57 | sets the resource type and id and nothing else |
| Audit.WithMetadata | app/src/storage/audit.rs:59-62 | sets the metadata and nothing else |
| Audit.WithContext | app/src/storage/audit.rs:64-68 | overwrites both context fields with the given options, `None` included, and nothing else |
| Audit.BuildersCommute | app/src/storage/audit.rs:53-68 | the three builders touch disjoint fields and commute |
| Audit.CreateEntry | app/src/storage/audit.rs:90-102 | the same four fields as `AuditEntry::new`, with no optional field; two entries differ only in id and time |
| Audit.LogEvent | app/src/storage/audit.rs:104-108 | never fails |
| SecretGen.DefaultPolicy | app/src/storage/secret.rs:23-33 | ten versions, no rotation, no approval, no users, roles "owner" and "writer" |
| SecretGen.DefaultPolicyRoles | app/src/storage/secret.rs:30-30 | the default policy admits exactly Owner and Writer by name, both of whom may write |
| SecretGen.PasswordCharset | app/src/storage/secret.rs:70-73 | 62 characters, or 88 with symbols |
| SecretGen.GeneratePassword | app/src/storage/secret.rs:67-82 | exactly the requested length, every character from the charset, all alphanumeric without symbols |
| SecretGen.PasswordReachable | app/src/storage/secret.rs:67-82 | every string over the charset is a possible password |
| SecretGen.RandomPart | app/src/storage/secret.rs:88-94 | one alphanumeric character per draw |
| SecretGen.GenerateApiKey | app/src/storage/secret.rs:84-100 | the prefix ("vk" when none), an underscore and 32 alphanumeric characters |
| SecretGen.ApiKeyParts | app/src/storage/secret.rs:84-100 | the key splits back into its prefix and its draws |
| SecretGen.GenerateHexKey | app/src/storage/secret.rs:106-111 | 2·(n/2) lower-case hex digits that decode to the drawn bytes |
| SecretGen.HexKeyOddLength | app/src/storage/secret.rs:106-111 | an odd length gives one digit fewer |
| AppConfig.DefaultSecurity | app/src/config/mod.rs:75-86 | "aes256gcm", a 24-hour session timeout, no 2FA |
| AppConfig.DefaultUi | app/src/config/mod.rs:88-97 | colours and progress bars on, "modern" tables, the UTC date format |
| AppConfig.JoinPath | app/src/config/mod.rs:61-64 | the joined path starts with the base and ends with the part |
| AppConfig.DefaultConfig | app/src/config/mod.rs:58-73 | no tenant, no cloud section, default security and UI, and a store path under the home directory (or ".") ending in "vault.db" |
| AppConfig.GetEncryptionAlgorithm | app/src/config/mod.rs:145-151 | exactly "chacha20poly1305" selects ChaCha20-Poly1305; every other name selects AES-256-GCM |
| AppConfig.GetKeyDerivationParams | app/src/config/mod.rs:153-159 | the three costs, copied unchanged |
| AppConfig.DefaultCryptoSettings | app/src/crypto/kdf.rs:13-21 | the default configuration asks for the default KDF costs and AES-256-GCM |
| AppConfig.AlgorithmNameCaseSensitive | app/src/config/mod.rs:145-151 | "ChaCha20Poly1305" in another case still selects AES-256-GCM |
| AppConfig.KeyDerivationParamsRoundTrip | app/src/config/mod.rs:153-159 | writing costs into a configuration and reading them gives them back |
| Conflicts.DetectConflicts | app/src/sync/conflict.rs:9-22 | always succeeds with no conflicts |
| Conflicts.ResolveConflict | app/src/sync/conflict.rs:34-56 | every resolution yields `Ok(None)` |
| Conflicts.ResolutionFor | app/src/sync/conflict.rs:65-73 | PreferLocal and PreferNewer pick UseLocal, PreferRemote UseRemote, Manual Skip; none picks Merge |
| Conflicts.AutoResolveConflicts | app/src/sync/conflict.rs:58-77 | one pair per conflict, in order, carrying the conflict unchanged and the strategy's resolution |
| Conflicts.AutoResolveKeepsConflicts | app/src/sync/conflict.rs:58-77 | dropping the resolutions gives back the conflicts |
| Conflicts.PreferNewerIsPreferLocal | app/src/sync/conflict.rs:68-71 | PreferNewer and PreferLocal produce the same plan |
| Conflicts.PlanWritesNothing | app/src/sync/conflict.rs:34-77 | resolving any planned conflict yields nothing to write back |
| CloudSync.FromConfig | app/src/sync/mod.rs:59-91 | a disabled mode fails first; a missing backend fails; S3 needs bucket, then region; Postgres needs a URL; the fields are copied into the backend |
| CloudSync.ConfigFor | app/src/sync/mod.rs:59-91 | a cloud section naming the backend and carrying its fields |
| CloudSync.FromConfigRoundTrip | app/src/sync/mod.rs:59-91 | in either enabled mode, the section describing a backend builds exactly that backend |
| CloudSync.FromConfigSound | app/src/sync/mod.rs:59-91 | every manager built comes from an enabled section of the same backend kind with the same fields |
| CloudSync.FromConfigModeIrrelevant | app/src/sync/mod.rs:59-66 | Backup and Collaborative are treated alike |
| CloudSync.Push | app/src/sync/mod.rs:93-102 | routes to the push of the backend's kind |
| CloudSync.Pull | app/src/sync/mod.rs:104-113 | routes to the pull of the backend's kind |
| CloudSync.DispatchIgnoresOtherBackend | app/src/sync/mod.rs:93-113 | push and pull never consult the other backend |
| CloudSync.GetLocalSecrets | app/src/sync/mod.rs:142-146 | always an empty map |
| CloudSync.RemoteMetadata | app/src/sync/mod.rs:120-127 | the metadata call of the backend's kind |
| CloudSync.Status | app/src/sync/mod.rs:115-140 | fails with the remote error; otherwise reports the last sync, the local count, remote_secrets = sync_version, the number of conflicts, and sync_needed exactly when there is one |
| CloudSync.StatusNeverNeedsSync | app/src/sync/mod.rs:115-140 | with detection a placeholder, the status reports no conflicts and no sync needed |
| Gate.Check | app/src/cli/commands/utils.rs:107-115 | proceeds exactly with a valid stored session whose role passes, handing on that session; without one "Please login first"; otherwise the denial |
| Gate.CheckMessageOnly | app/src/cli/commands/utils.rs:107-115 | the denial message changes nothing but the message |
| Gate.CheckThenReload | app/src/cli/commands/utils.rs:107-115 | after a check that proceeds, the session is still current |
| UsersCommand.Run | app/src/cli/commands/users.rs:12-46 | outside collaborative mode nothing is checked or done; a handler that proceeds had a current session with the action's permission |
| UsersCommand.Act | app/src/cli/commands/users.rs:49-217 | removing proceeds only for another user and with confirmation; a role change or invitation proceeds only with a valid role name; self-demotion needs confirmation |
| UsersCommand.OnlyCollaborative | app/src/cli/commands/users.rs:13-22 | outside collaborative mode the command stops with its message and the session file is untouched |
| UsersCommand.LoginFirst | app/src/cli/commands/users.rs:43-46 | without a current session every action stops with "Please login first" |
| UsersCommand.PermissionGate | app/src/cli/commands/users.rs:27-41 | List needs read, Invite, Remove and ChangeRole need admin, Accept needs nothing; a role without the permission is refused with the action's message |
| UsersCommand.NoSelfRemoval | app/src/cli/commands/users.rs:158-161 | removing one's own account never proceeds |
| UsersCommand.SelfDemotionConfirmed | app/src/cli/commands/users.rs:195-204 | demoting oneself to Reader or Auditor proceeds exactly when confirmed; other changes need no confirmation |
| UsersCommand.RoleArgumentCaseInsensitive | app/src/cli/commands/users.rs:181-191 | role arguments with the same lower-case form are treated alike |
| UsersCommand.AcceptAlwaysAllowed | app/src/cli/commands/users.rs:39-41 | accepting an invitation proceeds for any current session |
| AdminCommand.AddEntries | app/src/cli/commands/admin.rs:38-55 | user_added, then role_changed, with their descriptions |
| AdminCommand.Roles | app/src/cli/commands/admin.rs:11-79 | proceeds only for an administrator; Add logs the two entries for a valid role; Remove logs one; List logs none |
| AdminCommand.RolesGate | app/src/cli/commands/admin.rs:12-34 | no session: "Please login first"; no admin right: the denial; an unknown role name is refused with no entry; a known one logs two entries |
| AdminCommand.Take | app/src/cli/commands/admin.rs:138-138 | the first `limit` rows, in order |
| AdminCommand.Filter | app/src/cli/commands/admin.rs:194-200 | keeps, in order, exactly the rows whose event or description contains the query, ignoring case |
| AdminCommand.FilterAppend | app/src/cli/commands/admin.rs:194-200 | filtering works row by row |
| AdminCommand.FilterEmptyQuery | app/src/cli/commands/admin.rs:194-200 | the empty query keeps every row |
| AdminCommand.FilterCaseInsensitive | app/src/cli/commands/admin.rs:194-200 | the query's case does not matter |
| AdminCommand.AuditLog | app/src/cli/commands/admin.rs:111-200 | proceeds exactly for a current session that may audit; tail shows the first rows (50 by default); search filters |
| AdminCommand.TailShowsPrefix | app/src/cli/commands/admin.rs:124-138 | tail shows at most the requested number of rows, a prefix of the log, and only Admin or Auditor sees it |
| AdminCommand.SearchIgnoresBounds | app/src/cli/commands/admin.rs:178-200 | the since and until bounds do not change the result |
| TransferCommand.OnlyAuditTransitive | app/src/cli/commands/utils.rs:101-321 | changes confined to given keys and audit records compose |
| TransferCommand.ReadAll | app/src/cli/commands/utils.rs:139-160 | reads each listed secret, skipping missing ones, changing only audit records; each exported secret was listed, and its value is what its stored record decrypts to; every listed name still stored is exported, with its listed metadata |
| TransferCommand.Export | app/src/cli/commands/utils.rs:101-203 | needs a current session that may read and a confirmation; lists with the as-written `list_with_metadata` and reads each listed name; proceeds only for json or yaml, in the given namespace (default "default"), with one audit entry counting the secrets read |
| TransferCommand.ExportFormatChecked | app/src/cli/commands/utils.rs:173-187 | any other format refuses, after the secrets were read |
| TransferCommand.ExportedAreListed | app/src/cli/commands/utils.rs:139-160 | every exported secret carries the metadata of a secret stored in the namespace and is named by the last ':' piece of its key |
| TransferCommand.ExportedAreStored | app/src/cli/commands/utils.rs:139-160 | when no name in the namespace contains ':', every exported secret is stored under exactly the name and metadata it is exported with |
| TransferCommand.ExportedExactlyStored | app/src/cli/commands/utils.rs:139-160 | when no name in the namespace contains ':', the exported (name, value, metadata) triples are exactly the secrets stored in the namespace, each value the decryption of its record |
| TransferCommand.ColonKeyExportAsWritten | app/src/cli/commands/utils.rs:139-160 | as written, exporting a namespace whose one secret is "db:password" exports nothing |
| TransferCommand.SecretsOf | app/src/cli/commands/utils.rs:237-241 | the "secrets" object if that field is present (empty when not an object), else the top-level object, else nothing |
| TransferCommand.StringItems | app/src/cli/commands/utils.rs:283-290 | exactly the string elements |
| TransferCommand.TagsOf | app/src/cli/commands/utils.rs:280-292 | the string elements of a "tags" array, else none |
| TransferCommand.MissingValues | app/src/cli/commands/utils.rs:273-296 | the errors name exactly the entries lacking a string "value", at most one per entry |
| TransferCommand.ImportOne | app/src/cli/commands/utils.rs:273-296 | each entry is counted or errs exactly once; a missing value stores nothing; an entry with a string value leaves the store as `put_with_tags` of that value and the entry's string tags does |
| TransferCommand.ImportAll | app/src/cli/commands/utils.rs:248-300 | imported plus errors equals the entries; unlocked, the errors are exactly the missing values; changes only the entries' keys and audit records |
| TransferCommand.ImportAllStores | app/src/cli/commands/utils.rs:273-296 | in an unlocked store, after the loop every entry with a string value that is the last with its name is stored under its name, with its value, its tags and the metadata of the put that wrote it |
| TransferCommand.PutKeysCons | app/src/cli/commands/utils.rs:273-296 | the keys written are those of the first entry and the rest |
| TransferCommand.Import | app/src/cli/commands/utils.rs:205-321 | needs a current session that may write, the file, json, a parsed document and a confirmation; otherwise nothing changes; changes only the entries' keys and audit records |
| TransferCommand.ImportOnlyJson | app/src/cli/commands/utils.rs:229-235 | any format but json is refused and nothing changes |
| TransferCommand.ImportReportsMissingValues | app/src/cli/commands/utils.rs:273-300 | the reported errors are exactly the entries without a string value |
| TransferCommand.ImportThenGet | app/src/cli/commands/utils.rs:205-300 | after an import that goes through, `get_with_metadata` of an entry with a string value returns that value with the entry's tags in its metadata; the entry must be the last with its name, which holds for every parsed document because a serde_json map has unique keys |
| TransferCommand.EmptyImport | app/src/cli/commands/utils.rs:243-246 | an empty secrets map stops before anything is written |
| AuthCommand.Init | app/src/cli/commands/auth.rs:12-65 | stops exactly when a tenant exists, without force or confirmation; a password of fewer than 8 bytes falls back to `init_tenant`, otherwise `init_tenant_with_password` is called; a tenant_created entry is logged |
| AuthCommand.LongPasswordNotShort | app/src/cli/commands/auth.rs:40-47 | a password of 8 or more characters is never short |
| AuthCommand.FourAccentsAccepted | app/src/cli/commands/auth.rs:40-47 | four accented letters are 8 bytes and count as long enough |
| AuthCommand.InitFallbackCreatesTenant | app/src/cli/commands/auth.rs:40-47 | the fallback creates the tenant |
| AuthCommand.CollaborativeUser | app/src/cli/commands/auth.rs:114-123 | an unknown user gives nothing; the stored role otherwise; a lookup error defaults to Reader |
| AuthCommand.Login | app/src/cli/commands/auth.rs:67-154 | a missing tenant or failed unlock stops and saves no session; proceeds exactly when unlock succeeds and a user is found, saving a session of 168 or 24 hours with the role decided, and logging the login |
| AuthCommand.LoginAnyPassphrase | app/src/cli/commands/auth.rs:105-143 | outside collaborative mode every passphrase logs in as "admin" with Admin |
| AuthCommand.LoginSessionLasts | app/src/cli/commands/auth.rs:113-135 | the saved session is current exactly for its 168 or 24 hours |
| AuthCommand.Logout | app/src/cli/commands/auth.rs:156-182 | proceeds exactly with a current session, removing the file and logging; otherwise changes nothing |
| AuthCommand.LogoutWithoutSession | app/src/cli/commands/auth.rs:176-181 | with no session, logout changes nothing |
| AuthCommand.LogoutEndsSession | app/src/cli/commands/auth.rs:156-182 | after logout there is no current session and a second logout stops |
| AuthCommand.MinutesOfHours | app/src/cli/commands/auth.rs:195-197 | the hours shown are the minutes shown divided by 60 |
| AuthCommand.Whoami | app/src/cli/commands/auth.rs:184-236 | proceeds exactly with a current session; reports whole hours and minutes left; when under an hour remains saves the session refreshed by the as-written `refresh`; otherwise "Not logged in" |
| AuthCommand.WhoamiRefreshGrows | app/src/cli/commands/auth.rs:219-224 | the saved session keeps its creation instant and is current until one original lifetime after the refresh, so its lifetime grows by the time since creation |
| AuthCommand.WhoamiRefreshExample | app/src/cli/commands/auth.rs:219-224 | a 24-hour session created at 0 and shown at hour 23.5 is saved with a 47.5-hour lifetime |
| SyncCommand.SyncGate | app/src/cli/commands/sync.rs:14-23 | proceeds exactly with a current session whose role may write |
| SyncCommand.SyncRoles | app/src/cli/commands/sync.rs:14-23 | the roles that pass are exactly Admin, Owner and Writer |

## Left out

- The cipher and key-derivation internals: AES-256-GCM, ChaCha20-Poly1305, Argon2id and HKDF. These are calls into external crates, modelled symbolically.
- `derive_key_hkdf`, `MasterKey::generate`, `generate_salt` and `generate_nonce`: randomness. Salts and nonces arrive as `Coins`, whose types fix 32 and 12 bytes.
- Persistence and file I/O:
  - sled open, flush and checksum, and `health_check`;
  - the session-file and configuration-file reads and writes;
  - `Config::load` and `Config::save`;
  - directory paths;
  - the bincode, serde and TOML encodings. The session file is a slot (absent, a session, or undecodable bytes), and the store is an in-memory tree.
- Randomness and the clock are parameters.
- `Utc::now()` called twice in one constructor is one reading.
- The network backends (S3, Postgres) are opaque functions supplied to the sync manager. `src/sync.rs` only prints.
- Asynchrony: every async function is sequential.
- The terminal interface:
  - prompts, progress bars, colours, output formatting and argument parsing;
  - `commands.rs` and `secrets.rs`;
  - the `status`, `doctor` and `completions` commands;
  - the audit `--follow` mode;
  - clipboard handling.
- Prompt answers enter as booleans or values.
- The hard-coded demo rows in the roles and audit commands. The tail limit and search filter are modelled over any rows.
- The `backend` text of `SyncStatus` (a `Debug` rendering).
- Json.Json: a JSON number keeps only an integer value; serde_json's floating-point numbers are not modelled. Nothing in the modelled code reads a number: an import reads only the string "value" and the strings of "tags".
- JSON objects are ordered field lists, and their field names are taken to be distinct. serde_json's default `Map` is a `BTreeMap`, so its keys are unique and iterate in sorted order. An import document is a parameter here, so the order it lists its secrets in is part of the input.
- Storage methods the commands call but the store does not define are effects or inputs. They are `init_tenant_with_password`, `clear_session_key`, `get_user_role`, `list_users`, `remove_user` and `change_user_role`.
- `Text.ToLower` lower-cases ASCII letters only. Rust's `to_lowercase` covers all of Unicode.
- AuthCommand.Whoami: the validity check, the time left and the refresh all use a second clock reading (`later`), as the source's repeated `Utc::now()` calls do.
- Stats.GetStats: the size of a stored value is a parameter, since the bincode encoding is not modelled, and total_size is an unbounded sum rather than a `u64`.
- Aead.Open, Crypto.Decrypt and Envelope.DekDecrypt require a 12-byte nonce. `Nonce::from_slice` panics on any other length, and a panic is not modelled.
- Crypto.Encrypt draws its nonce as a 12-byte `Coins` field, so the wrong-length case cannot arise there.
- Store.GetWithMetadata and Store.Get require `Store.Readable`: every stored secret has a 12-byte nonce. A store whose record has another nonce length, on which the code would panic, is outside the model.
- Store.GetWithMetadata: an undecodable plaintext fails with the fixed text "invalid utf-8 sequence", not with the `FromUtf8Error` display, which names the offending byte position.
- TransferCommand.Export and TransferCommand.ReadAll require `Store.Readable` for the same reason.
- TransferCommand.ImportThenGet requires `Store.Readable` for the same reason, and that the entry is the last in the document with its name. A parsed document always meets the second, since a serde_json map has unique keys; the model's documents are field lists, so the lemma states it.
- TransferCommand.Export: the exported secrets are a sequence. The source collects them into a JSON map keyed by name, which keeps one entry when two listed names coincide. The as-written listing allows that for names holding ':'. The count in the audit entry is the number of reads in both.
- The wrong-passphrase test of the storage tests is not a property of `unlock`. `Store.WrongPassphraseReadFails` states what does hold.
- Vector clocks, versioning and merging are not in the code: conflict detection returns nothing, and `put` writes version 1. They are not modelled.
- AppAuth.CanRead, CanWrite, CanAdmin and CanAudit, and the corresponding predicates of the other two tables, are the source's role tables. Their properties are the `PermissionLattice`, `RoleTables` and `SyncRoles` lemmas.

## Findings

| source | as written | input that shows it | evidently intended | confidence | as-written member | corrected member |
|---|---|---|---|---|---|---|
| app/src/storage/mod.rs:213 | `list_with_metadata` names each secret by the last `split(':')` piece of its storage key, and `search` takes namespace and key from the 3rd and 4th pieces | a secret put under the key "db:password" in namespace "ns" | list it as "db:password", and let `search` for "password" find it | not executed | Queries.ColonKeyListAsWritten, Queries.ColonKeySearchAsWritten, TransferCommand.ColonKeyExportAsWritten | Queries.List, Queries.Search, Queries.ColonKeyListed, Queries.ColonKeySearched, Queries.ListAsWrittenAgrees, Queries.SearchAsWrittenAgrees |
| app/src/auth/mod.rs:62-65 | `refresh` sets `expires_at = now + (expires_at - created_at)` but keeps `created_at`, so each refresh lengthens the session | a 24-hour session created at hour 0, refreshed at hours 23 and 46, expires at hour 93; `whoami` at hour 23.5 saves a 47.5-hour session | restart the original 24-hour duration at each refresh | not executed | AppAuth.RefreshAsWritten, AppAuth.RefreshAsWrittenCounterexample, AuthCommand.WhoamiRefreshExample | AppAuth.Refresh, AppAuth.RefreshAtKeepsLifetime, AppAuth.RefreshCorrected |
| src/storage.rs:127 | the legacy `list` also names each key by its last ':' piece | a secret under "db:password" in namespace "ns" | list it as "db:password" | not executed | LegacyStore.ColonKeyListAsWritten | LegacyStore.List, LegacyStore.ColonKeyListed |

Also noted, with no correction needed:

- Versioning is declared but not implemented. `put_with_tags` writes `version: 1` under a to-do note (app/src/storage/mod.rs:142). `SecretVersion` and `SecretPolicy.max_versions` are declared and never used (app/src/storage/secret.rs:6-33). `detect_conflicts` returns an empty list (app/src/sync/conflict.rs:9-22).
- The audit search's since/until bounds are parsed and then ignored (`AdminCommand.SearchIgnoresBounds`).
- The `init` password check counts UTF-8 bytes, not characters (`AuthCommand.FourAccentsAccepted`).

=== FILE: aead.dfy ===
/** The primitives under the vault's record layer: Argon2id key derivation and
    the two AEAD ciphers (AES-256-GCM, ChaCha20-Poly1305).

    Their internals are not modelled. They are idealised symbolically: a
    derived key is the term recording what it was derived from, and a sealed
    ciphertext records cipher, key, nonce and plaintext. Under that
    idealisation the three facts the record layer relies on are lemmas rather
    than assumptions: derivation is a function of its inputs, opening what was
    sealed under the same key and nonce returns the plaintext, and opening
    under any other key fails with the cipher's error. */
module Aead {
  import opened Base
  import Utf8

  /** `EncryptionAlgorithm`. */
  datatype Algorithm = Aes256Gcm | ChaCha20Poly1305

  /** `KeyDerivationParams`. */
  datatype KdfParams = KdfParams(memoryCost: nat, timeCost: nat, parallelism: nat)

  /** `KeyDerivationParams::default()`: 64 MiB, three passes, one lane. */
  const DEFAULT_KDF_PARAMS: KdfParams := KdfParams(65536, 3, 1)

  /** Which Argon2id cost settings produced a key: explicit parameters, or
      the argon2 crate's own `Argon2::default()` (used by the legacy crate). */
  datatype KdfSetting = Params(params: KdfParams) | CrateDefault

  /** A 32-byte key, identified by the Argon2id call that produced it: the
      passphrase's UTF-8 bytes, the 32-byte salt and the cost setting. */
  datatype Key = Argon2id(passphrase: seq<byte>, salt: Bytes32, setting: KdfSetting)

  /** `derive_key_argon2id_with_params(passphrase, salt, params)`. */
  function DeriveKey(passphrase: string, salt: Bytes32, setting: KdfSetting): (k: Key)
    ensures k.salt == salt && k.setting == setting
    ensures Utf8.Decode(k.passphrase) == Some(passphrase)
  {
    Utf8.DecodeEncode(passphrase);
    Argon2id(Utf8.Encode(passphrase), salt, setting)
  }

  /** Argon2id is deterministic, and under the idealisation distinct inputs
      give distinct keys: the key identifies passphrase, salt and setting. */
  lemma DeriveKeyInjective(p1: string, s1: Bytes32, c1: KdfSetting, p2: string, s2: Bytes32, c2: KdfSetting)
    ensures DeriveKey(p1, s1, c1) == DeriveKey(p2, s2, c2) <==> p1 == p2 && s1 == s2 && c1 == c2
  {
    if DeriveKey(p1, s1, c1) == DeriveKey(p2, s2, c2) {
      Utf8.EncodeInjective(p1, p2);
    }
  }

  /** AEAD output. `Sealed` is what `encrypt` produced; `Opaque` is any other
      byte string presented as a ciphertext (corrupted, forged, foreign). */
  datatype Ciphertext =
    | Sealed(algorithm: Algorithm, key: Key, nonce: seq<byte>, plaintext: seq<byte>)
    | Opaque(bytes: seq<byte>)

  /** `cipher.encrypt(nonce, plaintext)` with a 12-byte nonce: opening the
      result under the same cipher, key and nonce gives the plaintext back,
      and under any other key it fails. */
  function Seal(alg: Algorithm, key: Key, nonce: Bytes12, plaintext: seq<byte>): (c: Ciphertext)
    ensures Open(alg, key, c, nonce) == Ok(plaintext)
    ensures forall other: Key :: other != key ==> Open(alg, other, c, nonce).Err?
  {
    Sealed(alg, key, nonce, plaintext)
  }

  /** The error text of `decrypt_aes256gcm` / `decrypt_chacha20poly1305`;
      `aead::Error` displays as `aead::Error`. */
  function DecryptFailure(alg: Algorithm): string {
    match alg
    case Aes256Gcm => "AES-256-GCM decryption failed: aead::Error"
    case ChaCha20Poly1305 => "ChaCha20-Poly1305 decryption failed: aead::Error"
  }

  /** `cipher.decrypt(nonce, ciphertext)`: succeeds exactly on a ciphertext
      sealed by the same cipher under the same key and nonce.
      `Nonce::from_slice` panics unless the nonce has 12 bytes, hence the
      precondition. */
  function Open(alg: Algorithm, key: Key, ct: Ciphertext, nonce: seq<byte>): (r: Result<seq<byte>>)
    requires |nonce| == 12
    ensures r.Ok? <==> ct.Sealed? && ct.algorithm == alg && ct.key == key && ct.nonce == nonce
    ensures r.Ok? ==> ct == Sealed(alg, key, nonce, r.value)
    ensures r.Err? ==> r.error == Crypto(DecryptFailure(alg))
  {
    if ct.Sealed? && ct.algorithm == alg && ct.key == key && ct.nonce == nonce then Ok(ct.plaintext)
    else Err(Crypto(DecryptFailure(alg)))
  }
}

=== FILE: app_auth.dfy ===
/** Roles and sessions of the application's `auth` module: the session the
    CLI commands consult before they act. The clock is a parameter: `now` is
    the instant `Utc::now()` returns during the call. */
module AppAuth {
  import opened Base
  import opened Text
  import SessionFile

  datatype Role = Admin | Owner | Writer | Reader | Auditor

  predicate CanRead(r: Role) {
    true
  }

  predicate CanWrite(r: Role) {
    r.Admin? || r.Owner? || r.Writer?
  }

  predicate CanAdmin(r: Role) {
    r.Admin? || r.Owner?
  }

  /** Only administrators and auditors may read the audit log; owners may
      not. */
  predicate CanAudit(r: Role) {
    r.Admin? || r.Auditor?
  }

  /** The permissions nest for reading, writing and administration, but the
      audit permission sits outside that chain: an auditor audits without
      writing, and an owner administers without auditing. */
  lemma PermissionLattice(r: Role)
    ensures CanAdmin(r) ==> CanWrite(r)
    ensures CanWrite(r) ==> CanRead(r)
    ensures CanAudit(r) && !CanWrite(r) <==> r == Auditor
    ensures CanAdmin(r) && !CanAudit(r) <==> r == Owner
  {
  }

  /** The lower-case name the CLI accepts for each role. */
  function RoleName(r: Role): string {
    match r
    case Admin => "admin"
    case Owner => "owner"
    case Writer => "writer"
    case Reader => "reader"
    case Auditor => "auditor"
  }

  /** The CLI's role parsing: the argument, lower-cased, must be one of the
      five names. */
  function ParseRole(s: string): (r: Option<Role>)
    ensures r.Some? ==> ToLower(s) == RoleName(r.value)
  {
    var l := ToLower(s);
    if l == "admin" then Some(Admin)
    else if l == "owner" then Some(Owner)
    else if l == "writer" then Some(Writer)
    else if l == "reader" then Some(Reader)
    else if l == "auditor" then Some(Auditor)
    else None
  }

  /** A role argument is accepted exactly when it spells a role's name in
      any mix of upper and lower case, and then it names that role. */
  lemma ParseRoleIff(s: string, r: Role)
    ensures ParseRole(s) == Some(r) <==> ToLower(s) == RoleName(r)
  {
  }

  /** Every role's own name parses back to it. */
  lemma ParseRoleName(r: Role)
    ensures ParseRole(RoleName(r)) == Some(r)
  {
    var n := RoleName(r);
    assert forall i :: 0 <= i < |n| ==> !('A' <= n[i] <= 'Z');
    assert ToLower(n) == n;
  }

  /** Only the lower-cased spelling matters. */
  lemma ParseRoleCaseInsensitive(s1: string, s2: string)
    requires ToLower(s1) == ToLower(s2)
    ensures ParseRole(s1) == ParseRole(s2)
  {
  }

  datatype Session = Session(
    id: Uuid,
    tenantId: string,
    userId: string,
    role: Role,
    createdAt: Time,
    expiresAt: Time)

  /** `Session::new(tenant, user, role, duration_hours)`. */
  function NewSession(tenantId: string, userId: string, role: Role, durationHours: int, now: Time, id: Uuid): (s: Session)
    ensures s.id == id && s.tenantId == tenantId && s.userId == userId && s.role == role
    ensures s.createdAt == now
    ensures Lifetime(s) == Hours(durationHours)
  {
    Session(id, tenantId, userId, role, now, now + Hours(durationHours))
  }

  /** The span between creation and expiry. */
  function Lifetime(s: Session): int {
    s.expiresAt - s.createdAt
  }

  /** `is_valid`: the expiry lies strictly in the future. */
  predicate IsValid(s: Session, now: Time) {
    now < s.expiresAt
  }

  /** `time_until_expiry`. */
  function TimeUntilExpiry(s: Session, now: Time): (d: int)
    ensures now + d == s.expiresAt
  {
    s.expiresAt - now
  }

  /** A session is valid exactly while time remains before its expiry. */
  lemma ValidIffTimeLeft(s: Session, now: Time)
    ensures IsValid(s, now) <==> TimeUntilExpiry(s, now) > 0
  {
  }

  /** A fresh session with a positive duration is valid from its creation
      until, but not including, the end of that duration. */
  lemma NewSessionValidity(tenantId: string, userId: string, role: Role, durationHours: int, now: Time, id: Uuid, t: Time)
    ensures IsValid(NewSession(tenantId, userId, role, durationHours, now, id), t) <==> t < now + Hours(durationHours)
  {
  }

  /** `refresh` as written: the new expiry is `now` plus the distance from
      creation to the old expiry, and the creation instant stays put. */
  function RefreshAsWritten(s: Session, now: Time): (r: Session)
    ensures r.(expiresAt := s.expiresAt) == s
    ensures TimeUntilExpiry(r, now) == Lifetime(s)
  {
    s.(expiresAt := now + (s.expiresAt - s.createdAt))
  }

  /** Because the creation instant is not moved, each refresh lengthens the
      lifetime by the time elapsed since creation. */
  lemma RefreshAsWrittenGrows(s: Session, now: Time)
    ensures Lifetime(RefreshAsWritten(s, now)) == Lifetime(s) + (now - s.createdAt)
    ensures now > s.createdAt ==> Lifetime(RefreshAsWritten(s, now)) > Lifetime(s)
  {
  }

  /** A 24-hour session created at instant 0, refreshed at hour 23 and
      again at hour 46, ends up expiring at hour 93 rather than hour 70: the
      second refresh grants 47 hours. */
  lemma RefreshAsWrittenCounterexample(tenantId: string, userId: string, role: Role, id: Uuid)
    ensures var s0 := NewSession(tenantId, userId, role, 24, 0, id);
            var s1 := RefreshAsWritten(s0, Hours(23));
            var s2 := RefreshAsWritten(s1, Hours(46));
            s1.expiresAt == Hours(47) && s2.expiresAt == Hours(93)
            && TimeUntilExpiry(s2, Hours(46)) == Hours(47)
  {
  }

  /** `refresh` as intended: restart the session's original duration at
      `now`, moving the creation instant along with the expiry. */
  function Refresh(s: Session, now: Time): (r: Session)
    ensures r.(createdAt := s.createdAt, expiresAt := s.expiresAt) == s
    ensures r.createdAt == now
    ensures Lifetime(r) == Lifetime(s)
  {
    s.(createdAt := now, expiresAt := now + (s.expiresAt - s.createdAt))
  }

  /** Refreshing at each of the given instants in turn. */
  function RefreshAt(s: Session, times: seq<Time>): Session
    decreases |times|
  {
    if |times| == 0 then s else RefreshAt(Refresh(s, times[0]), times[1..])
  }

  /** However often a session is refreshed, it keeps the duration it was
      created with, and after the last refresh it expires exactly that
      duration later. */
  lemma {:induction false} RefreshAtKeepsLifetime(s: Session, times: seq<Time>)
    ensures Lifetime(RefreshAt(s, times)) == Lifetime(s)
    ensures |times| > 0 ==> RefreshAt(s, times).expiresAt == times[|times| - 1] + Lifetime(s)
    decreases |times|
  {
    if |times| > 0 {
      RefreshAtKeepsLifetime(Refresh(s, times[0]), times[1..]);
      if |times| > 1 {
        assert times[1..][|times[1..]| - 1] == times[|times| - 1];
      }
    }
  }

  /** The corrected refresh, applied to the same 24-hour session at hours
      23 and 46, expires at hour 70. */
  lemma RefreshCorrected(tenantId: string, userId: string, role: Role, id: Uuid)
    ensures var s0 := NewSession(tenantId, userId, role, 24, 0, id);
            Refresh(Refresh(s0, Hours(23)), Hours(46)).expiresAt == Hours(70)
  {
  }

  /** `Duration::num_hours`: whole hours, truncated toward zero. */
  function WholeHours(d: int): (h: int)
    ensures d >= 0 ==> h >= 0 && Hours(h) <= d < Hours(h + 1)
    ensures d < 0 ==> h <= 0 && Hours(h - 1) < d <= Hours(h)
  {
    if d >= 0 then d / NANOS_PER_HOUR else -((-d) / NANOS_PER_HOUR)
  }

  /** The session file of this manager (JSON). */
  type SessionSlot = SessionFile.Slot<Session>

  /** `SessionManager::load_session` at instant `now`. */
  function LoadSession(slot: SessionSlot, now: Time): (r: (SessionSlot, Result<Option<Session>>))
    ensures r.1.Err? <==> slot.Undecodable?
    ensures r.1.Err? ==> r.1.error == Json
    ensures r.1.Ok? && r.1.value.Some? <==> slot.Stored? && IsValid(slot.session, now)
    ensures r.1.Ok? && r.1.value.Some? ==> r.1.value.value == slot.session
    ensures slot.Stored? && !IsValid(slot.session, now) ==> r.0.NoFile?
    ensures r.0.Stored? ==> IsValid(r.0.session, now)
  {
    SessionFile.Load(slot, s => IsValid(s, now), Json)
  }

  /** `SessionManager::get_current_session` at instant `now`. */
  function GetCurrentSession(slot: SessionSlot, now: Time): (r: (SessionSlot, Result<Session>))
    ensures r.0 == LoadSession(slot, now).0
    ensures r.1.Ok? <==> slot.Stored? && IsValid(slot.session, now)
    ensures r.1.Ok? ==> r.1.value == slot.session
    ensures slot.Undecodable? ==> r.1 == Err(Json)
    ensures !slot.Undecodable? && r.1.Err? ==> r.1.error == Auth("No valid session found")
  {
    SessionFile.Current(slot, s => IsValid(s, now), Json, "No valid session found")
  }

  /** A saved session stays current until its expiry and not an instant
      longer; once expired, asking for it deletes the file. */
  lemma SavedSessionLifetime(s: Session, now: Time)
    ensures GetCurrentSession(SessionFile.Save(s), now).1 == if now < s.expiresAt then Ok(s) else Err(Auth("No valid session found"))
    ensures now >= s.expiresAt ==> GetCurrentSession(SessionFile.Save(s), now).0.NoFile?
  {
  }
}

=== FILE: app_config.dfy ===
/** `config`: the application's settings and their defaults. Loading and
    saving the TOML file is file I/O and is not modelled; the home directory
    the default storage path is built from is a parameter. */
module AppConfig {
  import opened Base
  import Aead

  /** `CloudMode`; its `None` variant is called `Disabled` here so that it
      does not clash with `Option.None`. */
  datatype CloudMode = Disabled | Backup | Collaborative

  /** `CloudBackend`. */
  datatype CloudBackend = S3 | Postgres

  /** `CloudConfig`. */
  datatype CloudConfig = CloudConfig(
    mode: CloudMode,
    backend: Option<CloudBackend>,
    region: Option<string>,
    bucket: Option<string>,
    databaseUrl: Option<string>,
    envelopeEncryption: Option<bool>,
    syncIntervalMinutes: Option<nat>)

  /** `SecurityConfig`: the three KDF costs are `u32`, the timeout `i64`. */
  datatype SecurityConfig = SecurityConfig(
    encryptionAlgorithm: string,
    kdfMemoryCost: nat,
    kdfTimeCost: nat,
    kdfParallelism: nat,
    sessionTimeoutHours: int,
    require2fa: bool)

  /** `UiConfig`. */
  datatype UiConfig = UiConfig(
    colorOutput: bool,
    progressBars: bool,
    tableFormat: string,
    dateFormat: string)

  /** `Config`. */
  datatype Config = Config(
    storagePath: string,
    tenantId: Option<string>,
    cloud: Option<CloudConfig>,
    security: SecurityConfig,
    ui: UiConfig)

  /** `SecurityConfig::default()`. */
  function DefaultSecurity(): (s: SecurityConfig)
    ensures s.encryptionAlgorithm == "aes256gcm"
    ensures s.sessionTimeoutHours == 24 && !s.require2fa
  {
    SecurityConfig("aes256gcm", 65536, 3, 1, 24, false)
  }

  /** `UiConfig::default()`. */
  function DefaultUi(): (u: UiConfig)
    ensures u.colorOutput && u.progressBars
    ensures u.tableFormat == "modern" && u.dateFormat == "%Y-%m-%d %H:%M:%S UTC"
  {
    UiConfig(true, true, "modern", "%Y-%m-%d %H:%M:%S UTC")
  }

  /** `PathBuf::join` for a relative component: a separator is inserted
      unless the base is empty or already ends in one. */
  function JoinPath(base: string, part: string): (p: string)
    ensures |p| >= |base| + |part|
    ensures p[|p| - |part|..] == part && p[..|base|] == base
  {
    if base == [] || base[|base| - 1] == '/' then base + part else base + "/" + part
  }

  /** `Config::default()`: the store lives at `.vault/vault.db` under the
      home directory, or under "." when there is none; no tenant is chosen
      and cloud sync is not configured. */
  function DefaultConfig(home: Option<string>): (c: Config)
    ensures c.tenantId.None? && c.cloud.None?
    ensures c.security == DefaultSecurity() && c.ui == DefaultUi()
    ensures |c.storagePath| >= |home.UnwrapOr(".")| + |".vault"| + |"vault.db"|
    ensures c.storagePath[..|home.UnwrapOr(".")|] == home.UnwrapOr(".")
    ensures c.storagePath[|c.storagePath| - 8..] == "vault.db"
  {
    Config.Config(JoinPath(JoinPath(home.UnwrapOr("."), ".vault"), "vault.db"), None, None, DefaultSecurity(), DefaultUi())
  }

  /** The name of the one non-default cipher. */
  const CHACHA_NAME: string := "chacha20poly1305"

  /** `Config::get_encryption_algorithm`: exactly "chacha20poly1305" selects
      ChaCha20-Poly1305; every other string, whatever its case, selects
      AES-256-GCM. */
  function GetEncryptionAlgorithm(c: Config): (a: Aead.Algorithm)
    ensures a == Aead.ChaCha20Poly1305 <==> c.security.encryptionAlgorithm == CHACHA_NAME
    ensures a == Aead.Aes256Gcm <==> c.security.encryptionAlgorithm != CHACHA_NAME
  {
    if c.security.encryptionAlgorithm == CHACHA_NAME then Aead.ChaCha20Poly1305 else Aead.Aes256Gcm
  }

  /** `Config::get_key_derivation_params`: the three costs, unchanged. */
  function GetKeyDerivationParams(c: Config): (p: Aead.KdfParams)
    ensures p.memoryCost == c.security.kdfMemoryCost
    ensures p.timeCost == c.security.kdfTimeCost
    ensures p.parallelism == c.security.kdfParallelism
  {
    Aead.KdfParams(c.security.kdfMemoryCost, c.security.kdfTimeCost, c.security.kdfParallelism)
  }

  /** A default configuration asks for the key derivation costs that
      `KeyDerivationParams::default()` uses, and for AES-256-GCM (its
      "aes256gcm" reaches AES through the catch-all arm). */
  lemma DefaultCryptoSettings(home: Option<string>)
    ensures GetKeyDerivationParams(DefaultConfig(home)) == Aead.DEFAULT_KDF_PARAMS
    ensures GetEncryptionAlgorithm(DefaultConfig(home)) == Aead.Aes256Gcm
  {
  }

  /** The algorithm name is matched case-sensitively: upper-case spelling of
      the ChaCha name selects AES. */
  lemma AlgorithmNameCaseSensitive(c: Config)
    requires c.security.encryptionAlgorithm == "ChaCha20Poly1305"
    ensures GetEncryptionAlgorithm(c) == Aead.Aes256Gcm
  {
  }

  /** Writing the parameters back into a configuration and reading them
      again gives the same parameters. */
  lemma KeyDerivationParamsRoundTrip(c: Config, p: Aead.KdfParams)
    ensures GetKeyDerivationParams(c.(security := c.security.(kdfMemoryCost := p.memoryCost,
                                                               kdfTimeCost := p.timeCost,
                                                               kdfParallelism := p.parallelism))) == p
  {
  }

  /** Whether a cloud section is present with mode `Collaborative`, as the
      user-management and login commands test it. */
  predicate IsCollaborative(c: Config) {
    c.cloud.Some? && c.cloud.value.mode == Collaborative
  }
}

=== FILE: audit.dfy ===
/** `storage::audit`: audit entries, their builder methods, and the
    `AuditLogger` helpers and event names. */
module Audit {
  import opened Base
  import opened Json

  datatype AuditEntry = AuditEntry(
    id: Uuid,
    tenantId: string,
    eventType: string,
    description: string,
    timestamp: Time,
    userId: string,
    ipAddress: Option<string>,
    userAgent: Option<string>,
    resourceType: Option<string>,
    resourceId: Option<string>,
    metadata: Option<Json>)

  /** The four fields every entry is built from. */
  predicate Describes(e: AuditEntry, tenantId: string, eventType: string, description: string, userId: string) {
    e.tenantId == tenantId && e.eventType == eventType && e.description == description && e.userId == userId
  }

  /** No optional field is set. */
  predicate Bare(e: AuditEntry) {
    e.ipAddress.None? && e.userAgent.None? && e.resourceType.None? && e.resourceId.None? && e.metadata.None?
  }

  /** `AuditEntry::new(tenant_id, event_type, description, user_id)`, with
      the fresh id and the current time as inputs. */
  function New(tenantId: string, eventType: string, description: string, userId: string, id: Uuid, now: Time): (e: AuditEntry)
    ensures Describes(e, tenantId, eventType, description, userId)
    ensures e.id == id && e.timestamp == now
    ensures Bare(e)
  {
    AuditEntry(id, tenantId, eventType, description, now, userId, None, None, None, None, None)
  }

  /** `with_resource`: sets the resource type and id, nothing else. */
  function WithResource(e: AuditEntry, resourceType: string, resourceId: string): (r: AuditEntry)
    ensures r.resourceType == Some(resourceType) && r.resourceId == Some(resourceId)
    ensures r.(resourceType := e.resourceType, resourceId := e.resourceId) == e
  {
    e.(resourceType := Some(resourceType), resourceId := Some(resourceId))
  }

  /** `with_metadata`: sets the metadata, nothing else. */
  function WithMetadata(e: AuditEntry, metadata: Json): (r: AuditEntry)
    ensures r.metadata == Some(metadata)
    ensures r.(metadata := e.metadata) == e
  {
    e.(metadata := Some(metadata))
  }

  /** `with_context`: overwrites both context fields with the given options,
      `None` included, and nothing else. */
  function WithContext(e: AuditEntry, ipAddress: Option<string>, userAgent: Option<string>): (r: AuditEntry)
    ensures r.ipAddress == ipAddress && r.userAgent == userAgent
    ensures r.(ipAddress := e.ipAddress, userAgent := e.userAgent) == e
  {
    e.(ipAddress := ipAddress, userAgent := userAgent)
  }

  /** The builders touch disjoint fields, so their order does not matter. */
  lemma BuildersCommute(e: AuditEntry, rt: string, rid: string, m: Json, ip: Option<string>, ua: Option<string>)
    ensures WithContext(WithResource(e, rt, rid), ip, ua) == WithResource(WithContext(e, ip, ua), rt, rid)
    ensures WithMetadata(WithResource(e, rt, rid), m) == WithResource(WithMetadata(e, m), rt, rid)
    ensures WithMetadata(WithContext(e, ip, ua), m) == WithContext(WithMetadata(e, m), ip, ua)
  {
  }

  // The event names of `AuditLogger`.
  const EVENT_LOGIN := "login"
  const EVENT_LOGOUT := "logout"
  const EVENT_SECRET_CREATED := "secret_created"
  const EVENT_SECRET_ACCESSED := "secret_accessed"
  const EVENT_SECRET_UPDATED := "secret_updated"
  const EVENT_SECRET_DELETED := "secret_deleted"
  const EVENT_TENANT_CREATED := "tenant_created"
  const EVENT_USER_ADDED := "user_added"
  const EVENT_USER_REMOVED := "user_removed"
  const EVENT_ROLE_CHANGED := "role_changed"
  const EVENT_SYNC_PUSH := "sync_push"
  const EVENT_SYNC_PULL := "sync_pull"
  const EVENT_EXPORT := "export"
  const EVENT_IMPORT := "import"

  /** `AuditLogger::create_entry`: `AuditEntry::new` on the same strings. Two
      entries created from the same strings differ at most in id and
      timestamp. */
  function CreateEntry(tenantId: string, eventType: string, description: string, userId: string, id: Uuid, now: Time): (e: AuditEntry)
    ensures Describes(e, tenantId, eventType, description, userId) && Bare(e)
    ensures forall id2: Uuid, now2: Time ::
      New(tenantId, eventType, description, userId, id2, now2) == e.(id := id2, timestamp := now2)
  {
    New(tenantId, eventType, description, userId, id, now)
  }

  /** `AuditLogger::log_event`: prints the entry and never fails. */
  function LogEvent(e: AuditEntry): (r: Result<()>)
    ensures r.Ok?
  {
    Ok(())
  }
}

=== FILE: base.dfy ===
/** Shared vocabulary of the vault model: bytes, instants, identifiers, and the
    error taxonomy of `VaultError` with the `Result` alias every fallible
    operation of the application returns. */
module Base {

  /** An octet, as in `Vec<u8>` / `[u8; N]`. */
  type byte = b: int | 0 <= b < 256

  /** A 32-byte array (`[u8; 32]`): keys, salts, password hashes. */
  type Bytes32 = s: seq<byte> | |s| == 32 witness Zeros(32)

  /** A 12-byte AEAD nonce. */
  type Bytes12 = s: seq<byte> | |s| == 12 witness Zeros(12)

  function Zeros(n: nat): (z: seq<byte>)
    ensures |z| == n
    ensures forall i :: 0 <= i < n ==> z[i] == 0
  {
    seq(n, i => 0)
  }

  /** An instant of `DateTime<Utc>`, as nanoseconds since the Unix epoch
      (the unit `timestamp_nanos()` reports). */
  type Time = int

  const NANOS_PER_HOUR: int := 3_600_000_000_000

  /** `chrono::Duration::hours(h)` in nanoseconds. */
  function Hours(h: int): int { h * NANOS_PER_HOUR }

  /** `chrono::Duration::days(d)` in nanoseconds. */
  function Days(d: int): int { Hours(24 * d) }

  /** A `Uuid::new_v4()` value; the generator is an input of every operation
      that mints one. */
  datatype Uuid = Uuid(bits: nat)

  datatype Option<+T> = None | Some(value: T) {
    function UnwrapOr(default: T): T {
      match this
      case Some(v) => v
      case None => default
    }
  }

  /** The variants of `VaultError` (app/src/error.rs). Variants that wrap a
      foreign error (`sled`, `bincode`, `serde_json`, `io`, UTF-8) carry no
      payload here: their text comes from code outside this model. */
  datatype VaultError =
    | Storage
    | Serialization
    | Json
    | Chrono(msg: string)
    | Io
    | Crypto(msg: string)
    | Utf8
    | Auth(msg: string)
    | Config(msg: string)
    | Sync(msg: string)
    | TenantNotFound(tenant: string)
    | SecretNotFound(what: string)
    | VaultLocked
    | InvalidPassphrase
    | PermissionDenied(msg: string)

  /** `crate::error::Result<T>`; usable with `:-` like Rust's `?`. */
  datatype Result<+T> = Ok(value: T) | Err(error: VaultError) {
    predicate IsFailure() { Err? }

    function PropagateFailure<U>(): Result<U>
      requires Err?
    {
      Err(error)
    }

    function Extract(): T
      requires Ok?
    {
      value
    }
  }
}

=== FILE: charset.dfy ===
/** The character sets the random generators draw from: the 62 ASCII
    letters and digits (`rng.gen_range(0..62)` indexes them), and the 26
    symbols `generate_password` may add. */
module Charset {

  /** "abcdefghijklmnopqrstuvwxyzABCDEFGHIJKLMNOPQRSTUVWXYZ0123456789",
      spelled out position by position by `AlnumChar`. */
  const ALPHANUMERIC: string := AlnumPrefix(62)

  /** The first `n` characters of `ALPHANUMERIC`. */
  function AlnumPrefix(n: nat): (s: string)
    requires n <= 62
    ensures |s| == n
    ensures forall d :: 0 <= d < n ==> s[d] == AlnumChar(d)
  {
    if n == 0 then [] else AlnumPrefix(n - 1) + [AlnumChar(n - 1)]
  }

  const SYMBOLS: string := "!@#$%^&*()_+-=[]{}|;:,.<>?"

  /** ASCII letters and digits. */
  predicate IsAlnum(c: char) {
    'a' <= c <= 'z' || 'A' <= c <= 'Z' || '0' <= c <= '9'
  }

  /** Position `d` of `ALPHANUMERIC`, computed: lower case, then upper case,
      then digits. */
  function AlnumChar(d: nat): (c: char)
    requires d < 62
    ensures IsAlnum(c)
  {
    if d < 26 then ('a' as int + d) as char
    else if d < 52 then ('A' as int + (d - 26)) as char
    else ('0' as int + (d - 52)) as char
  }

  /** Where an ASCII letter or digit sits in `ALPHANUMERIC`. */
  function AlnumIndex(c: char): (d: nat)
    requires IsAlnum(c)
    ensures d < 62 && AlnumChar(d) == c
  {
    if 'a' <= c <= 'z' then c as int - 'a' as int
    else if 'A' <= c <= 'Z' then c as int - 'A' as int + 26
    else c as int - '0' as int + 52
  }

  /** The alphabet starts with the lower-case letters, continues with the
      upper-case ones and ends with the digits. */
  lemma AlphanumericLayout()
    ensures |ALPHANUMERIC| == 62
    ensures ALPHANUMERIC[0] == 'a' && ALPHANUMERIC[25] == 'z'
    ensures ALPHANUMERIC[26] == 'A' && ALPHANUMERIC[51] == 'Z'
    ensures ALPHANUMERIC[52] == '0' && ALPHANUMERIC[61] == '9'
  {
  }

  /** Each position of the alphabet holds the character `AlnumChar` computes. */
  lemma AlphanumericAt()
    ensures |ALPHANUMERIC| == 62
    ensures forall d :: 0 <= d < 62 ==> ALPHANUMERIC[d] == AlnumChar(d)
  {
  }

  /** Distinct positions hold distinct characters. */
  lemma AlnumCharInjective(d1: nat, d2: nat)
    requires d1 < 62 && d2 < 62
    ensures AlnumChar(d1) == AlnumChar(d2) <==> d1 == d2
  {
  }

  /** The alphabet holds exactly the ASCII letters and digits. */
  lemma AlphanumericMembers(c: char)
    ensures c in ALPHANUMERIC <==> IsAlnum(c)
  {
    if IsAlnum(c) {
      assert ALPHANUMERIC[AlnumIndex(c)] == c;
    }
  }

  /** The first position of `c` in `s`. */
  function IndexOf(s: string, c: char): (i: nat)
    requires c in s
    ensures i < |s| && s[i] == c
    ensures forall j :: 0 <= j < i ==> s[j] != c
  {
    if s[0] == c then 0 else 1 + IndexOf(s[1..], c)
  }
}

=== FILE: cli_admin.dfy ===
/** `vault roles …` and `vault audit …` (`roles_command`,
    `audit_command`). Role changes are only recorded as audit entries,
    which `AuditLogger::log_event` prints; the role list and the audit log
    the handlers show are fixed sample rows in the application, so the rows
    are an input here. */
module AdminCommand {
  import opened Base
  import opened Gate
  import opened Text
  import AppAuth
  import Audit

  /** `RoleAction`. */
  datatype RoleAction =
    | AddRole(tenant: string, user: string, role: string)
    | RemoveRole(tenant: string, user: string)
    | ListRoles(tenant: string)

  const ADMIN_REQUIRED: string := "Admin permissions required for role management"

  function InvalidRole(role: string): string {
    "Invalid role: " + role + ". Valid roles: admin, owner, writer, reader, auditor"
  }

  /** The two entries a successful Add logs, in order: the user joined the
      tenant, then was given the role. Both name the acting user. */
  function AddEntries(tenant: string, user: string, role: string, actor: string, ids: (Uuid, Uuid), now: Time): (es: seq<Audit.AuditEntry>)
    ensures |es| == 2
    ensures Audit.Describes(es[0], tenant, Audit.EVENT_USER_ADDED, "User " + user + " added with role " + role, actor)
    ensures Audit.Describes(es[1], tenant, Audit.EVENT_ROLE_CHANGED, "User " + user + " assigned role " + role, actor)
  {
    [Audit.New(tenant, Audit.EVENT_USER_ADDED, "User " + user + " added with role " + role, actor, ids.0, now),
     Audit.New(tenant, Audit.EVENT_ROLE_CHANGED, "User " + user + " assigned role " + role, actor, ids.1, now)]
  }

  /** `roles_command(action)` with the session file `slot` at `now`: the
      audit entries it logs. `ids` are the entries' fresh ids and `confirm`
      the answer to the removal prompt. The role is validated but the
      entries quote the argument as typed. */
  function Roles(action: RoleAction, slot: AppAuth.SessionSlot, now: Time, ids: (Uuid, Uuid), confirm: bool): (r: (AppAuth.SessionSlot, Outcome<seq<Audit.AuditEntry>>))
    ensures r.0 == AppAuth.GetCurrentSession(slot, now).0
    ensures !r.1.Fail?
    ensures r.1.Proceed? ==> Admits(slot, now, AppAuth.CanAdmin)
    ensures r.1.Proceed? && action.AddRole? ==>
              AppAuth.ParseRole(action.role).Some?
              && r.1.effect == AddEntries(action.tenant, action.user, action.role, slot.session.userId, ids, now)
    ensures r.1.Proceed? && action.RemoveRole? ==>
              confirm && |r.1.effect| == 1
              && Audit.Describes(r.1.effect[0], action.tenant, Audit.EVENT_USER_REMOVED, "User " + action.user + " removed from tenant", slot.session.userId)
    ensures r.1.Proceed? && action.ListRoles? ==> r.1.effect == []
  {
    var (after, checked) := Check(slot, now, AppAuth.CanAdmin, ADMIN_REQUIRED);
    match checked
    case Stop(m) => (after, Stop(m))
    case Fail(m) => (after, Fail(m))
    case Proceed(session) =>
      match action
      case AddRole(tenant, user, role) =>
        if AppAuth.ParseRole(role).None? then (after, Stop(InvalidRole(role)))
        else (after, Proceed(AddEntries(tenant, user, role, session.userId, ids, now)))
      case RemoveRole(tenant, user) =>
        if !confirm then (after, Stop(CANCELLED))
        else (after, Proceed([Audit.CreateEntry(tenant, Audit.EVENT_USER_REMOVED, "User " + user + " removed from tenant", session.userId, ids.0, now)]))
      case ListRoles(_) => (after, Proceed([]))
  }

  /** Role management needs a current session whose role may administer;
      with one, an Add with a role name that does not parse logs nothing,
      and an Add with one that does logs `user_added` then `role_changed`. */
  lemma RolesGate(action: RoleAction, slot: AppAuth.SessionSlot, now: Time, ids: (Uuid, Uuid), confirm: bool)
    ensures !(slot.Stored? && AppAuth.IsValid(slot.session, now)) ==> Roles(action, slot, now, ids, confirm).1 == Stop(LOGIN_FIRST)
    ensures slot.Stored? && AppAuth.IsValid(slot.session, now) && !AppAuth.CanAdmin(slot.session.role) ==>
              Roles(action, slot, now, ids, confirm).1 == Stop(ADMIN_REQUIRED)
    ensures Admits(slot, now, AppAuth.CanAdmin) && action.AddRole? ==>
              (Roles(action, slot, now, ids, confirm).1.Proceed? <==> AppAuth.ParseRole(action.role).Some?)
    ensures Admits(slot, now, AppAuth.CanAdmin) && action.AddRole? && AppAuth.ParseRole(action.role).Some? ==>
              var es := Roles(action, slot, now, ids, confirm).1.effect;
              es[0].eventType == Audit.EVENT_USER_ADDED && es[1].eventType == Audit.EVENT_ROLE_CHANGED
  {
  }

  /** `AuditAction`. */
  datatype AuditAction =
    | Tail(lines: Option<nat>, follow: bool)
    | Search(query: string, since: Option<string>, until: Option<string>)

  /** One row of the audit table: when, which event, what happened. */
  datatype AuditRow = AuditRow(timestamp: string, eventType: string, description: string)

  const AUDIT_REQUIRED: string := "Audit permissions required to view logs"

  /** The number of rows `tail` shows when `--lines` is not given. */
  const DEFAULT_TAIL_LINES: nat := 50

  /** `rows.iter().take(limit)`: the first `limit` rows, in order. */
  function Take(rows: seq<AuditRow>, limit: nat): (r: seq<AuditRow>)
    ensures |r| == if limit < |rows| then limit else |rows|
    ensures r <= rows
  {
    if limit < |rows| then rows[..limit] else rows
  }

  /** The search test: the query occurs in the event name or in the
      description, ignoring ASCII case. */
  predicate Matches(query: string, row: AuditRow) {
    Contains(ToLower(row.eventType), ToLower(query)) || Contains(ToLower(row.description), ToLower(query))
  }

  /** `rows.iter().filter(matches).collect()`. */
  function Filter(query: string, rows: seq<AuditRow>): (r: seq<AuditRow>)
    ensures |r| <= |rows|
    ensures forall x :: x in r <==> x in rows && Matches(query, x)
  {
    if |rows| == 0 then []
    else if Matches(query, rows[0]) then [rows[0]] + Filter(query, rows[1..])
    else Filter(query, rows[1..])
  }

  /** Filtering works row by row and keeps the order: the rows kept from
      two stretches of the log are the rows kept from each, one after the
      other. */
  lemma {:induction false} FilterAppend(query: string, a: seq<AuditRow>, b: seq<AuditRow>)
    ensures Filter(query, a + b) == Filter(query, a) + Filter(query, b)
    decreases |a|
  {
    if |a| == 0 {
      assert a + b == b;
    } else {
      assert (a + b)[0] == a[0];
      assert (a + b)[1..] == a[1..] + b;
      FilterAppend(query, a[1..], b);
      if Matches(query, a[0]) {
        assert [a[0]] + (Filter(query, a[1..]) + Filter(query, b)) == ([a[0]] + Filter(query, a[1..])) + Filter(query, b);
      }
    }
  }

  /** An empty query matches every row, so it keeps the whole log. */
  lemma {:induction false} FilterEmptyQuery(rows: seq<AuditRow>)
    ensures Filter("", rows) == rows
    decreases |rows|
  {
    if |rows| > 0 {
      assert StartsWith(ToLower(rows[0].eventType), "");
      FilterEmptyQuery(rows[1..]);
    }
  }

  /** The query's case does not matter. */
  lemma {:induction false} FilterCaseInsensitive(q1: string, q2: string, rows: seq<AuditRow>)
    requires ToLower(q1) == ToLower(q2)
    ensures Filter(q1, rows) == Filter(q2, rows)
    decreases |rows|
  {
    if |rows| > 0 {
      FilterCaseInsensitive(q1, q2, rows[1..]);
    }
  }

  /** `audit_command(action)` with the session file `slot` at `now`: the
      rows it shows. The `follow` mode's extra lines and the `since` and
      `until` bounds are only printed. */
  function AuditLog(action: AuditAction, slot: AppAuth.SessionSlot, now: Time, rows: seq<AuditRow>): (r: (AppAuth.SessionSlot, Outcome<seq<AuditRow>>))
    ensures r.0 == AppAuth.GetCurrentSession(slot, now).0
    ensures r.1.Proceed? <==> Admits(slot, now, AppAuth.CanAudit)
    ensures !r.1.Fail?
    ensures r.1.Proceed? && action.Tail? ==> r.1.effect == Take(rows, action.lines.UnwrapOr(DEFAULT_TAIL_LINES))
    ensures r.1.Proceed? && action.Search? ==> r.1.effect == Filter(action.query, rows)
  {
    var (after, checked) := Check(slot, now, AppAuth.CanAudit, AUDIT_REQUIRED);
    match checked
    case Stop(m) => (after, Stop(m))
    case Fail(m) => (after, Fail(m))
    case Proceed(_) =>
      match action
      case Tail(lines, _) => (after, Proceed(Take(rows, lines.UnwrapOr(DEFAULT_TAIL_LINES))))
      case Search(query, _, _) => (after, Proceed(Filter(query, rows)))
  }

  /** Tail shows the first rows of the log, at most the requested number
      and 50 when none is requested; only admins and auditors see them. */
  lemma TailShowsPrefix(lines: Option<nat>, follow: bool, slot: AppAuth.SessionSlot, now: Time, rows: seq<AuditRow>)
    requires Admits(slot, now, AppAuth.CanAudit)
    ensures var shown := AuditLog(Tail(lines, follow), slot, now, rows).1.effect;
            && shown <= rows
            && |shown| <= lines.UnwrapOr(50)
            && (lines.None? && |rows| >= 50 ==> |shown| == 50)
    ensures slot.session.role == AppAuth.Admin || slot.session.role == AppAuth.Auditor
  {
  }

  /** The search bounds are ignored: the same query finds the same rows
      whatever `since` and `until` say. */
  lemma SearchIgnoresBounds(query: string, s1: Option<string>, u1: Option<string>, s2: Option<string>, u2: Option<string>,
                            slot: AppAuth.SessionSlot, now: Time, rows: seq<AuditRow>)
    ensures AuditLog(Search(query, s1, u1), slot, now, rows) == AuditLog(Search(query, s2, u2), slot, now, rows)
  {
  }
}

=== FILE: cli_auth.dfy ===
/** `vault init`, `login`, `logout` and `whoami` (app/src/cli/commands/auth.rs).
    Prompts, the clock and `Uuid::new_v4()` are inputs. The storage calls
    the handlers make but the store does not define (`init_tenant_with_password`,
    `get_user_role`, `clear_session_key`) are, respectively, an effect the
    handler goes on to make, the lookup's answer given as an input, and an
    effect. Audit entries go to `AuditLogger::log_event`, which prints them,
    so they are part of the result rather than of the store. */
module AuthCommand {
  import opened Base
  import opened Gate
  import AppAuth
  import AppConfig
  import Audit
  import Store
  import Sled
  import SessionFile
  import Utf8
  import Crypto

  // ---------------------------------------------------------------------
  // init
  // ---------------------------------------------------------------------

  const INIT_CANCELLED: string := "Initialization cancelled"

  /** The shortest master password `init_tenant_with_password` is given. */
  const MIN_PASSWORD_BYTES: nat := 8

  /** `master_password.len() < 8`: the length is that of the UTF-8 bytes,
      not the number of characters. */
  predicate ShortPassword(password: string) {
    |Utf8.Encode(password)| < MIN_PASSWORD_BYTES
  }

  /** How the tenant was created: the password-less `init_tenant` (already
      applied to the store), or `init_tenant_with_password`, the call the
      handler goes on to make. */
  datatype InitCall = Fallback | WithPassword(tenant: string, admin: string, password: string)

  datatype InitEffect = InitEffect(call: InitCall, entry: Audit.AuditEntry)

  /** `init_command(tenant, admin, force)`; `confirm` answers the
      reinitialise prompt and `password` the password prompt. */
  function Init(v: Store.Vault, tenant: string, admin: string, force: bool, confirm: bool, password: string,
                salt: Bytes32, d: Store.Draws, auditId: Uuid, now: Time)
    : (r: (Store.Vault, Outcome<InitEffect>))
    ensures r.1.Stop? <==> !force && Store.TenantExists(v, tenant) && !confirm
    ensures r.1.Stop? ==> r == (v, Stop(INIT_CANCELLED))
    ensures !r.1.Fail?
    ensures r.1.Proceed? ==> (r.1.effect.call.Fallback? <==> ShortPassword(password))
    ensures r.1.Proceed? && ShortPassword(password) ==> r.0 == Store.InitTenant(v, tenant, admin, salt, d)
    ensures r.1.Proceed? && !ShortPassword(password) ==> r.0 == v && r.1.effect.call == WithPassword(tenant, admin, password)
    ensures r.1.Proceed? ==>
              Audit.Describes(r.1.effect.entry, tenant, Audit.EVENT_TENANT_CREATED, "Tenant " + tenant + " created by " + admin, admin)
  {
    if !force && Store.TenantExists(v, tenant) && !confirm then (v, Stop(INIT_CANCELLED))
    else
      var (v1, call) :=
        if ShortPassword(password) then (Store.InitTenant(v, tenant, admin, salt, d), Fallback)
        else (v, WithPassword(tenant, admin, password));
      var entry := Audit.New(tenant, Audit.EVENT_TENANT_CREATED, "Tenant " + tenant + " created by " + admin, admin, auditId, now);
      (v1, Proceed(InitEffect(call, entry)))
  }

  /** A password of eight or more characters is never short, whatever its
      characters; one of fewer characters may still reach eight bytes. */
  lemma LongPasswordNotShort(password: string)
    requires |password| >= 8
    ensures !ShortPassword(password)
  {
  }

  /** Four accented letters are four characters but eight bytes, so they
      are accepted as a master password. */
  lemma FourAccentsAccepted()
    ensures |"éééé"| == 4
    ensures !ShortPassword("éééé")
  {
    assert Utf8.EncodeChar('é') == [0xC3, 0xA9];
    assert Utf8.Encode("éééé") == [0xC3, 0xA9, 0xC3, 0xA9, 0xC3, 0xA9, 0xC3, 0xA9];
  }

  /** An initialisation with a short password that goes ahead leaves the
      tenant in the store at once (the other path leaves that to
      `init_tenant_with_password`). */
  lemma InitFallbackCreatesTenant(v: Store.Vault, tenant: string, admin: string, force: bool, password: string,
                                  salt: Bytes32, d: Store.Draws, auditId: Uuid, now: Time)
    requires ShortPassword(password)
    ensures Store.TenantExists(Init(v, tenant, admin, force, true, password, salt, d, auditId, now).0, tenant)
  {
  }

  // ---------------------------------------------------------------------
  // login
  // ---------------------------------------------------------------------

  const AUTH_FAILED: string := "Authentication failed"

  /** Hours a session lasts: a week when remembered, a day otherwise. */
  const REMEMBER_HOURS: int := 168
  const DEFAULT_HOURS: int := 24

  function TenantNotFound(tenant: string): string {
    "Tenant '" + tenant + "' not found. Run 'vault init' first."
  }

  function UserNotFound(email: string, tenant: string): string {
    "User " + email + " not found in tenant " + tenant
  }

  function Duration(remember: bool): int {
    if remember then REMEMBER_HOURS else DEFAULT_HOURS
  }

  /** The user and role a login in collaborative mode signs in as, from
      `get_user_role`'s answer: the stored role, or Reader when the lookup
      fails; `None` when the user is unknown. */
  function CollaborativeUser(email: string, lookup: Result<Option<AppAuth.Role>>): (r: Option<(string, AppAuth.Role)>)
    ensures r.None? <==> lookup == Ok(None)
    ensures r.Some? ==> r.value.0 == email
    ensures lookup.Ok? && lookup.value.Some? ==> r == Some((email, lookup.value.value))
    ensures lookup.Err? ==> r == Some((email, AppAuth.Reader))
  {
    match lookup
    case Ok(Some(role)) => Some((email, role))
    case Ok(None) => None
    case Err(_) => Some((email, AppAuth.Reader))
  }

  datatype LoginEffect = LoggedIn(session: AppAuth.Session, entry: Audit.AuditEntry)

  /** `login_command(tenant, email, remember)` with configuration `config`,
      at `now`. `prompted` is the e-mail typed at the prompt when none is
      given, `passphrase` the password typed, and `lookup` what
      `get_user_role` answers. Returns the store, the session file and the
      outcome. */
  function Login(v: Store.Vault, config: AppConfig.Config, slot: AppAuth.SessionSlot, tenant: string, email: Option<string>,
                 prompted: string, passphrase: string, remember: bool, lookup: Result<Option<AppAuth.Role>>,
                 coins: Crypto.Coins, now: Time, sessionId: Uuid, auditId: Uuid)
    : (r: (Store.Vault, AppAuth.SessionSlot, Outcome<LoginEffect>))
    ensures !Store.TenantExists(v, tenant) ==> r == (v, slot, Stop(TenantNotFound(tenant)))
    ensures Store.Unlock(v, tenant, passphrase, coins).1.Err? ==> r.0 == v
    ensures Store.TenantExists(v, tenant) && Store.Unlock(v, tenant, passphrase, coins).1.Err? ==> r.2 == Stop(AUTH_FAILED)
    ensures Store.Unlock(v, tenant, passphrase, coins).1.Ok? ==> r.0 == Store.Unlock(v, tenant, passphrase, coins).0
    ensures !r.2.Proceed? ==> r.1 == slot
    ensures !r.2.Fail?
    ensures r.2.Proceed? <==>
              Store.Unlock(v, tenant, passphrase, coins).1.Ok?
              && (AppConfig.IsCollaborative(config) ==> lookup != Ok(None))
    ensures r.2.Proceed? ==>
              && r.1 == SessionFile.Save(r.2.effect.session)
              && r.2.effect.session == AppAuth.NewSession(tenant,
                   if AppConfig.IsCollaborative(config) then email.UnwrapOr(prompted) else "admin",
                   if !AppConfig.IsCollaborative(config) then AppAuth.Admin
                   else if lookup.Ok? then lookup.value.value else AppAuth.Reader,
                   Duration(remember), now, sessionId)
              && Audit.Describes(r.2.effect.entry, tenant, Audit.EVENT_LOGIN, "User logged in to tenant " + tenant, "admin")
  {
    if !Store.TenantExists(v, tenant) then (v, slot, Stop(TenantNotFound(tenant)))
    else
      var collaborative := AppConfig.IsCollaborative(config);
      var userEmail := if collaborative then email.UnwrapOr(prompted) else "admin";
      var (v1, unlocked) := Store.Unlock(v, tenant, passphrase, coins);
      if unlocked.Err? then (v1, slot, Stop(AUTH_FAILED))
      else
        var user := if collaborative then CollaborativeUser(userEmail, lookup) else Some(("admin", AppAuth.Admin));
        match user
        case None => (v1, slot, Stop(UserNotFound(userEmail, tenant)))
        case Some((userId, role)) =>
          var session := AppAuth.NewSession(tenant, userId, role, Duration(remember), now, sessionId);
          var entry := Audit.New(tenant, Audit.EVENT_LOGIN, "User logged in to tenant " + tenant, "admin", auditId, now);
          (v1, SessionFile.Save(session), Proceed(LoggedIn(session, entry)))
  }

  /** `unlock` accepts every passphrase for a tenant whose record reads
      back, so outside collaborative mode any password logs in as the
      administrator. */
  lemma LoginAnyPassphrase(v: Store.Vault, config: AppConfig.Config, slot: AppAuth.SessionSlot, tenant: string,
                           email: Option<string>, prompted: string, passphrase: string, remember: bool,
                           lookup: Result<Option<AppAuth.Role>>, coins: Crypto.Coins, now: Time, sessionId: Uuid, auditId: Uuid)
    requires !AppConfig.IsCollaborative(config)
    requires Store.GetTenant(v, tenant).Ok? && Store.GetTenant(v, tenant).value.Some?
    ensures var r := Login(v, config, slot, tenant, email, prompted, passphrase, remember, lookup, coins, now, sessionId, auditId);
            r.2.Proceed? && r.2.effect.session.role == AppAuth.Admin && r.2.effect.session.userId == "admin"
  {
  }

  /** The session a login saves is current from the moment of login until
      its 24 or 168 hours are up, and not afterwards. */
  lemma LoginSessionLasts(v: Store.Vault, config: AppConfig.Config, slot: AppAuth.SessionSlot, tenant: string,
                          email: Option<string>, prompted: string, passphrase: string, remember: bool,
                          lookup: Result<Option<AppAuth.Role>>, coins: Crypto.Coins, now: Time, sessionId: Uuid, auditId: Uuid, t: Time)
    requires Login(v, config, slot, tenant, email, prompted, passphrase, remember, lookup, coins, now, sessionId, auditId).2.Proceed?
    ensures var r := Login(v, config, slot, tenant, email, prompted, passphrase, remember, lookup, coins, now, sessionId, auditId);
            AppAuth.GetCurrentSession(r.1, t).1 == (if t < now + Hours(Duration(remember)) then Ok(r.2.effect.session) else Err(Auth("No valid session found")))
  {
    var r := Login(v, config, slot, tenant, email, prompted, passphrase, remember, lookup, coins, now, sessionId, auditId);
    AppAuth.SavedSessionLifetime(r.2.effect.session, t);
  }

  // ---------------------------------------------------------------------
  // logout
  // ---------------------------------------------------------------------

  const NO_ACTIVE_SESSION: string := "No active session found"

  /** A completed logout: the audit entry and the tenant whose session key
      `clear_session_key` is asked to clear. */
  datatype LogoutEffect = LoggedOut(entry: Audit.AuditEntry, clearKeyOf: string)

  /** `logout_command()` at `now`. */
  function Logout(slot: AppAuth.SessionSlot, now: Time, auditId: Uuid): (r: (AppAuth.SessionSlot, Outcome<LogoutEffect>))
    ensures r.1.Proceed? <==> slot.Stored? && AppAuth.IsValid(slot.session, now)
    ensures r.1.Proceed? ==>
              && r.0.NoFile?
              && r.1.effect.clearKeyOf == slot.session.tenantId
              && Audit.Describes(r.1.effect.entry, slot.session.tenantId, Audit.EVENT_LOGOUT, "User logged out", slot.session.userId)
    ensures !r.1.Proceed? ==> r == (AppAuth.GetCurrentSession(slot, now).0, Stop(NO_ACTIVE_SESSION))
  {
    var (after, current) := AppAuth.GetCurrentSession(slot, now);
    match current
    case Err(_) => (after, Stop(NO_ACTIVE_SESSION))
    case Ok(session) =>
      var entry := Audit.New(session.tenantId, Audit.EVENT_LOGOUT, "User logged out", session.userId, auditId, now);
      var (cleared, _) := SessionFile.Clear(after);
      (cleared, Proceed(LoggedOut(entry, session.tenantId)))
  }

  /** Logging out with no session file changes nothing; an unreadable
      file is left where it is. */
  lemma LogoutWithoutSession(slot: AppAuth.SessionSlot, now: Time, auditId: Uuid)
    requires slot.NoFile? || slot.Undecodable?
    ensures Logout(slot, now, auditId) == (slot, Stop(NO_ACTIVE_SESSION))
  {
  }

  /** After a logout that went ahead, no session is current at any
      instant, and a second logout finds nothing to do. */
  lemma LogoutEndsSession(slot: AppAuth.SessionSlot, now: Time, auditId: Uuid, t: Time, auditId2: Uuid)
    requires Logout(slot, now, auditId).1.Proceed?
    ensures AppAuth.GetCurrentSession(Logout(slot, now, auditId).0, t).1.Err?
    ensures Logout(Logout(slot, now, auditId).0, t, auditId2).1 == Stop(NO_ACTIVE_SESSION)
  {
  }

  // ---------------------------------------------------------------------
  // whoami
  // ---------------------------------------------------------------------

  const NOT_LOGGED_IN: string := "Not logged in"

  const NANOS_PER_MINUTE: int := 60_000_000_000

  /** What `whoami` shows about the time left: whole hours and the minutes
      beyond them, or that the session has expired. */
  datatype Status = Active(hours: int, minutes: int) | Expired

  datatype WhoamiReport = WhoamiReport(session: AppAuth.Session, status: Status, refreshed: bool)

  lemma MinutesOfHours(t: int)
    requires t >= 0
    ensures t / NANOS_PER_HOUR == (t / NANOS_PER_MINUTE) / 60
  {
    var m := t / NANOS_PER_MINUTE;
    var h := m / 60;
    assert t == m * NANOS_PER_MINUTE + t % NANOS_PER_MINUTE;
    assert m == h * 60 + m % 60;
    assert t == h * NANOS_PER_HOUR + ((m % 60) * NANOS_PER_MINUTE + t % NANOS_PER_MINUTE);
  }

  /** `whoami_command()`: the session is loaded at `now`, and its
      validity, the time left and a refresh are taken at `later`, the
      instants of the handler's later clock readings. A valid session with
      less than an hour left is refreshed and saved. */
  function Whoami(slot: AppAuth.SessionSlot, now: Time, later: Time): (r: (AppAuth.SessionSlot, Outcome<WhoamiReport>))
    ensures r.1.Proceed? <==> slot.Stored? && AppAuth.IsValid(slot.session, now)
    ensures !r.1.Proceed? ==> r == (AppAuth.GetCurrentSession(slot, now).0, Stop(NOT_LOGGED_IN))
    ensures r.1.Proceed? ==> r.1.effect.session == slot.session
    ensures r.1.Proceed? ==> (r.1.effect.status.Expired? <==> !AppAuth.IsValid(slot.session, later))
    ensures r.1.Proceed? && r.1.effect.status.Active? ==>
              var left := AppAuth.TimeUntilExpiry(slot.session, later);
              && 0 <= r.1.effect.status.minutes < 60
              && Hours(r.1.effect.status.hours) + r.1.effect.status.minutes * NANOS_PER_MINUTE <= left
              && left < Hours(r.1.effect.status.hours) + (r.1.effect.status.minutes + 1) * NANOS_PER_MINUTE
    ensures r.1.Proceed? ==>
              (r.1.effect.refreshed <==> AppAuth.IsValid(slot.session, later) && AppAuth.TimeUntilExpiry(slot.session, later) < Hours(1))
    ensures r.1.Proceed? && r.1.effect.refreshed ==> r.0 == SessionFile.Save(AppAuth.RefreshAsWritten(slot.session, later))
    ensures r.1.Proceed? && !r.1.effect.refreshed ==> r.0 == slot
  {
    var (after, current) := AppAuth.GetCurrentSession(slot, now);
    match current
    case Err(_) => (after, Stop(NOT_LOGGED_IN))
    case Ok(session) =>
      if !AppAuth.IsValid(session, later) then (after, Proceed(WhoamiReport(session, Expired, false)))
      else
        var left := AppAuth.TimeUntilExpiry(session, later);
        var hours := AppAuth.WholeHours(left);
        var minutes := (left / NANOS_PER_MINUTE) % 60;
        MinutesOfHours(left);
        if hours < 1 then (SessionFile.Save(AppAuth.RefreshAsWritten(session, later)), Proceed(WhoamiReport(session, Active(hours, minutes), true)))
        else (after, Proceed(WhoamiReport(session, Active(hours, minutes), false)))
  }

  /** The session `whoami` refreshes keeps its creation instant and
      expires one original lifetime after the refresh, so its recorded
      lifetime grows by the time elapsed since it was created. */
  lemma WhoamiRefreshGrows(slot: AppAuth.SessionSlot, now: Time, later: Time, t: Time)
    requires Whoami(slot, now, later).1.Proceed? && Whoami(slot, now, later).1.effect.refreshed
    ensures Whoami(slot, now, later).0.Stored?
    ensures Whoami(slot, now, later).0.session.createdAt == slot.session.createdAt
    ensures AppAuth.Lifetime(Whoami(slot, now, later).0.session)
            == AppAuth.Lifetime(slot.session) + (later - slot.session.createdAt)
    ensures AppAuth.GetCurrentSession(Whoami(slot, now, later).0, t).1.Ok?
            <==> t < later + AppAuth.Lifetime(slot.session)
  {
    AppAuth.RefreshAsWrittenGrows(slot.session, later);
  }

  /** A 24-hour session created at instant 0 and shown by `whoami` at hour
      23.5 is saved with a 47.5-hour lifetime: it now expires at hour 47.5. */
  lemma WhoamiRefreshExample(tenantId: string, userId: string, role: AppAuth.Role, id: Uuid)
    ensures
      var slot := SessionFile.Save(AppAuth.NewSession(tenantId, userId, role, 24, 0, id));
      var at := Hours(23) + 30 * NANOS_PER_MINUTE;
      var r := Whoami(slot, at, at);
      && r.1.Proceed? && r.1.effect.refreshed
      && r.0.Stored? && r.0.session.expiresAt == Hours(47) + 30 * NANOS_PER_MINUTE
      && AppAuth.Lifetime(r.0.session) == Hours(47) + 30 * NANOS_PER_MINUTE
  {
    var at := Hours(23) + 30 * NANOS_PER_MINUTE;
    var s := AppAuth.NewSession(tenantId, userId, role, 24, 0, id);
    assert AppAuth.TimeUntilExpiry(s, at) == 30 * NANOS_PER_MINUTE;
    assert AppAuth.WholeHours(30 * NANOS_PER_MINUTE) == 0;
  }
}

=== FILE: cli_gate.dfy ===
/** What the command handlers share: how a handler ends, and the session
    check most of them start with (load the current session, then test one
    permission of its role). */
module Gate {
  import opened Base
  import AppAuth
  import SessionFile

  /** How a command handler ends. `Proceed` carries what the handler goes
      on to do; `Stop` is an early return after printing a message (the
      handler still returns `Ok(())`); `Fail` is a returned error. */
  datatype Outcome<E> = Proceed(effect: E) | Stop(message: string) | Fail(error: CommandError)

  /** The errors a handler returns: one the store raised, a JSON file
      `serde_json` could not parse, or one of the handler's own messages. */
  datatype CommandError = StoreError(cause: VaultError) | InvalidJson | Message(text: string)

  const LOGIN_FIRST: string := "Please login first"
  const CANCELLED: string := "Operation cancelled"

  /** The session is present, unexpired at `now` and its role passes
      `allowed`. */
  predicate Admits(slot: AppAuth.SessionSlot, now: Time, allowed: AppAuth.Role -> bool) {
    slot.Stored? && AppAuth.IsValid(slot.session, now) && allowed(slot.session.role)
  }

  /** `if let Ok(session) = get_current_session() { if !allowed { error } }
      else { "Please login first" }`: proceeds with the session exactly
      when one is current and its role is allowed. Loading an expired
      session deletes its file, as `get_current_session` does. */
  function Check(slot: AppAuth.SessionSlot, now: Time, allowed: AppAuth.Role -> bool, denied: string): (r: (AppAuth.SessionSlot, Outcome<AppAuth.Session>))
    ensures r.0 == AppAuth.GetCurrentSession(slot, now).0
    ensures r.1.Proceed? <==> Admits(slot, now, allowed)
    ensures r.1.Proceed? ==> r.1.effect == slot.session && r.0 == slot
    ensures !(slot.Stored? && AppAuth.IsValid(slot.session, now)) ==> r.1 == Stop(LOGIN_FIRST)
    ensures slot.Stored? && AppAuth.IsValid(slot.session, now) && !allowed(slot.session.role) ==> r.1 == Stop(denied)
  {
    var (after, current) := AppAuth.GetCurrentSession(slot, now);
    match current
    case Err(_) => (after, Stop(LOGIN_FIRST))
    case Ok(session) => if allowed(session.role) then (after, Proceed(session)) else (after, Stop(denied))
  }

  /** The check is the same whatever it is asked to deny with: only the
      message differs. */
  lemma CheckMessageOnly(slot: AppAuth.SessionSlot, now: Time, allowed: AppAuth.Role -> bool, d1: string, d2: string)
    ensures Check(slot, now, allowed, d1).0 == Check(slot, now, allowed, d2).0
    ensures Check(slot, now, allowed, d1).1.Proceed? == Check(slot, now, allowed, d2).1.Proceed?
  {
  }

  /** A handler that proceeds leaves the session file as it found it, and a
      second look at the session (the handlers look again after the check)
      finds the same session. */
  lemma CheckThenReload(slot: AppAuth.SessionSlot, now: Time, allowed: AppAuth.Role -> bool, denied: string)
    requires Check(slot, now, allowed, denied).1.Proceed?
    ensures AppAuth.GetCurrentSession(Check(slot, now, allowed, denied).0, now).1
            == Ok(Check(slot, now, allowed, denied).1.effect)
  {
  }
}

=== FILE: cli_sync.dfy ===
/** `vault sync` (`sync_command`): only the permission check every sync
    action starts with. */
module SyncCommand {
  import opened Base
  import opened Gate
  import AppAuth

  const SYNC_WRITE_REQUIRED: string := "Insufficient permissions for sync operations"

  /** The check before any sync action: a current session whose role may
      write, else "Please login first" or the permission message. */
  function SyncGate(slot: AppAuth.SessionSlot, now: Time): (r: (AppAuth.SessionSlot, Outcome<AppAuth.Session>))
    ensures r.1.Proceed? <==> slot.Stored? && AppAuth.IsValid(slot.session, now) && AppAuth.CanWrite(slot.session.role)
    ensures !(slot.Stored? && AppAuth.IsValid(slot.session, now)) ==> r.1 == Stop(LOGIN_FIRST)
    ensures slot.Stored? && AppAuth.IsValid(slot.session, now) && !AppAuth.CanWrite(slot.session.role)
            ==> r.1 == Stop(SYNC_WRITE_REQUIRED)
    ensures r.0 == AppAuth.GetCurrentSession(slot, now).0
  {
    Check(slot, now, AppAuth.CanWrite, SYNC_WRITE_REQUIRED)
  }

  /** Readers and auditors never get past the sync check; the three
      writing roles always do while their session lasts. */
  lemma SyncRoles(slot: AppAuth.SessionSlot, now: Time)
    requires slot.Stored? && AppAuth.IsValid(slot.session, now)
    ensures SyncGate(slot, now).1.Proceed? <==> slot.session.role in {AppAuth.Admin, AppAuth.Owner, AppAuth.Writer}
  {
  }
}

=== FILE: cli_users.dfy ===
/** `vault users …` (`users_command`): invitations and membership changes,
    available only in collaborative mode. The storage calls it makes
    (`list_users`, `remove_user`, `change_user_role`) are not defined by
    the store, and the invitation is printed rather than stored, so the
    handler's result is the call or printout it goes on to make. Prompt
    answers are inputs. */
module UsersCommand {
  import opened Base
  import opened Gate
  import AppAuth
  import AppConfig
  import Text

  /** `UserAction`. */
  datatype UserAction =
    | Invite(email: string, role: string)
    | Accept(token: string)
    | List
    | Remove(email: string)
    | ChangeRole(email: string, role: string)

  /** What a handler that gets past its checks does. */
  datatype UserEffect =
    | InvitationPrinted(email: string, tenantId: string, roleArg: string, invitationToken: Uuid)
    | AcceptancePrompted(acceptedToken: string)
    | ListUsers(tenantId: string)
    | RemoveUser(tenantId: string, email: string)
    | ChangeUserRole(tenantId: string, email: string, newRole: AppAuth.Role)

  const NOT_COLLABORATIVE: string := "User management is only available in collaborative mode"
  const READ_REQUIRED: string := "Read permissions required to list users"
  const ADMIN_REQUIRED: string := "Admin permissions required for user management"
  const CANNOT_REMOVE_SELF: string := "Cannot remove yourself"

  function InvalidRole(role: string): string {
    "Invalid role: " + role + ". Valid roles: admin, owner, writer, reader, auditor"
  }

  /** The permission each action needs: reading to list, administering to
      invite, remove or change a role, nothing to accept an invitation. */
  function Required(a: UserAction): (allowed: AppAuth.Role -> bool)
  {
    match a
    case List => AppAuth.CanRead
    case Accept(_) => _ => true
    case _ => AppAuth.CanAdmin
  }

  /** The message a role without that permission gets. */
  function Denied(a: UserAction): string {
    if a.List? then READ_REQUIRED else ADMIN_REQUIRED
  }

  /** A role the user may demote themself to only after confirming. */
  predicate Demotion(r: AppAuth.Role) {
    r == AppAuth.Reader || r == AppAuth.Auditor
  }

  /** `users_command(action)` with the session file `slot` at `now`;
      `token` is the invitation's `Uuid::new_v4()` and `confirm` the
      answer to the confirmation prompt, where one is shown. */
  function Run(action: UserAction, config: AppConfig.Config, slot: AppAuth.SessionSlot, now: Time,
               token: Uuid, confirm: bool): (r: (AppAuth.SessionSlot, Outcome<UserEffect>))
    ensures !AppConfig.IsCollaborative(config) ==> r == (slot, Stop(NOT_COLLABORATIVE))
    ensures AppConfig.IsCollaborative(config) ==> r.0 == AppAuth.GetCurrentSession(slot, now).0
    ensures !r.1.Fail?
    ensures r.1.Proceed? ==> AppConfig.IsCollaborative(config) && Admits(slot, now, Required(action))
  {
    if !AppConfig.IsCollaborative(config) then (slot, Stop(NOT_COLLABORATIVE))
    else
      var (after, checked) := Check(slot, now, Required(action), Denied(action));
      match checked
      case Stop(m) => (after, Stop(m))
      case Fail(m) => (after, Fail(m))
      case Proceed(session) => (after, Act(action, session, token, confirm))
  }

  /** The body of `users_command` once the checks have passed. */
  function Act(action: UserAction, session: AppAuth.Session, token: Uuid, confirm: bool): (r: Outcome<UserEffect>)
    ensures !r.Fail?
    ensures r.Proceed? && action.Remove? ==> action.email != session.userId && confirm
    ensures r.Proceed? && action.ChangeRole? ==>
              AppAuth.ParseRole(action.role).Some?
              && (action.email == session.userId && Demotion(AppAuth.ParseRole(action.role).value) ==> confirm)
    ensures r.Proceed? && action.Invite? ==> AppAuth.ParseRole(action.role).Some?
  {
    match action
    case Invite(email, role) =>
      if AppAuth.ParseRole(role).None? then Stop(InvalidRole(role))
      else Proceed(InvitationPrinted(email, session.tenantId, role, token))
    case Accept(t) => Proceed(AcceptancePrompted(t))
    case List => Proceed(ListUsers(session.tenantId))
    case Remove(email) =>
      if session.userId == email then Stop(CANNOT_REMOVE_SELF)
      else if confirm then Proceed(RemoveUser(session.tenantId, email))
      else Stop(CANCELLED)
    case ChangeRole(email, role) =>
      match AppAuth.ParseRole(role)
      case None => Stop(InvalidRole(role))
      case Some(parsed) =>
        if session.userId == email && Demotion(parsed) && !confirm then Stop(CANCELLED)
        else Proceed(ChangeUserRole(session.tenantId, email, parsed))
  }

  /** Outside collaborative mode nothing is checked or done, and the
      session file is not even read. */
  lemma OnlyCollaborative(action: UserAction, config: AppConfig.Config, slot: AppAuth.SessionSlot, now: Time, token: Uuid, confirm: bool)
    requires !AppConfig.IsCollaborative(config)
    ensures Run(action, config, slot, now, token, confirm) == (slot, Stop(NOT_COLLABORATIVE))
  {
  }

  /** With no current session every action is refused the same way. */
  lemma LoginFirst(action: UserAction, config: AppConfig.Config, slot: AppAuth.SessionSlot, now: Time, token: Uuid, confirm: bool)
    requires AppConfig.IsCollaborative(config)
    requires !(slot.Stored? && AppAuth.IsValid(slot.session, now))
    ensures Run(action, config, slot, now, token, confirm).1 == Stop(LOGIN_FIRST)
  {
  }

  /** The permission table: in collaborative mode, with a current session,
      the action is refused for lack of permission exactly when the role
      lacks the one the action needs; listing needs read, accepting needs
      nothing, the rest need admin. */
  lemma PermissionGate(action: UserAction, config: AppConfig.Config, slot: AppAuth.SessionSlot, now: Time, token: Uuid, confirm: bool)
    requires AppConfig.IsCollaborative(config)
    requires slot.Stored? && AppAuth.IsValid(slot.session, now)
    ensures Run(action, config, slot, now, token, confirm).1 == Stop(Denied(action))
            <==> !Required(action)(slot.session.role)
    ensures action.List? ==> (Required(action)(slot.session.role) <==> AppAuth.CanRead(slot.session.role))
    ensures action.Accept? ==> Required(action)(slot.session.role)
    ensures action.Invite? || action.Remove? || action.ChangeRole? ==>
              (Required(action)(slot.session.role) <==> AppAuth.CanAdmin(slot.session.role))
  {
    var s := slot.session;
    if Required(action)(s.role) {
      var out := Act(action, s, token, confirm);
      assert out != Stop(Denied(action)) by {
        if action.List? || action.Accept? {
        } else if action.Invite? {
          assert InvalidRole(action.role)[..14] == "Invalid role: ";
        } else if action.ChangeRole? {
          assert InvalidRole(action.role)[..14] == "Invalid role: ";
        }
      }
    }
  }

  /** Removing one's own account is refused whatever is answered. */
  lemma NoSelfRemoval(email: string, config: AppConfig.Config, slot: AppAuth.SessionSlot, now: Time, token: Uuid, confirm: bool)
    requires slot.Stored? && slot.session.userId == email
    ensures !Run(Remove(email), config, slot, now, token, confirm).1.Proceed?
  {
  }

  /** Changing one's own role to Reader or Auditor proceeds only with
      confirmation; any other role change does not ask, so the answer does
      not matter. */
  lemma SelfDemotionConfirmed(email: string, role: string, session: AppAuth.Session, token: Uuid)
    requires AppAuth.ParseRole(role).Some?
    ensures session.userId == email && Demotion(AppAuth.ParseRole(role).value) ==>
              Act(ChangeRole(email, role), session, token, false) == Stop(CANCELLED)
              && Act(ChangeRole(email, role), session, token, true) == Proceed(ChangeUserRole(session.tenantId, email, AppAuth.ParseRole(role).value))
    ensures !(session.userId == email && Demotion(AppAuth.ParseRole(role).value)) ==>
              Act(ChangeRole(email, role), session, token, false) == Act(ChangeRole(email, role), session, token, true)
              == Proceed(ChangeUserRole(session.tenantId, email, AppAuth.ParseRole(role).value))
  {
  }

  /** Role arguments are read case-insensitively: two spellings that lower
      to the same text lead to the same role change, and an invitation
      goes out for one exactly when it goes out for the other. */
  lemma RoleArgumentCaseInsensitive(email: string, r1: string, r2: string, session: AppAuth.Session, token: Uuid, confirm: bool)
    requires Text.ToLower(r1) == Text.ToLower(r2)
    ensures Act(ChangeRole(email, r1), session, token, confirm).Proceed? ==>
              Act(ChangeRole(email, r1), session, token, confirm) == Act(ChangeRole(email, r2), session, token, confirm)
    ensures Act(Invite(email, r1), session, token, confirm).Proceed? == Act(Invite(email, r2), session, token, confirm).Proceed?
  {
    AppAuth.ParseRoleCaseInsensitive(r1, r2);
  }

  /** Accepting an invitation only needs a current session, whatever its
      role. */
  lemma AcceptAlwaysAllowed(t: string, config: AppConfig.Config, slot: AppAuth.SessionSlot, now: Time, token: Uuid, confirm: bool)
    requires AppConfig.IsCollaborative(config)
    requires slot.Stored? && AppAuth.IsValid(slot.session, now)
    ensures Run(Accept(t), config, slot, now, token, confirm).1 == Proceed(AcceptancePrompted(t))
  {
  }
}

=== FILE: cli_utils.dfy ===
/** `vault export` and `vault import` (`export_command`,
    `import_command`): moving a namespace's secrets to and from a JSON
    file. Reading and writing the file, and rendering the export document,
    are I/O and not modelled; the parsed import document, whether the file
    exists, the prompt answer, and the clock and random draws of every
    store call are inputs. */
module TransferCommand {
  import opened Base
  import opened Gate
  import opened Json
  import Text
  import Sled
  import AppAuth
  import Audit
  import Store
  import Queries
  import Crypto

  const DEFAULT_NAMESPACE: string := "default"

  /** Only the audit trail changed: every key outside `allowed` whose
      value differs afterwards is an audit key and now holds an audit
      entry. */
  ghost predicate OnlyAudit(before: Sled.Tree<Store.Record>, after: Sled.Tree<Store.Record>, allowed: set<string>) {
    forall q :: q !in allowed && Sled.Get(after, q) != Sled.Get(before, q) ==>
      Text.StartsWith(q, "audit:") && Sled.Get(after, q).Some? && Sled.Get(after, q).value.AuditRec?
  }

  lemma OnlyAuditTransitive(a: Sled.Tree<Store.Record>, b: Sled.Tree<Store.Record>, c: Sled.Tree<Store.Record>, s: set<string>, t: set<string>)
    requires OnlyAudit(a, b, s) && OnlyAudit(b, c, t)
    ensures OnlyAudit(a, c, s + t)
  {
  }

  // ---------------------------------------------------------------------
  // Export
  // ---------------------------------------------------------------------

  const EXPORT_READ_REQUIRED: string := "Read permissions required for export"
  const EXPORT_CANCELLED: string := "Export cancelled"

  function UnsupportedFormat(format: string): string {
    "Unsupported format: " + format + ". Use 'json' or 'yaml'"
  }

  /** One secret of the export document: its name, its decrypted value,
      and the metadata the listing reported. */
  datatype Exported = Exported(key: string, value: string, metadata: Store.SecretMetadata)

  /** The export loop: `get_with_metadata` on every listed secret, the
      i-th read using `draws(i)`; a listed secret that has disappeared is
      skipped, and the first error ends the loop. Each value exported is
      what the secret under its name decrypts to, and every listed name
      under which a secret is stored is exported. */
  function ReadAll(v: Store.Vault, ns: string, listing: seq<Queries.Listing>, draws: nat -> Store.Draws, i: nat): (r: (Store.Vault, Result<seq<Exported>>))
    requires Store.Readable(v.db)
    ensures Store.Readable(r.0.db)
    ensures r.0.masterKey == v.masterKey && r.0.currentTenant == v.currentTenant
    ensures OnlyAudit(v.db, r.0.db, {})
    ensures r.1.Ok? ==> |r.1.value| <= |listing|
    ensures r.1.Ok? ==> forall x :: x in r.1.value ==> (x.key, x.metadata) in listing
    ensures r.1.Ok? ==> ReadSound(v, ns, r.1.value) && ReadComplete(v, ns, listing, r.1.value)
    decreases |listing|
  {
    if |listing| == 0 then (v, Ok([]))
    else
      var (v1, got) := Store.GetWithMetadata(v, listing[0].0, ns, draws(i));
      Store.AuditKeyPrefix(v.currentTenant.UnwrapOr(""), draws(i).now, "", ns, "");
      match got
      case Err(e) => (v1, Err(e))
      case Ok(found) =>
        var (v2, rest) := ReadAll(v1, ns, listing[1..], draws, i + 1);
        OnlyAuditTransitive(v.db, v1.db, v2.db, {}, {});
        match rest
        case Err(e) => (v2, Err(e))
        case Ok(xs) =>
          var out := if found.Some? then [Exported(listing[0].0, found.value.0, listing[0].1)] + xs else xs;
          ReadCons(v, v1, ns, listing, draws(i), xs, out);
          (v2, Ok(out))
  }

  /** Every exported value is what the secret under its name, in `v`,
      decrypts to. */
  ghost predicate ReadSound(v: Store.Vault, ns: string, secrets: seq<Exported>) {
    forall x :: x in secrets ==> Store.Decrypts(v, ns, x.key, x.value)
  }

  /** Every listed name under which `v` stores a secret is exported, with
      the listed metadata. */
  ghost predicate ReadComplete(v: Store.Vault, ns: string, listing: seq<Queries.Listing>, secrets: seq<Exported>) {
    forall l :: l in listing && v.currentTenant.Some? && Sled.Get(v.db, Store.SecretKey(v.currentTenant.value, ns, l.0)).Some? ==>
      exists x :: x in secrets && (x.key, x.metadata) == l
  }

  /** One step of the export loop keeps both properties: the first read
      either finds the secret, whose value then heads the result, or finds
      nothing because nothing is stored there; the later reads see the
      same secrets, since reading only adds audit entries. */
  lemma ReadCons(v: Store.Vault, v1: Store.Vault, ns: string, listing: seq<Queries.Listing>, d: Store.Draws,
                 xs: seq<Exported>, out: seq<Exported>)
    requires Store.Readable(v.db) && |listing| > 0
    requires v1 == Store.GetWithMetadata(v, listing[0].0, ns, d).0 && Store.GetWithMetadata(v, listing[0].0, ns, d).1.Ok?
    requires OnlyAudit(v.db, v1.db, {})
    requires ReadSound(v1, ns, xs) && ReadComplete(v1, ns, listing[1..], xs)
    requires var found := Store.GetWithMetadata(v, listing[0].0, ns, d).1.value;
             out == if found.Some? then [Exported(listing[0].0, found.value.0, listing[0].1)] + xs else xs
    ensures ReadSound(v, ns, out) && ReadComplete(v, ns, listing, out)
  {
    var found := Store.GetWithMetadata(v, listing[0].0, ns, d).1.value;
    forall x | x in xs ensures Store.Decrypts(v, ns, x.key, x.value) {
      assert Store.Decrypts(v1, ns, x.key, x.value);
      var k := Store.SecretKey(v.currentTenant.value, ns, x.key);
      assert Sled.Get(v1.db, k) == Sled.Get(v.db, k);
    }
    forall l | l in listing && v.currentTenant.Some? && Sled.Get(v.db, Store.SecretKey(v.currentTenant.value, ns, l.0)).Some?
      ensures exists x :: x in out && (x.key, x.metadata) == l
    {
      if l == listing[0] {
        assert found.Some?;
        assert out[0] in out;
      } else {
        assert l in listing[1..];
        var k := Store.SecretKey(v.currentTenant.value, ns, l.0);
        assert Sled.Get(v1.db, k).Some?;
        var x :| x in xs && (x.key, x.metadata) == l;
        assert x in out;
      }
    }
  }

  /** What a completed export does: the secrets it writes, the format it
      writes them in, and the audit entry it logs. */
  datatype ExportEffect = ExportEffect(namespace: string, format: string, secrets: seq<Exported>, entry: Audit.AuditEntry)

  /** `export_command(output, format, namespace)` on the store `v` with the
      session file `slot` at `now`. The store changes only by the
      `secret_accessed` entries the reads log, and those are logged even
      when the format then turns out to be unsupported. */
  function Export(v: Store.Vault, slot: AppAuth.SessionSlot, now: Time, output: string, format: string,
                  namespace: Option<string>, confirm: bool, draws: nat -> Store.Draws, auditId: Uuid)
    : (r: (Store.Vault, AppAuth.SessionSlot, Outcome<ExportEffect>))
    requires Store.Readable(v.db)
    ensures r.1 == AppAuth.GetCurrentSession(slot, now).0
    ensures !Admits(slot, now, AppAuth.CanRead) || !confirm ==> r.0 == v && r.2.Stop?
    ensures r.2.Proceed? ==> Admits(slot, now, AppAuth.CanRead) && confirm
    ensures r.2.Proceed? ==> (format == "json" || format == "yaml") && r.2.effect.format == format
    ensures r.2.Proceed? ==> r.2.effect.namespace == namespace.UnwrapOr(DEFAULT_NAMESPACE)
    ensures r.2.Proceed? ==>
              Audit.Describes(r.2.effect.entry, slot.session.tenantId, Audit.EVENT_EXPORT,
                              "Exported " + Text.IntToDecimal(|r.2.effect.secrets|) + " secrets from namespace "
                              + r.2.effect.namespace + " to " + output,
                              slot.session.userId)
    ensures OnlyAudit(v.db, r.0.db, {}) && Store.Readable(r.0.db)
  {
    var (after, checked) := Check(slot, now, AppAuth.CanRead, EXPORT_READ_REQUIRED);
    match checked
    case Stop(m) => (v, after, Stop(m))
    case Fail(e) => (v, after, Fail(e))
    case Proceed(session) =>
      var ns := namespace.UnwrapOr(DEFAULT_NAMESPACE);
      if !confirm then (v, after, Stop(EXPORT_CANCELLED))
      else
        match Queries.ListWithMetadataAsWritten(v, ns, None)
        case Err(e) => (v, after, Fail(StoreError(e)))
        case Ok(listing) =>
          var (v1, read) := ReadAll(v, ns, listing, draws, 0);
          match read
          case Err(e) => (v1, after, Fail(StoreError(e)))
          case Ok(secrets) =>
            if format != "json" && format != "yaml" then (v1, after, Fail(Message(UnsupportedFormat(format))))
            else
              var entry := Audit.New(session.tenantId, Audit.EVENT_EXPORT,
                                     "Exported " + Text.IntToDecimal(|secrets|) + " secrets from namespace " + ns + " to " + output,
                                     session.userId, auditId, now);
              (v1, after, Proceed(ExportEffect(ns, format, secrets, entry)))
  }

  /** An unsupported format is reported after the secrets have been read
      but before any file is written or `export` entry logged. */
  lemma ExportFormatChecked(v: Store.Vault, slot: AppAuth.SessionSlot, now: Time, output: string, format: string,
                            namespace: Option<string>, draws: nat -> Store.Draws, auditId: Uuid)
    requires Store.Readable(v.db)
    requires format != "json" && format != "yaml"
    ensures !Export(v, slot, now, output, format, namespace, true, draws, auditId).2.Proceed?
    ensures Admits(slot, now, AppAuth.CanRead)
            && Queries.ListWithMetadataAsWritten(v, namespace.UnwrapOr(DEFAULT_NAMESPACE), None).Ok?
            && ReadAll(v, namespace.UnwrapOr(DEFAULT_NAMESPACE),
                       Queries.ListWithMetadataAsWritten(v, namespace.UnwrapOr(DEFAULT_NAMESPACE), None).value, draws, 0).1.Ok?
            ==> Export(v, slot, now, output, format, namespace, true, draws, auditId).2 == Fail(Message(UnsupportedFormat(format)))
  {
  }

  /** Every exported secret comes from a secret stored in the namespace,
      carries its metadata, and is named by the text after the last ':' of
      its key. */
  lemma ExportedAreListed(v: Store.Vault, slot: AppAuth.SessionSlot, now: Time, output: string, format: string,
                          namespace: Option<string>, confirm: bool, draws: nat -> Store.Draws, auditId: Uuid, x: Exported)
    requires Store.Readable(v.db)
    ensures
      var r := Export(v, slot, now, output, format, namespace, confirm, draws, auditId).2;
      r.Proceed? && x in r.effect.secrets ==>
        v.currentTenant.Some? && Queries.ListedAsWritten(v, namespace.UnwrapOr(DEFAULT_NAMESPACE), None, (x.key, x.metadata))
  {
    var r := Export(v, slot, now, output, format, namespace, confirm, draws, auditId).2;
    if r.Proceed? && x in r.effect.secrets {
      var listing := Queries.ListWithMetadataAsWritten(v, namespace.UnwrapOr(DEFAULT_NAMESPACE), None).value;
      assert (x.key, x.metadata) in listing;
    }
  }

  /** While no name in the namespace holds a ':', every exported secret is
      stored under the name it is exported with, with its metadata. */
  lemma ExportedAreStored(v: Store.Vault, slot: AppAuth.SessionSlot, now: Time, output: string, format: string,
                          namespace: Option<string>, confirm: bool, draws: nat -> Store.Draws, auditId: Uuid, x: Exported)
    requires Store.Readable(v.db)
    requires v.currentTenant.Some? ==> Queries.PlainNames(v, Store.SecretPrefix(v.currentTenant.value, namespace.UnwrapOr(DEFAULT_NAMESPACE)))
    ensures
      var r := Export(v, slot, now, output, format, namespace, confirm, draws, auditId).2;
      r.Proceed? && x in r.effect.secrets ==> Queries.Stored(v, namespace.UnwrapOr(DEFAULT_NAMESPACE), None, (x.key, x.metadata))
  {
    var r := Export(v, slot, now, output, format, namespace, confirm, draws, auditId).2;
    if r.Proceed? && x in r.effect.secrets {
      var ns := namespace.UnwrapOr(DEFAULT_NAMESPACE);
      ExportedAreListed(v, slot, now, output, format, namespace, confirm, draws, auditId, x);
      Queries.PlainListedIsStored(v, ns, None, (x.key, x.metadata));
    }
  }

  /** While no name in the namespace holds a ':', an export writes exactly
      the namespace's secrets: a (name, value, metadata) triple is exported
      if and only if the secret stored under that name carries that
      metadata and decrypts to that value. */
  lemma ExportedExactlyStored(v: Store.Vault, slot: AppAuth.SessionSlot, now: Time, output: string, format: string,
                              namespace: Option<string>, confirm: bool, draws: nat -> Store.Draws, auditId: Uuid, x: Exported)
    requires Store.Readable(v.db)
    requires v.currentTenant.Some? ==> Queries.PlainNames(v, Store.SecretPrefix(v.currentTenant.value, namespace.UnwrapOr(DEFAULT_NAMESPACE)))
    ensures
      var r := Export(v, slot, now, output, format, namespace, confirm, draws, auditId).2;
      r.Proceed? ==> (x in r.effect.secrets <==> Store.Holds(v, namespace.UnwrapOr(DEFAULT_NAMESPACE), x.key, x.value, x.metadata))
  {
    var r := Export(v, slot, now, output, format, namespace, confirm, draws, auditId).2;
    if r.Proceed? {
      var ns := namespace.UnwrapOr(DEFAULT_NAMESPACE);
      var listing := Queries.ListWithMetadataAsWritten(v, ns, None).value;
      var secrets := ReadAll(v, ns, listing, draws, 0).1.value;
      assert r.effect.secrets == secrets;
      if x in secrets {
        ExportedAreStored(v, slot, now, output, format, namespace, confirm, draws, auditId, x);
      }
      if Store.Holds(v, ns, x.key, x.value, x.metadata) {
        assert Queries.Stored(v, ns, None, (x.key, x.metadata));
        Queries.PlainListedIsStored(v, ns, None, (x.key, x.metadata));
        assert (x.key, x.metadata) in listing;
        var y :| y in secrets && (y.key, y.metadata) == (x.key, x.metadata);
        Store.DecryptsUnique(v, ns, x.key, x.value, y.value);
      }
    }
  }

  /** As written, exporting the namespace "ns" of a store whose one secret
      there is named "db:password" writes no secret: the listing names it
      "password", under which `get_with_metadata` finds nothing. */
  lemma ColonKeyExportAsWritten(mk: Crypto.MasterKey, meta: Store.SecretMetadata, coins: Crypto.Coins, slot: AppAuth.SessionSlot,
                                now: Time, output: string, draws: nat -> Store.Draws, auditId: Uuid)
    ensures
      var r := Export(Queries.ColonVault(mk, meta, coins), slot, now, output, "json", Some("ns"), true, draws, auditId).2;
      r.Proceed? ==> r.effect.secrets == []
  {
    var v := Queries.ColonVault(mk, meta, coins);
    Queries.ColonKeyListAsWritten(mk, meta, coins, draws(0));
    var listing := [("password", meta.(tags := []))];
    assert listing[1..] == [];
    assert ReadAll(v, "ns", listing, draws, 0).1 == Ok([]);
  }

  // ---------------------------------------------------------------------
  // Import
  // ---------------------------------------------------------------------

  const IMPORT_WRITE_REQUIRED: string := "Write permissions required for import"
  const NO_SECRETS: string := "No secrets found in import file"
  const IMPORT_CANCELLED: string := "Import cancelled"
  const YAML_IMPORT: string := "YAML import not fully supported yet. Please use JSON format."

  function FileNotFound(input: string): string {
    "Import file not found: " + input
  }

  /** The secrets of an import document: the object under "secrets" when
      the document has that field (nothing when it is not an object),
      otherwise the document itself when it is an object. */
  function SecretsOf(doc: Json): (entries: seq<(string, Json)>)
    ensures doc.JObject? && Field(doc.fields, "secrets").None? ==> entries == doc.fields
    ensures !doc.JObject? ==> entries == []
    ensures doc.JObject? && Field(doc.fields, "secrets").Some? ==>
              entries == (if Field(doc.fields, "secrets").value.JObject? then Field(doc.fields, "secrets").value.fields else [])
  {
    match doc
    case JObject(fields) =>
      (match Field(fields, "secrets")
       case Some(inner) => if inner.JObject? then inner.fields else []
       case None => fields)
    case _ => []
  }

  /** `data.get("value").and_then(as_str)`. */
  function ValueOf(data: Json): Option<string> {
    if data.JObject? && Field(data.fields, "value").Some? && Field(data.fields, "value").value.JString?
    then Some(Field(data.fields, "value").value.s)
    else None
  }

  /** The string elements of an array, in order; other elements are
      dropped. */
  function StringItems(items: seq<Json>): (r: seq<string>)
    ensures |r| <= |items|
    ensures forall s :: s in r <==> JString(s) in items
  {
    if |items| == 0 then []
    else if items[0].JString? then [items[0].s] + StringItems(items[1..])
    else StringItems(items[1..])
  }

  /** The tags an entry is imported with: the string elements of its
      "tags" array, or none. */
  function TagsOf(data: Json): (tags: seq<string>)
    ensures data.JObject? && Field(data.fields, "tags").Some? && Field(data.fields, "tags").value.JArray? ==>
              forall t :: t in tags <==> JString(t) in Field(data.fields, "tags").value.items
    ensures !(data.JObject? && Field(data.fields, "tags").Some? && Field(data.fields, "tags").value.JArray?) ==> tags == []
  {
    if data.JObject? && Field(data.fields, "tags").Some? && Field(data.fields, "tags").value.JArray?
    then StringItems(Field(data.fields, "tags").value.items)
    else []
  }

  /** Why one entry was not imported. */
  datatype ImportError = PutFailed(key: string, cause: VaultError) | NoValue(key: string)

  /** The errors of the entries that have no string value, in order. */
  function MissingValues(entries: seq<(string, Json)>): (errs: seq<ImportError>)
    ensures |errs| <= |entries|
    ensures forall x :: x in errs <==>
              exists i :: 0 <= i < |entries| && ValueOf(entries[i].1).None? && x == NoValue(entries[i].0)
  {
    if |entries| == 0 then []
    else if ValueOf(entries[0].1).None? then [NoValue(entries[0].0)] + MissingValues(entries[1..])
    else MissingValues(entries[1..])
  }

  /** The secret keys the import may write: those of the entries that
      have a value, in the current tenant. */
  function PutKeys(v: Store.Vault, ns: string, entries: seq<(string, Json)>): set<string> {
    if v.currentTenant.None? then {}
    else set e | e in entries && ValueOf(e.1).Some? :: Store.SecretKey(v.currentTenant.value, ns, e.0)
  }

  /** The key an entry with a value is stored under, if the store has a
      current tenant. */
  function PutKeyOf(v: Store.Vault, ns: string, key: string, data: Json): set<string> {
    if ValueOf(data).Some? && v.currentTenant.Some? then {Store.SecretKey(v.currentTenant.value, ns, key)} else {}
  }

  /** One entry of the import loop: an entry without a string value is
      reported; otherwise `put_with_tags` stores it, or its error is
      reported. */
  function ImportOne(v: Store.Vault, ns: string, key: string, data: Json, d: Store.Draws): (r: (Store.Vault, nat, seq<ImportError>))
    ensures r.1 + |r.2| == 1
    ensures r.0.masterKey == v.masterKey && r.0.currentTenant == v.currentTenant
    ensures Store.Readable(v.db) ==> Store.Readable(r.0.db)
    ensures OnlyAudit(v.db, r.0.db, PutKeyOf(v, ns, key, data))
    ensures ValueOf(data).None? ==> r == (v, 0, [NoValue(key)])
    ensures ValueOf(data).Some? && Store.Unlocked(v) ==> r.1 == 1
    ensures !Store.Unlocked(v) ==> r.0 == v && r.1 == 0
    ensures ValueOf(data).Some? ==> r.0 == Store.PutWithTags(v, key, ValueOf(data).value, ns, TagsOf(data), d).0
  {
    match ValueOf(data)
    case None => (v, 0, [NoValue(key)])
    case Some(value) =>
      Store.AuditKeyPrefix(v.currentTenant.UnwrapOr(""), d.now, "", ns, "");
      var (v1, res) := Store.PutWithTags(v, key, value, ns, TagsOf(data), d);
      if res.Ok? then (v1, 1, []) else (v1, 0, [PutFailed(key, res.error)])
  }

  /** The import loop over the entries, the i-th `put_with_tags` using
      `draws(i)`. Every entry is either imported or reported, once; an
      entry without a value is reported and never written; and in an
      unlocked store every entry with a value is imported. */
  function ImportAll(v: Store.Vault, ns: string, entries: seq<(string, Json)>, draws: nat -> Store.Draws, i: nat)
    : (r: (Store.Vault, nat, seq<ImportError>))
    ensures r.1 + |r.2| == |entries|
    ensures r.0.masterKey == v.masterKey && r.0.currentTenant == v.currentTenant
    ensures Store.Readable(v.db) ==> Store.Readable(r.0.db)
    ensures OnlyAudit(v.db, r.0.db, PutKeys(v, ns, entries))
    ensures Store.Unlocked(v) ==> r.2 == MissingValues(entries) && r.1 == |entries| - |MissingValues(entries)|
    ensures !Store.Unlocked(v) ==> r.0 == v && r.1 == 0
    decreases |entries|
  {
    if |entries| == 0 then (v, 0, [])
    else
      var (v1, n1, e1) := ImportOne(v, ns, entries[0].0, entries[0].1, draws(i));
      var (v2, n2, e2) := ImportAll(v1, ns, entries[1..], draws, i + 1);
      PutKeysCons(v, v1, ns, entries);
      OnlyAuditTransitive(v.db, v1.db, v2.db, PutKeyOf(v, ns, entries[0].0, entries[0].1), PutKeys(v1, ns, entries[1..]));
      (v2, n1 + n2, e1 + e2)
  }

  /** The entry at `idx` is the last one carrying its name, so no later
      put overwrites it. */
  ghost predicate LastWithName(entries: seq<(string, Json)>, idx: nat)
  {
    idx < |entries| && forall j :: idx < j < |entries| ==> entries[j].0 != entries[idx].0
  }

  /** Dropping the first entry keeps a later entry the last with its name. */
  lemma LastWithNameTail(entries: seq<(string, Json)>, idx: nat)
    requires 0 < idx && LastWithName(entries, idx)
    ensures LastWithName(entries[1..], idx - 1)
  {
    var rest := entries[1..];
    forall j | idx - 1 < j < |rest| ensures rest[j].0 != rest[idx - 1].0 {
      assert rest[j] == entries[j + 1];
    }
  }

  /** In an unlocked store of tenant `t`, the entry at `idx`, named `key`,
      with the string value `value` and the tags `tags`, that is the last
      with its name is, after the import loop, stored under its name with
      its value and the metadata of the put that wrote it, the `n`-th of
      the run. */
  lemma {:induction false} ImportAllStores(v: Store.Vault, ns: string, entries: seq<(string, Json)>, draws: nat -> Store.Draws,
                                           i: nat, idx: nat, n: nat, t: string, key: string, value: string, tags: seq<string>)
    requires Store.Unlocked(v) && v.currentTenant == Some(t)
    requires LastWithName(entries, idx) && entries[idx].0 == key && ValueOf(entries[idx].1) == Some(value)
    requires TagsOf(entries[idx].1) == tags && n == i + idx
    ensures Store.Holds(ImportAll(v, ns, entries, draws, i).0, ns, key, value, Store.PutMetadata(t, ns, key, tags, draws(n)))
    decreases |entries|
  {
    if idx == 0 {
      ImportAllStoresFirst(v, ns, entries, draws, i, t, key, value, tags, draws(n));
    } else {
      var v1 := ImportAllStep(v, ns, entries, draws, i);
      assert entries[1..][idx - 1] == entries[idx];
      LastWithNameTail(entries, idx);
      ImportAllStores(v1, ns, entries[1..], draws, i + 1, idx - 1, n, t, key, value, tags);
    }
  }

  /** The loop's first step leaves an unlocked vault of the same tenant, and
      the loop over the rest continues from it. */
  lemma ImportAllStep(v: Store.Vault, ns: string, entries: seq<(string, Json)>, draws: nat -> Store.Draws, i: nat)
    returns (v1: Store.Vault)
    requires |entries| > 0
    ensures v1.masterKey == v.masterKey && v1.currentTenant == v.currentTenant
    ensures ImportAll(v, ns, entries, draws, i).0 == ImportAll(v1, ns, entries[1..], draws, i + 1).0
  {
    ImportAllCons(v, ns, entries, draws, i);
    v1 := ImportOne(v, ns, entries[0].0, entries[0].1, draws(i)).0;
  }

  /** The loop is its first step followed by the loop over the rest. */
  lemma ImportAllCons(v: Store.Vault, ns: string, entries: seq<(string, Json)>, draws: nat -> Store.Draws, i: nat)
    requires |entries| > 0
    ensures ImportAll(v, ns, entries, draws, i).0
            == ImportAll(ImportOne(v, ns, entries[0].0, entries[0].1, draws(i)).0, ns, entries[1..], draws, i + 1).0
  {
  }

  /** A first entry that no later entry shares a name with keeps what its
      put stored. */
  lemma ImportAllStoresFirst(v: Store.Vault, ns: string, entries: seq<(string, Json)>, draws: nat -> Store.Draws, i: nat,
                             t: string, key: string, value: string, tags: seq<string>, d: Store.Draws)
    requires Store.Unlocked(v) && v.currentTenant == Some(t)
    requires LastWithName(entries, 0) && entries[0].0 == key && ValueOf(entries[0].1) == Some(value)
    requires TagsOf(entries[0].1) == tags && draws(i) == d
    ensures Store.Holds(ImportAll(v, ns, entries, draws, i).0, ns, key, value, Store.PutMetadata(t, ns, key, tags, d))
  {
    var rest := entries[1..];
    assert forall j :: 0 <= j < |rest| ==> rest[j].0 != key by {
      forall j | 0 <= j < |rest| ensures rest[j].0 != key { assert rest[j] == entries[j + 1]; }
    }
    ImportAllCons(v, ns, entries, draws, i);
    var v1 := ImportOne(v, ns, key, entries[0].1, d).0;
    ImportOneStores(v, ns, key, entries[0].1, d);
    ImportAllKeepsHolds(v1, ns, rest, draws, i + 1, key, value, Store.PutMetadata(t, ns, key, tags, d));
  }

  /** The loop keeps what a name it never writes holds. */
  lemma ImportAllKeepsHolds(v: Store.Vault, ns: string, entries: seq<(string, Json)>, draws: nat -> Store.Draws, i: nat,
                            key: string, value: string, meta: Store.SecretMetadata)
    requires Store.Holds(v, ns, key, value, meta)
    requires forall j :: 0 <= j < |entries| ==> entries[j].0 != key
    ensures Store.Holds(ImportAll(v, ns, entries, draws, i).0, ns, key, value, meta)
  {
    LaterKeysNotPut(v, ns, entries, key);
    ImportAllKeeps(v, ns, entries, draws, i, Store.SecretKey(v.currentTenant.value, ns, key));
    Store.HoldsKept(v, ImportAll(v, ns, entries, draws, i).0, ns, key, value, meta);
  }

  /** One entry with a string value is stored by its put. */
  lemma ImportOneStores(v: Store.Vault, ns: string, key: string, data: Json, d: Store.Draws)
    requires Store.Unlocked(v) && ValueOf(data).Some?
    ensures Store.Holds(ImportOne(v, ns, key, data, d).0, ns, key, ValueOf(data).value, Store.PutMetadata(v.currentTenant.value, ns, key, TagsOf(data), d))
  {
  }

  /** A name that no entry carries is not among the keys the loop writes. */
  lemma LaterKeysNotPut(v: Store.Vault, ns: string, entries: seq<(string, Json)>, key: string)
    requires v.currentTenant.Some?
    requires forall j :: 0 <= j < |entries| ==> entries[j].0 != key
    ensures Store.SecretKey(v.currentTenant.value, ns, key) !in PutKeys(v, ns, entries)
  {
    var t := v.currentTenant.value;
    var p := Store.SecretPrefix(t, ns);
    forall e | e in entries ensures Store.SecretKey(t, ns, key) != Store.SecretKey(t, ns, e.0) {
      assert (p + e.0)[|p|..] == e.0 && (p + key)[|p|..] == key;
    }
  }

  /** The loop leaves every secret key it does not write as it was. */
  lemma ImportAllKeeps(v: Store.Vault, ns: string, entries: seq<(string, Json)>, draws: nat -> Store.Draws, i: nat, k: string)
    requires v.currentTenant.Some?
    requires k !in PutKeys(v, ns, entries)
    requires exists key :: k == Store.SecretKey(v.currentTenant.value, ns, key)
    ensures Sled.Get(ImportAll(v, ns, entries, draws, i).0.db, k) == Sled.Get(v.db, k)
  {
    var key :| k == Store.SecretKey(v.currentTenant.value, ns, key);
    Store.AuditKeyPrefix("", 0, v.currentTenant.value, ns, key);
  }

  lemma PutKeysCons(v: Store.Vault, v1: Store.Vault, ns: string, entries: seq<(string, Json)>)
    requires |entries| > 0 && v1.currentTenant == v.currentTenant
    ensures PutKeyOf(v, ns, entries[0].0, entries[0].1) + PutKeys(v1, ns, entries[1..]) == PutKeys(v, ns, entries)
  {
    if v.currentTenant.Some? {
      var t := v.currentTenant.value;
      forall q | q in PutKeys(v, ns, entries)
        ensures q in PutKeyOf(v, ns, entries[0].0, entries[0].1) + PutKeys(v1, ns, entries[1..])
      {
        var e :| e in entries && ValueOf(e.1).Some? && q == Store.SecretKey(t, ns, e.0);
        if e != entries[0] {
          assert e in entries[1..];
        }
      }
      forall q | q in PutKeys(v1, ns, entries[1..]) ensures q in PutKeys(v, ns, entries) {
        var e :| e in entries[1..] && ValueOf(e.1).Some? && q == Store.SecretKey(t, ns, e.0);
        assert e in entries;
      }
    }
  }

  /** What a completed import did: the namespace, how many secrets it
      stored, the entries it could not store, and the audit entry. */
  datatype ImportEffect = ImportEffect(namespace: string, imported: nat, errors: seq<ImportError>, entry: Audit.AuditEntry)

  /** `import_command(input, format, namespace)` on the store `v` with the
      session file `slot` at `now`. `fileExists` says whether `input`
      exists and `parsed` what `serde_json` made of its text (`None`: not
      JSON). */
  function Import(v: Store.Vault, slot: AppAuth.SessionSlot, now: Time, input: string, fileExists: bool, parsed: Option<Json>,
                  format: string, namespace: Option<string>, confirm: bool, draws: nat -> Store.Draws, auditId: Uuid)
    : (r: (Store.Vault, AppAuth.SessionSlot, Outcome<ImportEffect>))
    ensures r.1 == AppAuth.GetCurrentSession(slot, now).0
    ensures !Admits(slot, now, AppAuth.CanWrite) ==> r.0 == v && r.2.Stop?
    ensures r.2.Proceed? ==> Admits(slot, now, AppAuth.CanWrite) && fileExists && confirm && format == "json" && parsed.Some?
    ensures r.2.Proceed? ==>
              && r.2.effect.namespace == namespace.UnwrapOr(DEFAULT_NAMESPACE)
              && |SecretsOf(parsed.value)| > 0
              && r.2.effect.imported + |r.2.effect.errors| == |SecretsOf(parsed.value)|
              && Audit.Describes(r.2.effect.entry, slot.session.tenantId, Audit.EVENT_IMPORT,
                                 "Imported " + Text.IntToDecimal(r.2.effect.imported) + " secrets from " + input
                                 + " to namespace " + r.2.effect.namespace,
                                 slot.session.userId)
    ensures !r.2.Proceed? ==> r.0 == v
    ensures OnlyAudit(v.db, r.0.db, if parsed.Some? then PutKeys(v, namespace.UnwrapOr(DEFAULT_NAMESPACE), SecretsOf(parsed.value)) else {})
    ensures Store.Readable(v.db) ==> Store.Readable(r.0.db)
  {
    var (after, checked) := Check(slot, now, AppAuth.CanWrite, IMPORT_WRITE_REQUIRED);
    match checked
    case Stop(m) => (v, after, Stop(m))
    case Fail(e) => (v, after, Fail(e))
    case Proceed(session) =>
      if !fileExists then (v, after, Stop(FileNotFound(input)))
      else
        var ns := namespace.UnwrapOr(DEFAULT_NAMESPACE);
        if format == "yaml" then (v, after, Fail(Message(YAML_IMPORT)))
        else if format != "json" then (v, after, Fail(Message(UnsupportedFormat(format))))
        else if parsed.None? then (v, after, Fail(InvalidJson))
        else
          var entries := SecretsOf(parsed.value);
          if |entries| == 0 then (v, after, Stop(NO_SECRETS))
          else if !confirm then (v, after, Stop(IMPORT_CANCELLED))
          else
            var (v1, imported, errors) := ImportAll(v, ns, entries, draws, 0);
            var entry := Audit.New(session.tenantId, Audit.EVENT_IMPORT,
                                   "Imported " + Text.IntToDecimal(imported) + " secrets from " + input + " to namespace " + ns,
                                   session.userId, auditId, now);
            (v1, after, Proceed(ImportEffect(ns, imported, errors, entry)))
  }

  /** Only JSON is imported: YAML is refused with its own message, any
      other format as unsupported, in both cases before the store is
      touched. */
  lemma ImportOnlyJson(v: Store.Vault, slot: AppAuth.SessionSlot, now: Time, input: string, parsed: Option<Json>,
                       format: string, namespace: Option<string>, confirm: bool, draws: nat -> Store.Draws, auditId: Uuid)
    requires Admits(slot, now, AppAuth.CanWrite) && format != "json"
    ensures Import(v, slot, now, input, true, parsed, format, namespace, confirm, draws, auditId).2
            == Fail(Message(if format == "yaml" then YAML_IMPORT else UnsupportedFormat(format)))
    ensures Import(v, slot, now, input, true, parsed, format, namespace, confirm, draws, auditId).0 == v
  {
  }

  /** In an unlocked store, an import reports exactly the entries without
      a string value, in order, and counts all the others as imported. */
  lemma ImportReportsMissingValues(v: Store.Vault, slot: AppAuth.SessionSlot, now: Time, input: string, doc: Json,
                                   namespace: Option<string>, draws: nat -> Store.Draws, auditId: Uuid)
    requires Store.Unlocked(v)
    requires Import(v, slot, now, input, true, Some(doc), "json", namespace, true, draws, auditId).2.Proceed?
    ensures var eff := Import(v, slot, now, input, true, Some(doc), "json", namespace, true, draws, auditId).2.effect;
            eff.errors == MissingValues(SecretsOf(doc))
            && eff.imported == |SecretsOf(doc)| - |MissingValues(SecretsOf(doc))|
  {
  }

  /** In an unlocked store, after an import goes through, reading back an
      entry that has a string value, and that is the last in the document
      with its name, returns that value with the entry's tags. A parsed
      document has unique names, so every entry is the last with its own. */
  lemma ImportThenGet(v: Store.Vault, slot: AppAuth.SessionSlot, now: Time, input: string, doc: Json,
                      namespace: Option<string>, draws: nat -> Store.Draws, auditId: Uuid, idx: nat, d: Store.Draws)
    requires Store.Unlocked(v) && Store.Readable(v.db)
    requires Import(v, slot, now, input, true, Some(doc), "json", namespace, true, draws, auditId).2.Proceed?
    requires LastWithName(SecretsOf(doc), idx) && ValueOf(SecretsOf(doc)[idx].1).Some?
    ensures
      var after := Import(v, slot, now, input, true, Some(doc), "json", namespace, true, draws, auditId).0;
      var ns := namespace.UnwrapOr(DEFAULT_NAMESPACE);
      var e := SecretsOf(doc)[idx];
      Store.Readable(after.db)
      && Store.GetWithMetadata(after, e.0, ns, d).1
         == Ok(Some((ValueOf(e.1).value, Store.PutMetadata(v.currentTenant.value, ns, e.0, TagsOf(e.1), draws(idx)))))
  {
    var after := Import(v, slot, now, input, true, Some(doc), "json", namespace, true, draws, auditId).0;
    var ns := namespace.UnwrapOr(DEFAULT_NAMESPACE);
    var e := SecretsOf(doc)[idx];
    ImportRunsLoop(v, slot, now, input, doc, namespace, draws, auditId);
    ImportAllStores(v, ns, SecretsOf(doc), draws, 0, idx, idx, v.currentTenant.value, e.0, ValueOf(e.1).value, TagsOf(e.1));
    Store.ReadHolds(after, e.0, ns, d, ValueOf(e.1).value, Store.PutMetadata(v.currentTenant.value, ns, e.0, TagsOf(e.1), draws(idx)));
  }

  /** An import that goes through leaves the store as its loop does. */
  lemma ImportRunsLoop(v: Store.Vault, slot: AppAuth.SessionSlot, now: Time, input: string, doc: Json,
                       namespace: Option<string>, draws: nat -> Store.Draws, auditId: Uuid)
    requires Import(v, slot, now, input, true, Some(doc), "json", namespace, true, draws, auditId).2.Proceed?
    ensures Import(v, slot, now, input, true, Some(doc), "json", namespace, true, draws, auditId).0
            == ImportAll(v, namespace.UnwrapOr(DEFAULT_NAMESPACE), SecretsOf(doc), draws, 0).0
  {
  }

  /** A document whose secrets are missing or empty imports nothing and
      leaves the store as it was. */
  lemma EmptyImport(v: Store.Vault, slot: AppAuth.SessionSlot, now: Time, input: string, doc: Json,
                    namespace: Option<string>, confirm: bool, draws: nat -> Store.Draws, auditId: Uuid)
    requires Admits(slot, now, AppAuth.CanWrite)
    requires SecretsOf(doc) == []
    ensures Import(v, slot, now, input, true, Some(doc), "json", namespace, confirm, draws, auditId) == (v, slot, Stop(NO_SECRETS))
  {
  }
}

=== FILE: cloud_sync.dfy ===
/** `sync`: choosing a sync backend from the cloud configuration, routing
    push and pull to it, and summarising the sync status. The backends
    themselves (S3, PostgreSQL) are network code outside this model: the
    operations they provide are parameters, gathered in `Remote`. */
module CloudSync {
  import opened Base
  import AppConfig
  import Store
  import opened Conflicts

  /** `SyncBackend`. */
  datatype SyncBackend = S3(bucket: string, region: string) | Postgres(url: string)

  /** `SyncManager { backend, storage }`. */
  datatype SyncManager = SyncManager(backend: SyncBackend, storage: Store.Vault)

  /** `SyncResult`; the counts are `usize`. */
  datatype SyncResult = SyncResult(pushed: nat, pulled: nat, conflicts: seq<ConflictInfo>, errors: seq<string>)

  /** `SyncStatus`. The source stores the backend's `Debug` rendering; the
      model keeps the backend it renders. */
  datatype SyncStatus = SyncStatus(
    backend: SyncBackend,
    lastSync: Time,
    localSecrets: nat,
    remoteSecrets: nat,
    conflicts: nat,
    syncNeeded: bool)

  /** The backend entry points `s3_push`, `s3_pull`, `s3_get_metadata`,
      `postgres_push`, `postgres_pull`, `postgres_get_metadata`. */
  datatype Remote = Remote(
    s3Push: (Store.Vault, string, string, bool) -> Result<SyncResult>,
    s3Pull: (Store.Vault, string, string, bool) -> Result<SyncResult>,
    s3Metadata: (string, string) -> Result<SyncMetadata>,
    pgPush: (Store.Vault, string, bool) -> Result<SyncResult>,
    pgPull: (Store.Vault, string, bool) -> Result<SyncResult>,
    pgMetadata: string -> Result<SyncMetadata>)

  const SYNC_DISABLED: string := "Cloud sync is disabled"
  const NO_BUCKET: string := "S3 bucket not configured"
  const NO_REGION: string := "S3 region not configured"
  const NO_DATABASE_URL: string := "Database URL not configured"
  const NO_BACKEND: string := "No sync backend configured"

  /** `SyncManager::from_config`: a disabled mode fails before anything
      else is looked at; an S3 backend needs a bucket and then a region, a
      PostgreSQL backend a database URL, each copied into the backend. */
  function FromConfig(c: AppConfig.CloudConfig, storage: Store.Vault): (r: Result<SyncManager>)
    ensures c.mode == AppConfig.Disabled ==> r == Err(Config(SYNC_DISABLED))
    ensures c.mode != AppConfig.Disabled && c.backend.None? ==> r == Err(Config(NO_BACKEND))
    ensures c.mode != AppConfig.Disabled && c.backend == Some(AppConfig.S3) ==>
              && (c.bucket.None? ==> r == Err(Config(NO_BUCKET)))
              && (c.bucket.Some? && c.region.None? ==> r == Err(Config(NO_REGION)))
              && (c.bucket.Some? && c.region.Some? ==> r == Ok(SyncManager(S3(c.bucket.value, c.region.value), storage)))
    ensures c.mode != AppConfig.Disabled && c.backend == Some(AppConfig.Postgres) ==>
              && (c.databaseUrl.None? ==> r == Err(Config(NO_DATABASE_URL)))
              && (c.databaseUrl.Some? ==> r == Ok(SyncManager(Postgres(c.databaseUrl.value), storage)))
  {
    if c.mode == AppConfig.Disabled then Err(Config(SYNC_DISABLED))
    else
      match c.backend
      case None => Err(Config(NO_BACKEND))
      case Some(kind) =>
        if kind == AppConfig.S3 then
          if c.bucket.None? then Err(Config(NO_BUCKET))
          else if c.region.None? then Err(Config(NO_REGION))
          else Ok(SyncManager(S3(c.bucket.value, c.region.value), storage))
        else
          if c.databaseUrl.None? then Err(Config(NO_DATABASE_URL))
          else Ok(SyncManager(Postgres(c.databaseUrl.value), storage))
  }

  /** The cloud section that describes a backend: its kind and the fields
      it needs, nothing else. */
  function ConfigFor(b: SyncBackend, mode: AppConfig.CloudMode): (c: AppConfig.CloudConfig)
    ensures c.mode == mode && c.backend.Some?
  {
    match b
    case S3(bucket, region) => AppConfig.CloudConfig(mode, Some(AppConfig.S3), Some(region), Some(bucket), None, None, None)
    case Postgres(url) => AppConfig.CloudConfig(mode, Some(AppConfig.Postgres), None, None, Some(url), None, None)
  }

  /** Every backend can be configured: in either enabled mode, its
      describing section yields exactly that backend. */
  lemma FromConfigRoundTrip(b: SyncBackend, mode: AppConfig.CloudMode, storage: Store.Vault)
    requires mode != AppConfig.Disabled
    ensures FromConfig(ConfigFor(b, mode), storage) == Ok(SyncManager(b, storage))
  {
  }

  /** Every manager `from_config` builds comes from a section of the same
      backend kind, and the fields it copies are the section's. */
  lemma FromConfigSound(c: AppConfig.CloudConfig, storage: Store.Vault)
    requires FromConfig(c, storage).Ok?
    ensures c.mode != AppConfig.Disabled
    ensures FromConfig(c, storage).value.backend.S3? <==> c.backend == Some(AppConfig.S3)
    ensures FromConfig(c, storage).value.backend.S3? ==>
              Some(FromConfig(c, storage).value.backend.bucket) == c.bucket
              && Some(FromConfig(c, storage).value.backend.region) == c.region
    ensures FromConfig(c, storage).value.backend.Postgres? ==> Some(FromConfig(c, storage).value.backend.url) == c.databaseUrl
  {
  }

  /** Backup and Collaborative are treated alike when choosing a backend. */
  lemma FromConfigModeIrrelevant(c: AppConfig.CloudConfig, storage: Store.Vault)
    requires c.mode != AppConfig.Disabled
    ensures FromConfig(c.(mode := AppConfig.Backup), storage) == FromConfig(c.(mode := AppConfig.Collaborative), storage)
  {
  }

  /** `SyncManager::push(force)`. */
  function Push(m: SyncManager, force: bool, remote: Remote): (r: Result<SyncResult>)
    ensures m.backend.S3? ==> r == remote.s3Push(m.storage, m.backend.bucket, m.backend.region, force)
    ensures m.backend.Postgres? ==> r == remote.pgPush(m.storage, m.backend.url, force)
  {
    match m.backend
    case S3(bucket, region) => remote.s3Push(m.storage, bucket, region, force)
    case Postgres(url) => remote.pgPush(m.storage, url, force)
  }

  /** `SyncManager::pull(force)`. */
  function Pull(m: SyncManager, force: bool, remote: Remote): (r: Result<SyncResult>)
    ensures m.backend.S3? ==> r == remote.s3Pull(m.storage, m.backend.bucket, m.backend.region, force)
    ensures m.backend.Postgres? ==> r == remote.pgPull(m.storage, m.backend.url, force)
  {
    match m.backend
    case S3(bucket, region) => remote.s3Pull(m.storage, bucket, region, force)
    case Postgres(url) => remote.pgPull(m.storage, url, force)
  }

  /** Push and pull never reach the other backend: replacing every
      PostgreSQL entry point leaves an S3 manager's results unchanged, and
      replacing every S3 entry point leaves a PostgreSQL manager's. */
  lemma DispatchIgnoresOtherBackend(m: SyncManager, force: bool, remote: Remote, other: Remote)
    ensures m.backend.S3? ==>
              var mixed := remote.(pgPush := other.pgPush, pgPull := other.pgPull, pgMetadata := other.pgMetadata);
              Push(m, force, mixed) == Push(m, force, remote) && Pull(m, force, mixed) == Pull(m, force, remote)
    ensures m.backend.Postgres? ==>
              var mixed := remote.(s3Push := other.s3Push, s3Pull := other.s3Pull, s3Metadata := other.s3Metadata);
              Push(m, force, mixed) == Push(m, force, remote) && Pull(m, force, mixed) == Pull(m, force, remote)
  {
  }

  /** `get_local_secrets`: a placeholder that reports no local secrets. */
  function GetLocalSecrets(m: SyncManager): (r: Result<map<string, Store.Secret>>)
    ensures r.Ok? && |r.value| == 0
  {
    Ok(map[])
  }

  /** The remote metadata for the manager's backend. */
  function RemoteMetadata(m: SyncManager, remote: Remote): (r: Result<SyncMetadata>)
    ensures m.backend.S3? ==> r == remote.s3Metadata(m.backend.bucket, m.backend.region)
    ensures m.backend.Postgres? ==> r == remote.pgMetadata(m.backend.url)
  {
    match m.backend
    case S3(bucket, region) => remote.s3Metadata(bucket, region)
    case Postgres(url) => remote.pgMetadata(url)
  }

  /** `SyncManager::status`: local and remote summaries, the number of
      detected conflicts, and whether any sync is needed. Of the three `?`
      steps only the metadata fetch can fail; the other two are written
      without the dead error branch. */
  function Status(m: SyncManager, remote: Remote): (r: Result<SyncStatus>)
    ensures RemoteMetadata(m, remote).Err? ==> r == Err(RemoteMetadata(m, remote).error)
    ensures RemoteMetadata(m, remote).Ok? ==> r.Ok?
    ensures r.Ok? ==>
              && r.value.backend == m.backend
              && r.value.lastSync == RemoteMetadata(m, remote).value.lastSync
              && r.value.remoteSecrets == RemoteMetadata(m, remote).value.syncVersion
              && r.value.localSecrets == 0
              && (r.value.syncNeeded <==> r.value.conflicts > 0)
  {
    var local := GetLocalSecrets(m).value;
    var meta :- RemoteMetadata(m, remote);
    var conflicts := DetectConflicts(local, meta).value;
    Ok(SyncStatus(m.backend, meta.lastSync, |local|, meta.syncVersion, |conflicts|, |conflicts| > 0))
  }

  /** With conflict detection a placeholder, the status never reports a
      conflict or a needed sync, whatever the remote holds. */
  lemma StatusNeverNeedsSync(m: SyncManager, remote: Remote)
    requires Status(m, remote).Ok?
    ensures Status(m, remote).value.conflicts == 0 && !Status(m, remote).value.syncNeeded
  {
  }
}

=== FILE: collect.dfy ===
/** The loop shape the store's listing operations share: walk a sequence,
    let each step either fail (the `?` in the loop body), skip the element
    (`continue`), or push one result, and stop at the first failure. */
module Collect {
  import opened Base

  function FilterMapResult<E, T(!new)>(s: seq<E>, f: E -> Result<Option<T>>): (r: Result<seq<T>>)
    ensures r.Ok? <==> forall i :: 0 <= i < |s| ==> f(s[i]).Ok?
    ensures r.Ok? ==> |r.value| <= |s|
    ensures r.Ok? ==> forall x :: x in r.value <==> exists i :: 0 <= i < |s| && f(s[i]) == Ok(Some(x))
    ensures r.Err? ==> exists i :: 0 <= i < |s| && f(s[i]).Err? && r.error == f(s[i]).error
                                   && forall j :: 0 <= j < i ==> f(s[j]).Ok?
  {
    if |s| == 0 then Ok([])
    else
      match f(s[0])
      case Err(e) => Err(e)
      case Ok(head) =>
        var rest := FilterMapResult(s[1..], f);
        if rest.Err? then
          assert forall j :: 1 <= j < |s| ==> s[1..][j - 1] == s[j];
          Err(rest.error)
        else
          assert forall j :: 1 <= j < |s| ==> s[1..][j - 1] == s[j];
          match head
          case None => rest
          case Some(x) => Ok([x] + rest.value)
  }

  /** Two steps that agree on every element collect the same result. */
  lemma {:induction false} FilterMapResultAgree<E, T(!new)>(s: seq<E>, f: E -> Result<Option<T>>, g: E -> Result<Option<T>>)
    requires forall i :: 0 <= i < |s| ==> f(s[i]) == g(s[i])
    ensures FilterMapResult(s, f) == FilterMapResult(s, g)
    decreases |s|
  {
    if |s| > 0 {
      assert forall i :: 0 <= i < |s[1..]| ==> s[1..][i] == s[i + 1];
      FilterMapResultAgree(s[1..], f, g);
    }
  }

  /** No element occurs twice. */
  predicate NoDuplicates<T(==)>(s: seq<T>) {
    forall i, j :: 0 <= i < j < |s| ==> s[i] != s[j]
  }

  /** A sequence has no duplicates exactly when its multiset counts every
      element at most once, so reordering keeps it duplicate-free. */
  lemma {:induction false} NoDuplicatesCount<T>(s: seq<T>)
    ensures NoDuplicates(s) <==> forall x :: multiset(s)[x] <= 1
    decreases |s|
  {
    if |s| > 0 {
      var tail := s[1..];
      NoDuplicatesCount(tail);
      assert s == [s[0]] + tail;
      assert multiset(s) == multiset{s[0]} + multiset(tail);
      assert forall k :: 0 <= k < |tail| ==> tail[k] == s[k + 1];
      if NoDuplicates(s) {
        assert NoDuplicates(tail);
        assert s[0] !in tail;
      }
      if forall x :: multiset(s)[x] <= 1 {
        assert multiset(tail)[s[0]] == 0;
        assert forall x :: multiset(tail)[x] <= multiset(s)[x];
        forall i, j | 0 <= i < j < |s| ensures s[i] != s[j] {
          if i == 0 {
            assert s[j] in tail;
          }
        }
      }
    }
  }

  /** When no two positions yield the same value, the collected values are
      duplicate-free. */
  lemma {:induction false} FilterMapResultDistinct<E, T(!new)>(s: seq<E>, f: E -> Result<Option<T>>)
    requires forall i, j :: 0 <= i < j < |s| && f(s[i]).Ok? && f(s[i]).value.Some? ==> f(s[j]) != f(s[i])
    ensures FilterMapResult(s, f).Ok? ==> NoDuplicates(FilterMapResult(s, f).value)
    decreases |s|
  {
    if |s| > 0 && FilterMapResult(s, f).Ok? {
      var tail := s[1..];
      assert forall k :: 0 <= k < |tail| ==> tail[k] == s[k + 1];
      FilterMapResultDistinct(tail, f);
      var rest := FilterMapResult(tail, f);
      var head := f(s[0]).value;
      if head.Some? {
        var x := head.value;
        assert FilterMapResult(s, f).value == [x] + rest.value;
      }
    }
  }
}

=== FILE: conflicts.dfy ===
/** `sync::conflict`: conflict records and the resolver. Detection and
    resolution are placeholders in the application; the model states what
    they return today, and how a strategy chooses a resolution. */
module Conflicts {
  import opened Base
  import Store

  /** `ConflictInfo`; versions are `u64`. */
  datatype ConflictInfo = ConflictInfo(
    secretKey: string,
    namespace: string,
    localVersion: nat,
    remoteVersion: nat,
    conflictType: string)

  /** `SyncMetadata`, the remote side's summary. */
  datatype SyncMetadata = SyncMetadata(lastSync: Time, syncVersion: nat, conflicts: seq<ConflictInfo>)

  /** `ConflictResolution`. */
  datatype ConflictResolution = UseLocal | UseRemote | Merge | Skip

  /** `AutoResolveStrategy`. */
  datatype AutoResolveStrategy = PreferLocal | PreferRemote | PreferNewer | Manual

  /** `detect_conflicts(local, remote)`: no comparison is implemented, so
      no conflict is ever reported, whatever the two sides hold. */
  function DetectConflicts(local: map<string, Store.Secret>, remote: SyncMetadata): (r: Result<seq<ConflictInfo>>)
    ensures r.Ok? && |r.value| == 0
  {
    Ok([])
  }

  /** `ConflictResolver::resolve_conflict`: every resolution yields no
      secret to write back. */
  function ResolveConflict(conflict: ConflictInfo, resolution: ConflictResolution): (r: Result<Option<Store.Secret>>)
    ensures r.Ok? && r.value.None?
  {
    match resolution
    case UseLocal => Ok(None)
    case UseRemote => Ok(None)
    case Merge => Ok(None)
    case Skip => Ok(None)
  }

  /** The resolution a strategy picks for any one conflict. `PreferNewer`
      does not compare versions or times: it keeps the local side. No
      strategy ever merges. */
  function ResolutionFor(strategy: AutoResolveStrategy): (r: ConflictResolution)
    ensures r != Merge
    ensures r == UseLocal <==> strategy == PreferLocal || strategy == PreferNewer
    ensures r == UseRemote <==> strategy == PreferRemote
    ensures r == Skip <==> strategy == Manual
  {
    match strategy
    case PreferLocal => UseLocal
    case PreferRemote => UseRemote
    case PreferNewer => UseLocal
    case Manual => Skip
  }

  /** `ConflictResolver::auto_resolve_conflicts`: each conflict, in order,
      paired with the strategy's resolution. */
  function AutoResolveConflicts(conflicts: seq<ConflictInfo>, strategy: AutoResolveStrategy): (r: seq<(ConflictInfo, ConflictResolution)>)
    ensures |r| == |conflicts|
    ensures forall i :: 0 <= i < |r| ==> r[i].0 == conflicts[i] && r[i].1 == ResolutionFor(strategy)
  {
    if |conflicts| == 0 then []
    else [(conflicts[0], ResolutionFor(strategy))] + AutoResolveConflicts(conflicts[1..], strategy)
  }

  /** The conflicts of a resolution plan, in order. */
  function PlanConflicts(plan: seq<(ConflictInfo, ConflictResolution)>): (cs: seq<ConflictInfo>)
  {
    seq(|plan|, i requires 0 <= i < |plan| => plan[i].0)
  }

  /** Dropping the resolutions from a plan gives back the conflicts it was
      made from: nothing is reordered, dropped, duplicated or altered. */
  lemma AutoResolveKeepsConflicts(conflicts: seq<ConflictInfo>, strategy: AutoResolveStrategy)
    ensures PlanConflicts(AutoResolveConflicts(conflicts, strategy)) == conflicts
  {
  }

  /** `PreferNewer` and `PreferLocal` produce the same plan for every list
      of conflicts. */
  lemma PreferNewerIsPreferLocal(conflicts: seq<ConflictInfo>)
    ensures AutoResolveConflicts(conflicts, PreferNewer) == AutoResolveConflicts(conflicts, PreferLocal)
  {
  }

  /** Resolving every planned conflict yields nothing to write back, so an
      automatic resolution pass changes no secret. */
  lemma PlanWritesNothing(conflicts: seq<ConflictInfo>, strategy: AutoResolveStrategy, i: int)
    requires 0 <= i < |conflicts|
    ensures ResolveConflict(AutoResolveConflicts(conflicts, strategy)[i].0,
                            AutoResolveConflicts(conflicts, strategy)[i].1) == Ok(None)
  {
  }
}

=== FILE: crypto.dfy ===
/** The application's record layer (`crypto::MasterKey`): a 32-byte key derived
    from a passphrase with Argon2id, plus the algorithm new records are sealed
    with; and `EncryptedData`, the self-describing record it produces. */
module Crypto {
  import opened Base
  import opened Aead

  /** `EncryptedData`: algorithm tag, AEAD output, nonce, a 32-byte salt and
      the format version. */
  datatype EncryptedData = EncryptedData(
    algorithm: Algorithm,
    ciphertext: Ciphertext,
    nonce: seq<byte>,
    salt: Bytes32,
    version: byte)

  /** `MasterKey { key, algorithm }`. */
  datatype MasterKey = MasterKey(key: Key, algorithm: Algorithm)

  /** The random draws of one `encrypt` call: the record's salt and nonce
      (both from `OsRng`). */
  datatype Coins = Coins(salt: Bytes32, nonce: Bytes12)

  /** The format version every record is written with. */
  const RECORD_VERSION: byte := 1

  /** `MasterKey::derive_from_passphrase(passphrase, salt, algorithm)`:
      Argon2id with the default parameters. The passphrase and salt decide
      the key; the algorithm only decides how new records are sealed. */
  function DeriveFromPassphrase(passphrase: string, salt: Bytes32, algorithm: Algorithm): (m: MasterKey)
    ensures m.algorithm == algorithm
    ensures m.key == DeriveKey(passphrase, salt, Params(DEFAULT_KDF_PARAMS))
  {
    MasterKey(DeriveKey(passphrase, salt, Params(DEFAULT_KDF_PARAMS)), algorithm)
  }

  /** Two derivations give the same key exactly when passphrase and salt agree. */
  lemma DeriveSameKeyIff(p1: string, s1: Bytes32, a1: Algorithm, p2: string, s2: Bytes32, a2: Algorithm)
    ensures DeriveFromPassphrase(p1, s1, a1).key == DeriveFromPassphrase(p2, s2, a2).key
        <==> p1 == p2 && s1 == s2
  {
    DeriveKeyInjective(p1, s1, Params(DEFAULT_KDF_PARAMS), p2, s2, Params(DEFAULT_KDF_PARAMS));
  }

  /** `MasterKey::encrypt(plaintext)`: seals under the key's own algorithm,
      tags the record with that algorithm and version 1, and stores the fresh
      nonce and a fresh salt (the salt plays no part in decryption). */
  function Encrypt(mk: MasterKey, plaintext: seq<byte>, coins: Coins): (e: EncryptedData)
    ensures e.algorithm == mk.algorithm && e.version == RECORD_VERSION
    ensures e.nonce == coins.nonce && e.salt == coins.salt
    ensures Decrypt(mk, e) == Ok(plaintext)
  {
    EncryptedData(mk.algorithm, Seal(mk.algorithm, mk.key, coins.nonce, plaintext), coins.nonce, coins.salt, RECORD_VERSION)
  }

  /** `MasterKey::decrypt(encrypted)`: dispatches on the record's algorithm
      tag, not on the key's own algorithm. Fails with the tagged cipher's
      error unless the record was sealed with this key, that cipher and the
      stored nonce. A stored nonce of any length but 12 makes the source
      panic, hence the precondition. */
  function Decrypt(mk: MasterKey, e: EncryptedData): (r: Result<seq<byte>>)
    requires |e.nonce| == 12
    ensures r.Ok? <==> (e.ciphertext.Sealed? && e.ciphertext.key == mk.key
                        && e.ciphertext.algorithm == e.algorithm && e.ciphertext.nonce == e.nonce)
    ensures r.Ok? ==> r.value == e.ciphertext.plaintext
    ensures r.Err? ==> r.error == Crypto(DecryptFailure(e.algorithm))
  {
    Open(e.algorithm, mk.key, e.ciphertext, e.nonce)
  }

  /** The key's algorithm plays no part in decryption: a ChaCha20-Poly1305
      record opens under a key configured for AES-256-GCM and vice versa. */
  lemma DecryptIgnoresKeyAlgorithm(key: Key, a1: Algorithm, a2: Algorithm, e: EncryptedData)
    requires |e.nonce| == 12
    ensures Decrypt(MasterKey(key, a1), e) == Decrypt(MasterKey(key, a2), e)
  {
  }

  /** A record encrypted under one passphrase does not decrypt under another
      (or under another salt): the key derivation separates them. */
  lemma WrongPassphraseFails(
    p1: string, s1: Bytes32, p2: string, s2: Bytes32, a: Algorithm,
    plaintext: seq<byte>, coins: Coins)
    requires p1 != p2 || s1 != s2
    ensures Decrypt(DeriveFromPassphrase(p2, s2, a), Encrypt(DeriveFromPassphrase(p1, s1, a), plaintext, coins))
         == Err(Crypto(DecryptFailure(a)))
  {
    DeriveSameKeyIff(p1, s1, a, p2, s2, a);
  }

  /** Rewriting a record's algorithm tag makes it undecryptable. */
  lemma RetaggedRecordFails(mk: MasterKey, plaintext: seq<byte>, coins: Coins, other: Algorithm)
    requires other != mk.algorithm
    ensures Decrypt(mk, Encrypt(mk, plaintext, coins).(algorithm := other)) == Err(Crypto(DecryptFailure(other)))
  {
  }

  /** Encrypting the same plaintext twice with different nonces yields
      different ciphertexts, and both decrypt to the plaintext. */
  lemma FreshNoncesDiffer(mk: MasterKey, plaintext: seq<byte>, c1: Coins, c2: Coins)
    requires c1.nonce != c2.nonce
    ensures Encrypt(mk, plaintext, c1).ciphertext != Encrypt(mk, plaintext, c2).ciphertext
    ensures Decrypt(mk, Encrypt(mk, plaintext, c1)) == Decrypt(mk, Encrypt(mk, plaintext, c2)) == Ok(plaintext)
  {
  }
}

=== FILE: envelope.dfy ===
/** Envelope encryption (`crypto::envelope`): the payload is sealed under a
    fresh data-encryption key (DEK), and the DEK is sealed under a
    key-encryption key (KEK) whose identifier travels with the envelope. The
    only KEK is `LocalKeyEncryptionKey`, a master key with a name. */
module Envelope {
  import opened Base
  import opened Aead
  import opened Crypto
  import Hex
  import Utf8

  /** `DataEncryptionKey { key, algorithm }`. */
  datatype Dek = Dek(key: Bytes32, algorithm: Algorithm)

  /** The master key a DEK stands for: Argon2id of the key's hex text with
      an all-zero salt. */
  function DekMasterKey(d: Dek): MasterKey {
    DeriveFromPassphrase(Hex.Encode(d.key), Zeros(32), d.algorithm)
  }

  /** Distinct DEKs stand for distinct keys: hex encoding, UTF-8 and the
      key derivation are all injective. */
  lemma DekKeysDistinct(d1: Dek, d2: Dek)
    ensures DekMasterKey(d1).key == DekMasterKey(d2).key <==> d1.key == d2.key
  {
    var a := Hex.Encode(d1.key);
    var b := Hex.Encode(d2.key);
    DeriveSameKeyIff(a, Zeros(32), d1.algorithm, b, Zeros(32), d2.algorithm);
    if a == b {
      Hex.EncodeInjective(d1.key, d2.key);
    }
  }

  /** `DataEncryptionKey::encrypt`. */
  function DekEncrypt(d: Dek, plaintext: seq<byte>, coins: Coins): (e: EncryptedData)
    ensures e.algorithm == d.algorithm && e.nonce == coins.nonce
    ensures DekDecrypt(d, e) == Ok(plaintext)
  {
    Encrypt(DekMasterKey(d), plaintext, coins)
  }

  /** `DataEncryptionKey::decrypt`. */
  function DekDecrypt(d: Dek, e: EncryptedData): Result<seq<byte>>
    requires |e.nonce| == 12
  {
    Decrypt(DekMasterKey(d), e)
  }

  /** A byte string that `bincode` may or may not accept as `EncryptedData`:
      `Bincode(e)` is the serialisation of `e`, `Malformed` anything else. */
  datatype Blob = Bincode(data: EncryptedData) | Malformed(bytes: seq<byte>)

  /** `bincode::deserialize::<EncryptedData>`. */
  function Deserialize(b: Blob): (r: Result<EncryptedData>)
    ensures r.Ok? <==> b.Bincode?
    ensures r.Ok? ==> r.value == b.data
    ensures r.Err? ==> r.error == Serialization
  {
    match b
    case Bincode(e) => Ok(e)
    case Malformed(_) => Err(Serialization)
  }

  /** `LocalKeyEncryptionKey { master_key, id }`. */
  datatype LocalKek = LocalKek(masterKey: MasterKey, id: string)

  /** `KeyEncryptionKey::key_id`. */
  function KeyId(kek: LocalKek): string {
    kek.id
  }

  /** A blob `decrypt_dek` can read without panicking: if it deserialises,
      its nonce has the 12 bytes `Nonce::from_slice` insists on. */
  predicate ReadableBlob(b: Blob) {
    b.Bincode? ==> |b.data.nonce| == 12
  }

  /** `encrypt_dek`: the DEK's 32 bytes sealed under the KEK's master key,
      then serialised. */
  function EncryptDek(kek: LocalKek, d: Dek, coins: Coins): (b: Blob)
    ensures ReadableBlob(b)
    ensures DecryptDek(kek, b, d.algorithm) == Ok(d)
  {
    Bincode(Encrypt(kek.masterKey, d.key, coins))
  }

  /** `decrypt_dek(encrypted_dek, algorithm)`: deserialise, decrypt under the
      KEK's master key, insist on exactly 32 bytes, and pair them with the
      algorithm the caller names. */
  function DecryptDek(kek: LocalKek, b: Blob, algorithm: Algorithm): (r: Result<Dek>)
    requires ReadableBlob(b)
    ensures r.Ok? <==> b.Bincode? && Decrypt(kek.masterKey, b.data).Ok?
                       && |Decrypt(kek.masterKey, b.data).value| == 32
    ensures r.Ok? ==> r.value.algorithm == algorithm && r.value.key == Decrypt(kek.masterKey, b.data).value
    ensures b.Malformed? ==> r == Err(Serialization)
    ensures b.Bincode? && Decrypt(kek.masterKey, b.data).Ok? && |Decrypt(kek.masterKey, b.data).value| != 32
            ==> r == Err(Crypto("Invalid DEK length"))
  {
    var e :- Deserialize(b);
    var bytes :- Decrypt(kek.masterKey, e);
    if |bytes| != 32 then Err(Crypto("Invalid DEK length"))
    else Ok(Dek(bytes, algorithm))
  }

  /** `EnvelopeEncryption`. */
  datatype EnvelopeEncryption = EnvelopeEncryption(
    encryptedDek: Blob,
    encryptedData: EncryptedData,
    kekId: string,
    algorithm: Algorithm)

  /** The random draws of one `envelope_encrypt`: the DEK's bytes, and the
      salt and nonce of each of the two seals. */
  datatype EnvelopeCoins = EnvelopeCoins(dek: Bytes32, data: Coins, wrap: Coins)

  /** `envelope_encrypt(kek, plaintext, algorithm)`. */
  function EnvelopeEncrypt(kek: LocalKek, plaintext: seq<byte>, algorithm: Algorithm, coins: EnvelopeCoins): (env: EnvelopeEncryption)
    ensures env.kekId == KeyId(kek) && env.algorithm == algorithm
    ensures env.encryptedData.algorithm == algorithm
    ensures ReadableEnvelope(env)
    ensures EnvelopeDecrypt(kek, env) == Ok(plaintext)
  {
    var d := Dek(coins.dek, algorithm);
    EnvelopeEncryption(EncryptDek(kek, d, coins.wrap), DekEncrypt(d, plaintext, coins.data), KeyId(kek), algorithm)
  }

  /** An envelope `envelope_decrypt` can process without panicking. */
  predicate ReadableEnvelope(env: EnvelopeEncryption) {
    ReadableBlob(env.encryptedDek) && |env.encryptedData.nonce| == 12
  }

  /** `envelope_decrypt(kek, envelope)`: unwrap the DEK, then open the payload
      with it. The KEK id recorded in the envelope is not consulted. */
  function EnvelopeDecrypt(kek: LocalKek, env: EnvelopeEncryption): (r: Result<seq<byte>>)
    requires ReadableEnvelope(env)
    ensures DecryptDek(kek, env.encryptedDek, env.algorithm).Err? ==>
              r == Err(DecryptDek(kek, env.encryptedDek, env.algorithm).error)
    ensures r.Ok? ==> env.encryptedData.ciphertext.Sealed?
                      && env.encryptedData.ciphertext.key == DekMasterKey(DecryptDek(kek, env.encryptedDek, env.algorithm).value).key
                      && r.value == env.encryptedData.ciphertext.plaintext
  {
    var d :- DecryptDek(kek, env.encryptedDek, env.algorithm);
    DekDecrypt(d, env.encryptedData)
  }

  /** An envelope sealed for one KEK does not open under a KEK with a
      different master key: the DEK cannot be unwrapped. */
  lemma EnvelopeWrongKekFails(kek: LocalKek, other: LocalKek, plaintext: seq<byte>, algorithm: Algorithm, coins: EnvelopeCoins)
    requires other.masterKey.key != kek.masterKey.key
    ensures EnvelopeDecrypt(other, EnvelopeEncrypt(kek, plaintext, algorithm, coins)).Err?
  {
  }

  /** The envelope's `algorithm` field does not matter for decryption: both
      the DEK record and the payload record carry their own tags. */
  lemma EnvelopeIgnoresAlgorithmField(kek: LocalKek, env: EnvelopeEncryption, other: Algorithm)
    requires ReadableEnvelope(env)
    ensures EnvelopeDecrypt(kek, env.(algorithm := other)) == EnvelopeDecrypt(kek, env)
  {
  }

  /** A payload sealed under one DEK does not open under another. */
  lemma OtherDekFails(d: Dek, other: Dek, plaintext: seq<byte>, coins: Coins)
    requires other.key != d.key
    ensures DekDecrypt(other, DekEncrypt(d, plaintext, coins)).Err?
  {
    DekKeysDistinct(d, other);
  }
}

=== FILE: hex.dfy ===
/** `hex::encode`: lowercase base-16 text of a byte string, and the decoder
    that shows the encoding loses nothing. */
module Hex {
  import opened Base

  predicate IsLowerHex(c: char) {
    '0' <= c <= '9' || 'a' <= c <= 'f'
  }

  function HexDigit(d: nat): (c: char)
    requires d < 16
    ensures IsLowerHex(c)
  {
    if d < 10 then ('0' as int + d) as char else ('a' as int + d - 10) as char
  }

  function NibbleValue(c: char): (d: nat)
    requires IsLowerHex(c)
    ensures d < 16
  {
    if c <= '9' then c as int - '0' as int else c as int - 'a' as int + 10
  }

  /** `hex::encode(bytes)`: two lowercase digits per byte, high nibble first. */
  function Encode(bytes: seq<byte>): (s: string)
    ensures |s| == 2 * |bytes|
    ensures forall i :: 0 <= i < |s| ==> IsLowerHex(s[i])
  {
    if |bytes| == 0 then ""
    else [HexDigit(bytes[0] / 16), HexDigit(bytes[0] % 16)] + Encode(bytes[1..])
  }

  /** The inverse of `Encode` on even-length lowercase hex text. */
  function Decode(s: string): Option<seq<byte>>
    decreases |s|
  {
    if |s| == 0 then Some([])
    else if |s| == 1 || !IsLowerHex(s[0]) || !IsLowerHex(s[1]) then None
    else
      match Decode(s[2..])
      case None => None
      case Some(rest) => Some([(NibbleValue(s[0]) * 16 + NibbleValue(s[1])) as byte] + rest)
  }

  lemma {:induction false} DecodeEncode(bytes: seq<byte>)
    ensures Decode(Encode(bytes)) == Some(bytes)
  {
    if |bytes| > 0 {
      var s := Encode(bytes);
      assert s[2..] == Encode(bytes[1..]);
      DecodeEncode(bytes[1..]);
      assert NibbleValue(s[0]) == bytes[0] / 16;
      assert NibbleValue(s[1]) == bytes[0] % 16;
      assert [bytes[0]] + bytes[1..] == bytes;
    }
  }

  /** Distinct byte strings have distinct hex text: a corollary of
      `DecodeEncode`. */
  lemma EncodeInjective(a: seq<byte>, b: seq<byte>)
    requires Encode(a) == Encode(b)
    ensures a == b
  {
    DecodeEncode(a);
    DecodeEncode(b);
  }
}

=== FILE: json.dfy ===
/** `serde_json::Value`, the shape audit metadata and import files take.
    Numbers keep only their integer value; an object is its list of fields
    in iteration order. */
module Json {
  import opened Base

  datatype Json =
    | JNull
    | JBool(b: bool)
    | JNumber(n: int)
    | JString(s: string)
    | JArray(items: seq<Json>)
    | JObject(fields: seq<(string, Json)>)

  /** `value.get(name)` on an object: the first field with that name. */
  function Field(fields: seq<(string, Json)>, name: string): (r: Option<Json>)
    ensures r.Some? <==> exists i :: 0 <= i < |fields| && fields[i].0 == name
    ensures r.Some? ==> (name, r.value) in fields
  {
    if |fields| == 0 then None
    else if fields[0].0 == name then Some(fields[0].1)
    else Field(fields[1..], name)
  }
}

=== FILE: legacy_auth.dfy ===
/** Sessions of the original single-crate vault (the crate root's `auth`
    module): a fixed 24-hour lifetime and no audit permission. */
module LegacyAuth {
  import opened Base

  datatype Role = TenantAdmin | Owner | Writer | Reader | Auditor

  datatype Session = Session(
    id: Uuid,
    tenantId: string,
    userId: string,
    role: Role,
    expiresAt: Time,
    createdAt: Time)

  /** `Session::new(tenant, user, role)`, reading the clock once. */
  function NewSession(tenantId: string, userId: string, role: Role, now: Time, id: Uuid): (s: Session)
    ensures s.id == id && s.tenantId == tenantId && s.userId == userId && s.role == role
    ensures s.createdAt == now && s.expiresAt == now + Hours(24)
  {
    Session(id, tenantId, userId, role, now + Hours(24), now)
  }

  predicate IsValid(s: Session, now: Time) {
    now < s.expiresAt
  }

  /** A fresh session is valid for exactly its first day. */
  lemma NewSessionValidity(tenantId: string, userId: string, role: Role, now: Time, id: Uuid, t: Time)
    ensures IsValid(NewSession(tenantId, userId, role, now, id), t) <==> t < now + Hours(24)
  {
  }

  predicate CanRead(s: Session) {
    true
  }

  predicate CanWrite(s: Session) {
    s.role.TenantAdmin? || s.role.Owner? || s.role.Writer?
  }

  predicate CanAdmin(s: Session) {
    s.role.TenantAdmin? || s.role.Owner?
  }

  lemma PermissionLattice(s: Session)
    ensures CanAdmin(s) ==> CanWrite(s)
    ensures CanWrite(s) ==> CanRead(s)
  {
  }
}

=== FILE: legacy_store.dfy ===
/** `storage::VaultStorage` of the original single-crate vault (the crate
    root's `storage` and `crypto` modules): the same key layout as the
    application's store, but every secret belongs to the tenant "default",
    nothing is audited, and errors are boxed messages. Only `put` and `get`
    need the store unlocked. */
module LegacyStore {
  import opened Base
  import opened Text
  import opened Aead
  import Sled
  import Crypto
  import Utf8
  import Store
  import Queries

  /** `Result<T, Box<dyn Error>>`: failures are known by their message. */
  datatype Outcome<+T> = Done(value: T) | Failed(message: string) {
    predicate IsFailure() { Failed? }

    function PropagateFailure<U>(): Outcome<U>
      requires Failed?
    {
      Failed(message)
    }

    function Extract(): T
      requires Done?
    {
      value
    }
  }

  const LOCKED: string := "Vault is locked. Please login first."
  const TENANT_NOT_FOUND: string := "Tenant not found"
  /** The tenant every secret is filed under. */
  const DEFAULT_TENANT: string := "default"
  /** `format!("Decryption error: {}", e)` for `aead::Error`. */
  const DECRYPTION_ERROR: string := "Decryption error: aead::Error"
  /** A stored value of the wrong kind fails to deserialise; the wording of
      `bincode`'s message is not modelled. */
  const MALFORMED: string := "bincode deserialization error"
  /** `FromUtf8Error`'s message; its index and byte count are not modelled. */
  const INVALID_UTF8: string := "invalid utf-8 sequence"

  /** The crate's `EncryptedData`: no algorithm tag (always AES-256-GCM) and
      no version; the nonce is a fixed 12-byte array. */
  datatype EncryptedData = EncryptedData(ciphertext: Ciphertext, nonce: Bytes12, salt: Bytes32)

  datatype MasterKey = MasterKey(key: Key)

  /** `MasterKey::derive_from_passphrase`: Argon2id with the argon2 crate's
      default costs. Encoding a 32-byte salt always succeeds, so derivation
      cannot fail. */
  function DeriveFromPassphrase(passphrase: string, salt: Bytes32): (m: MasterKey)
    ensures m.key == DeriveKey(passphrase, salt, CrateDefault)
  {
    MasterKey(DeriveKey(passphrase, salt, CrateDefault))
  }

  /** `MasterKey::encrypt`: AES-256-GCM under a fresh nonce, with a fresh
      salt stored alongside. */
  function Encrypt(mk: MasterKey, plaintext: seq<byte>, coins: Crypto.Coins): (e: EncryptedData)
    ensures e.nonce == coins.nonce && e.salt == coins.salt
    ensures Decrypt(mk, e) == Done(plaintext)
  {
    EncryptedData(Seal(Aes256Gcm, mk.key, coins.nonce, plaintext), coins.nonce, coins.salt)
  }

  /** `MasterKey::decrypt`: succeeds exactly on what this key sealed with
      AES-256-GCM under the stored nonce. */
  function Decrypt(mk: MasterKey, e: EncryptedData): (r: Outcome<seq<byte>>)
    ensures r.Done? <==> e.ciphertext.Sealed? && e.ciphertext.algorithm == Aes256Gcm
                         && e.ciphertext.key == mk.key && e.ciphertext.nonce == e.nonce
    ensures r.Done? ==> r.value == e.ciphertext.plaintext
    ensures r.Failed? ==> r.message == DECRYPTION_ERROR
  {
    match Open(Aes256Gcm, mk.key, e.ciphertext, e.nonce)
    case Ok(bytes) => Done(bytes)
    case Err(_) => Failed(DECRYPTION_ERROR)
  }

  /** Keys derived from different passphrases do not open each other's
      records. */
  lemma WrongPassphraseFails(p1: string, p2: string, salt: Bytes32, plaintext: seq<byte>, coins: Crypto.Coins)
    requires p1 != p2
    ensures Decrypt(DeriveFromPassphrase(p2, salt), Encrypt(DeriveFromPassphrase(p1, salt), plaintext, coins)).Failed?
  {
    DeriveKeyInjective(p1, salt, CrateDefault, p2, salt, CrateDefault);
  }

  datatype Secret = Secret(
    id: Uuid,
    tenantId: string,
    namespace: string,
    key: string,
    encryptedValue: EncryptedData,
    version: nat,
    createdAt: Time,
    createdBy: string,
    tags: seq<string>)

  datatype Tenant = Tenant(id: string, name: string, admin: string, createdAt: Time, salt: Bytes32)

  datatype Record = TenantRec(tenant: Tenant) | SecretRec(secret: Secret)

  datatype Vault = Vault(db: Sled.Tree<Record>, masterKey: Option<MasterKey>)

  /** The store right after `VaultStorage::new`: empty and locked. */
  const EMPTY: Vault := Vault([], None)

  /** `init_tenant(id, admin)`: a tenant named after its id, with a fresh
      salt. An existing record under the key is overwritten. */
  function InitTenant(v: Vault, tenantId: string, admin: string, salt: Bytes32, now: Time): (r: Vault)
    ensures r.masterKey == v.masterKey
    ensures Sled.Updated(v.db, r.db, Store.TenantKey(tenantId), TenantRec(Tenant(tenantId, tenantId, admin, now, salt)))
  {
    Sled.InsertSpec(v.db, Store.TenantKey(tenantId), TenantRec(Tenant(tenantId, tenantId, admin, now, salt)));
    v.(db := Sled.Insert(v.db, Store.TenantKey(tenantId), TenantRec(Tenant(tenantId, tenantId, admin, now, salt))))
  }

  /** `get_tenant(id)`. */
  function GetTenant(v: Vault, tenantId: string): (r: Outcome<Option<Tenant>>)
    ensures r == Done(None) <==> Sled.Get(v.db, Store.TenantKey(tenantId)).None?
    ensures r.Done? && r.value.Some? <==> Sled.Get(v.db, Store.TenantKey(tenantId)).Some? && Sled.Get(v.db, Store.TenantKey(tenantId)).value.TenantRec?
    ensures r.Done? && r.value.Some? ==> Sled.Get(v.db, Store.TenantKey(tenantId)) == Some(TenantRec(r.value.value))
  {
    match Sled.Get(v.db, Store.TenantKey(tenantId))
    case None => Done(None)
    case Some(rec) => if rec.TenantRec? then Done(Some(rec.tenant)) else Failed(MALFORMED)
  }

  /** `unlock(tenant, passphrase)`: fails for a missing tenant, otherwise
      remembers the key derived from the passphrase and the tenant's salt.
      Any passphrase is accepted. */
  function Unlock(v: Vault, tenantId: string, passphrase: string): (r: (Vault, Outcome<()>))
    ensures Sled.Get(v.db, Store.TenantKey(tenantId)).None? ==> r == (v, Failed(TENANT_NOT_FOUND))
    ensures r.1.Done? <==> Sled.Get(v.db, Store.TenantKey(tenantId)).Some? && Sled.Get(v.db, Store.TenantKey(tenantId)).value.TenantRec?
    ensures r.1.Done? ==> r.0 == v.(masterKey := Some(DeriveFromPassphrase(passphrase, Sled.Get(v.db, Store.TenantKey(tenantId)).value.tenant.salt)))
    ensures r.1.Failed? ==> r.0 == v
  {
    match GetTenant(v, tenantId)
    case Failed(m) => (v, Failed(m))
    case Done(None) => (v, Failed(TENANT_NOT_FOUND))
    case Done(Some(tenant)) => (v.(masterKey := Some(DeriveFromPassphrase(passphrase, tenant.salt))), Done(()))
  }

  /** The record `put` writes: a fresh id, the default tenant, version 1,
      created now by "user", no tags. */
  function PutRecord(mk: MasterKey, key: string, value: string, namespace: string, d: Store.Draws): Secret {
    Secret(d.secretId, DEFAULT_TENANT, namespace, key, Encrypt(mk, Utf8.Encode(value), d.coins), 1, d.now, "user", [])
  }

  /** `put(key, value, namespace)`. */
  function Put(v: Vault, key: string, value: string, namespace: string, d: Store.Draws): (r: (Vault, Outcome<()>))
    ensures v.masterKey.None? ==> r == (v, Failed(LOCKED))
    ensures v.masterKey.Some? ==>
      && r.1.Done? && r.0.masterKey == v.masterKey
      && Sled.Updated(v.db, r.0.db, Store.SecretKey(DEFAULT_TENANT, namespace, key), SecretRec(PutRecord(v.masterKey.value, key, value, namespace, d)))
  {
    if v.masterKey.None? then (v, Failed(LOCKED))
    else
      var rec := SecretRec(PutRecord(v.masterKey.value, key, value, namespace, d));
      Sled.InsertSpec(v.db, Store.SecretKey(DEFAULT_TENANT, namespace, key), rec);
      (v.(db := Sled.Insert(v.db, Store.SecretKey(DEFAULT_TENANT, namespace, key), rec)), Done(()))
  }

  /** `get(key, namespace)`: decrypt and decode the secret under the key;
      nothing is written. */
  function Get(v: Vault, key: string, namespace: string): (r: Outcome<Option<string>>)
    ensures v.masterKey.None? ==> r == Failed(LOCKED)
    ensures v.masterKey.Some? && Sled.Get(v.db, Store.SecretKey(DEFAULT_TENANT, namespace, key)).None? ==> r == Done(None)
    ensures r.Done? && r.value.Some? ==>
      && v.masterKey.Some?
      && var stored := Sled.Get(v.db, Store.SecretKey(DEFAULT_TENANT, namespace, key));
      && stored.Some? && stored.value.SecretRec?
      && Decrypt(v.masterKey.value, stored.value.secret.encryptedValue) == Done(Utf8.Encode(r.value.value))
  {
    if v.masterKey.None? then Failed(LOCKED)
    else
      match Sled.Get(v.db, Store.SecretKey(DEFAULT_TENANT, namespace, key))
      case None => Done(None)
      case Some(rec) =>
        if !rec.SecretRec? then Failed(MALFORMED)
        else
          var bytes :- Decrypt(v.masterKey.value, rec.secret.encryptedValue);
          match Utf8.Decode(bytes)
          case None => Failed(INVALID_UTF8)
          case Some(text) =>
            Utf8.EncodeDecode(bytes);
            Done(Some(text))
  }

  /** `delete(key, namespace)`: remove the key whether or not it is there;
      always succeeds, locked or not. */
  function Delete(v: Vault, key: string, namespace: string): (r: (Vault, Outcome<()>))
    ensures r.1.Done? && r.0.masterKey == v.masterKey
    ensures Sled.Get(r.0.db, Store.SecretKey(DEFAULT_TENANT, namespace, key)).None?
    ensures forall q :: q != Store.SecretKey(DEFAULT_TENANT, namespace, key) ==> Sled.Get(r.0.db, q) == Sled.Get(v.db, q)
  {
    Sled.RemoveSpec(v.db, Store.SecretKey(DEFAULT_TENANT, namespace, key));
    (v.(db := Sled.Remove(v.db, Store.SecretKey(DEFAULT_TENANT, namespace, key)).0), Done(()))
  }

  /** Reading back what was just written gives the value. */
  lemma PutThenGet(v: Vault, key: string, value: string, namespace: string, d: Store.Draws)
    requires v.masterKey.Some?
    ensures Get(Put(v, key, value, namespace, d).0, key, namespace) == Done(Some(value))
  {
    Utf8.DecodeEncode(value);
  }

  /** After `delete` the key reads as absent. */
  lemma DeleteThenGet(v: Vault, key: string, namespace: string)
    requires v.masterKey.Some?
    ensures Get(Delete(v, key, namespace).0, key, namespace) == Done(None)
  {
  }

  /** A key listed by `list` (as written) once `put` has stored it, when
      neither key nor namespace contains ':'. */
  lemma PutThenListAsWritten(v: Vault, key: string, value: string, namespace: string, d: Store.Draws)
    requires v.masterKey.Some? && ':' !in namespace && ':' !in key
    ensures key in ListAsWritten(Put(v, key, value, namespace, d).0, namespace).value
  {
    var v2 := Put(v, key, value, namespace, d).0;
    var k := Store.SecretKey(DEFAULT_TENANT, namespace, key);
    assert StartsWith(k, ListPrefix(namespace));
    Sled.ScanPrefixComplete(v2.db, ListPrefix(namespace), k);
    var i :| 0 <= i < |Sled.ScanPrefix(v2.db, ListPrefix(namespace))| && Sled.ScanPrefix(v2.db, ListPrefix(namespace))[i].0 == k;
    LastPieceOfPlainKey(namespace, key);
    assert ListAsWritten(v2, namespace).value[i] == key;
  }

  /** The crate's storage round trip: initialise a tenant, unlock it with any
      passphrase, store a value, read it back, find it listed, delete it,
      and find it gone. */
  lemma BasicStorageOperations(tenantId: string, admin: string, salt: Bytes32, now: Time, passphrase: string,
                               key: string, value: string, namespace: string, d: Store.Draws)
    requires ':' !in namespace && ':' !in key
    ensures
      var v0 := InitTenant(EMPTY, tenantId, admin, salt, now);
      var (v1, unlocked) := Unlock(v0, tenantId, passphrase);
      var (v2, put) := Put(v1, key, value, namespace, d);
      && unlocked.Done? && put.Done?
      && Get(v2, key, namespace) == Done(Some(value))
      && key in ListAsWritten(v2, namespace).value
      && Delete(v2, key, namespace).1.Done?
      && Get(Delete(v2, key, namespace).0, key, namespace) == Done(None)
  {
    var v0 := InitTenant(EMPTY, tenantId, admin, salt, now);
    var (v1, unlocked) := Unlock(v0, tenantId, passphrase);
    PutThenGet(v1, key, value, namespace, d);
    PutThenListAsWritten(v1, key, value, namespace, d);
    DeleteThenGet(Put(v1, key, value, namespace, d).0, key, namespace);
  }

  // ---------------------------------------------------------------------
  // Listing
  // ---------------------------------------------------------------------

  /** The prefix `list` scans. */
  function ListPrefix(namespace: string): string {
    Store.SecretPrefix(DEFAULT_TENANT, namespace)
  }

  /** `list(namespace)` as written: each key under the prefix is named by
      the last piece of its `split(':')`, in key order. No unlock needed; a
      key is always valid UTF-8 here. */
  function ListAsWritten(v: Vault, namespace: string): (r: Outcome<seq<string>>)
    ensures r.Done?
    ensures |r.value| == |Sled.ScanPrefix(v.db, ListPrefix(namespace))|
    ensures forall i :: 0 <= i < |r.value| ==> r.value[i] == LastPiece(Sled.ScanPrefix(v.db, ListPrefix(namespace))[i].0, ':')
  {
    var scan := Sled.ScanPrefix(v.db, ListPrefix(namespace));
    Done(seq(|scan|, i requires 0 <= i < |scan| => LastPiece(scan[i].0, ':')))
  }

  /** The text after a common prefix of each entry's key. */
  function Suffixes(s: seq<(string, Record)>, p: string): (r: seq<string>)
    requires forall i :: 0 <= i < |s| ==> StartsWith(s[i].0, p)
    ensures |r| == |s|
    ensures forall i :: 0 <= i < |s| ==> s[i].0 == p + r[i]
    decreases |s|
  {
    if |s| == 0 then []
    else
      assert StartsWith(s[0].0, p);
      assert s[0].0 == p + s[0].0[|p|..];
      [s[0].0[|p|..]] + Suffixes(s[1..], p)
  }

  /** `list(namespace)` corrected: each key is named by what follows the
      namespace prefix, so keys containing ':' are named in full. */
  function List(v: Vault, namespace: string): (r: Outcome<seq<string>>)
    ensures r.Done?
    ensures |r.value| == |Sled.ScanPrefix(v.db, ListPrefix(namespace))|
    ensures forall k :: k in r.value <==> Sled.Get(v.db, Store.SecretKey(DEFAULT_TENANT, namespace, k)).Some?
  {
    var names := Suffixes(Sled.ScanPrefix(v.db, ListPrefix(namespace)), ListPrefix(namespace));
    ListNamesStored(v, namespace, names);
    Done(names)
  }

  /** The names read off the scan are exactly the keys present in the
      namespace. */
  lemma ListNamesStored(v: Vault, namespace: string, names: seq<string>)
    requires |names| == |Sled.ScanPrefix(v.db, ListPrefix(namespace))|
    requires forall i :: 0 <= i < |names| ==> Sled.ScanPrefix(v.db, ListPrefix(namespace))[i].0 == ListPrefix(namespace) + names[i]
    ensures forall k :: k in names <==> Sled.Get(v.db, Store.SecretKey(DEFAULT_TENANT, namespace, k)).Some?
  {
    var p := ListPrefix(namespace);
    var scan := Sled.ScanPrefix(v.db, p);
    forall k ensures k in names <==> Sled.Get(v.db, Store.SecretKey(DEFAULT_TENANT, namespace, k)).Some? {
      if k in names {
        var i :| 0 <= i < |names| && names[i] == k;
        Sled.ScanPrefixGet(v.db, p, i);
      }
      if Sled.Get(v.db, p + k).Some? {
        assert StartsWith(p + k, p);
        Sled.ScanPrefixComplete(v.db, p, p + k);
        var i :| 0 <= i < |scan| && scan[i] == (p + k, Sled.Get(v.db, p + k).value);
        AppendCancel(p, names[i], k);
      }
    }
  }

  /** For a colon-free namespace and key, the last piece of the stored key
      is the key itself, so both listings agree on it. */
  lemma LastPieceOfPlainKey(namespace: string, key: string)
    requires ':' !in namespace && ':' !in key
    ensures LastPiece(Store.SecretKey(DEFAULT_TENANT, namespace, key), ':') == key
  {
    Store.SplitSecretKey(DEFAULT_TENANT, namespace, key);
    SplitNoSeparator(key, ':');
  }

  /** A store holding one secret under the key "db:password" in namespace
      "ns", unlocked. */
  function ColonVault(mk: MasterKey, s: Secret): (v: Vault)
    ensures Sled.Get(v.db, Store.SecretKey(DEFAULT_TENANT, "ns", Queries.COLON_KEY)) == Some(SecretRec(s))
  {
    Vault([(Store.SecretKey(DEFAULT_TENANT, "ns", Queries.COLON_KEY), SecretRec(s))], Some(mk))
  }

  /** As written, `list` names that secret "password", a name under which
      `get` finds nothing. */
  lemma ColonKeyListAsWritten(mk: MasterKey, s: Secret)
    ensures ListAsWritten(ColonVault(mk, s), "ns") == Done(["password"])
    ensures Get(ColonVault(mk, s), "password", "ns") == Done(None)
  {
    var v := ColonVault(mk, s);
    var k := Store.SecretKey(DEFAULT_TENANT, "ns", Queries.COLON_KEY);
    assert k == ListPrefix("ns") + Queries.COLON_KEY;
    assert Sled.ScanPrefix(v.db, ListPrefix("ns")) == v.db;
    assert "db" + [':'] + "password" == Queries.COLON_KEY;
    Queries.SplitColonKey(DEFAULT_TENANT, "ns", "db", "password");
    assert LastPiece(k, ':') == "password";
    var names := ListAsWritten(v, "ns").value;
    assert |names| == 1 && names[0] == "password";
    assert names == ["password"];
    assert Store.SecretKey(DEFAULT_TENANT, "ns", "password") != k;
  }

  /** Corrected, `list` names it "db:password". */
  lemma ColonKeyListed(mk: MasterKey, s: Secret)
    ensures Queries.COLON_KEY in List(ColonVault(mk, s), "ns").value
  {
  }
}

=== FILE: queries.dfy ===
/** The read-only queries of `storage::VaultStorage`: `list_with_metadata`,
    `list`, `search` and `get_stats`. They walk the tree (`scan_prefix`,
    `iter`) and parse keys back with `split(':')`, which is where the model
    departs from the code as written: both parsers assume that a secret's
    key contains no ':' while `put` accepts any key. Each query is
    given as written and, where the parse loses information, corrected. */
module Queries {
  import opened Base
  import opened Text
  import opened Collect
  import opened Sorting
  import Sled
  import opened Store

  type Listing = (string, SecretMetadata)

  /** Listings are sorted by name alone. */
  function NameKey(x: Listing): (string, string) {
    (x.0, "")
  }

  /** The tag filter of `list_with_metadata`. */
  predicate TagOk(tagFilter: Option<string>, tags: seq<string>) {
    tagFilter.None? || tagFilter.value in tags
  }

  /** One step of the listing loop as written: the name is the text after the
      key's last ':'. */
  function ListStepAsWritten(tagFilter: Option<string>, e: (string, Record)): Result<Option<Listing>> {
    if !e.1.SecretRec? then Err(Serialization)
    else if !TagOk(tagFilter, e.1.secret.metadata.tags) then Ok(None)
    else Ok(Some((LastPiece(e.0, ':'), e.1.secret.metadata)))
  }

  /** The step of the listing loop as written, as the function the loop
      applies to each entry. */
  function ListStepAsWrittenFn(tagFilter: Option<string>): ((string, Record)) -> Result<Option<Listing>> {
    e => ListStepAsWritten(tagFilter, e)
  }

  /** Every record the scan of `prefix` yields is a secret. */
  ghost predicate ScannedSecrets(v: Vault, prefix: string) {
    var entries := Sled.ScanPrefix(v.db, prefix);
    forall i :: 0 <= i < |entries| ==> entries[i].1.SecretRec?
  }

  /** The listing as written reports `x` for some secret under the
      namespace's prefix that passes the tag filter: `x.0` is the text
      after the last ':' of its key, `x.1` its metadata. */
  ghost predicate ListedAsWritten(v: Vault, namespace: string, tagFilter: Option<string>, x: Listing)
    requires v.currentTenant.Some?
  {
    var entries := Sled.ScanPrefix(v.db, SecretPrefix(v.currentTenant.value, namespace));
    exists i :: 0 <= i < |entries| && entries[i].1.SecretRec?
                && TagOk(tagFilter, entries[i].1.secret.metadata.tags)
                && x == (LastPiece(entries[i].0, ':'), entries[i].1.secret.metadata)
  }

  /** The scanned secrets that pass the tag filter, in scan order, each
      named by the text after the last ':' of its key. */
  function PassingAsWritten(entries: seq<(string, Record)>, tagFilter: Option<string>): seq<Listing>
    decreases |entries|
  {
    if |entries| == 0 then []
    else
      var e := entries[0];
      (if e.1.SecretRec? && TagOk(tagFilter, e.1.secret.metadata.tags) then [(LastPiece(e.0, ':'), e.1.secret.metadata)] else [])
      + PassingAsWritten(entries[1..], tagFilter)
  }

  /** When every step succeeds, the as-written loop collects exactly the
      passing secrets, in scan order, once each. */
  lemma {:induction false} CollectsPassingAsWritten(entries: seq<(string, Record)>, tagFilter: Option<string>)
    ensures
      var res := FilterMapResult(entries, ListStepAsWrittenFn(tagFilter));
      res.Ok? ==> res.value == PassingAsWritten(entries, tagFilter)
    decreases |entries|
  {
    if |entries| > 0 {
      CollectsPassingAsWritten(entries[1..], tagFilter);
    }
  }

  /** `list_with_metadata(namespace, tag)` as written: it fails with a
      serialization error exactly when some record under the namespace's
      prefix is not a secret, and otherwise lists, sorted by name, every
      secret there that passes the tag filter, once per stored key, named
      by the text after the last ':' of its key. */
  function ListWithMetadataAsWritten(v: Vault, namespace: string, tagFilter: Option<string>): (r: Result<seq<Listing>>)
    ensures v.currentTenant.None? ==> r == Err(VaultLocked)
    ensures v.currentTenant.Some? ==>
      && (r.Ok? <==> ScannedSecrets(v, SecretPrefix(v.currentTenant.value, namespace)))
      && (r.Err? ==> r.error == Serialization)
      && (r.Ok? ==> forall x :: x in r.value <==> ListedAsWritten(v, namespace, tagFilter, x))
    ensures r.Ok? ==> SortedBy(r.value, NameKey)
    ensures r.Ok? ==> v.currentTenant.Some?
    ensures r.Ok? && v.currentTenant.Some? ==>
              multiset(r.value) == multiset(PassingAsWritten(Sled.ScanPrefix(v.db, SecretPrefix(v.currentTenant.value, namespace)), tagFilter))
  {
    if v.currentTenant.None? then Err(VaultLocked)
    else
      var entries := Sled.ScanPrefix(v.db, SecretPrefix(v.currentTenant.value, namespace));
      ListAsWrittenFacts(v, namespace, tagFilter);
      var found :- FilterMapResult(entries, ListStepAsWrittenFn(tagFilter));
      var sorted := SortBy(found, NameKey);
      assert forall x :: x in sorted <==> x in found by {
        forall x ensures x in sorted <==> x in found {
          assert x in multiset(sorted) <==> x in multiset(found);
        }
      }
      Ok(sorted)
  }

  /** The scan in `ListWithMetadataAsWritten` fails exactly on a record that
      is not a secret, and otherwise collects the passing secrets in scan
      order, named as written. */
  lemma ListAsWrittenFacts(v: Vault, namespace: string, tagFilter: Option<string>)
    requires v.currentTenant.Some?
    ensures
      var entries := Sled.ScanPrefix(v.db, SecretPrefix(v.currentTenant.value, namespace));
      var res := FilterMapResult(entries, ListStepAsWrittenFn(tagFilter));
      && (res.Ok? <==> ScannedSecrets(v, SecretPrefix(v.currentTenant.value, namespace)))
      && (res.Err? ==> res.error == Serialization)
      && (res.Ok? ==> forall x :: x in res.value <==> ListedAsWritten(v, namespace, tagFilter, x))
      && (res.Ok? ==> res.value == PassingAsWritten(entries, tagFilter))
  {
    var entries := Sled.ScanPrefix(v.db, SecretPrefix(v.currentTenant.value, namespace));
    var f := ListStepAsWrittenFn(tagFilter);
    assert forall i :: 0 <= i < |entries| ==> f(entries[i]) == ListStepAsWritten(tagFilter, entries[i]);
    assert forall i :: 0 <= i < |entries| ==> (f(entries[i]).Ok? <==> entries[i].1.SecretRec?);
    CollectsPassingAsWritten(entries, tagFilter);
  }

  /** One step of the corrected listing loop: the name is the key with the
      scanned prefix removed. */
  function ListStep(prefix: string, tagFilter: Option<string>, e: (string, Record)): Result<Option<Listing>> {
    if !e.1.SecretRec? then Err(Serialization)
    else if !TagOk(tagFilter, e.1.secret.metadata.tags) then Ok(None)
    else if StartsWith(e.0, prefix) then Ok(Some((e.0[|prefix|..], e.1.secret.metadata)))
    else Ok(None)
  }

  /** The step of the corrected listing loop, as the function the loop
      applies to each entry. */
  function ListStepFn(prefix: string, tagFilter: Option<string>): ((string, Record)) -> Result<Option<Listing>> {
    e => ListStep(prefix, tagFilter, e)
  }

  /** A secret of the current tenant stored in `namespace` under `x.0`, with
      metadata `x.1` and passing the tag filter. */
  ghost predicate Stored(v: Vault, namespace: string, tagFilter: Option<string>, x: Listing)
    requires v.currentTenant.Some?
  {
    var rec := Sled.Get(v.db, SecretKey(v.currentTenant.value, namespace, x.0));
    rec.Some? && rec.value.SecretRec? && rec.value.secret.metadata == x.1 && TagOk(tagFilter, x.1.tags)
  }

  /** Every record under the namespace's prefix is a secret. */
  ghost predicate AllSecrets(v: Vault, prefix: string) {
    forall k :: StartsWith(k, prefix) && Sled.Get(v.db, k).Some? ==> Sled.Get(v.db, k).value.SecretRec?
  }

  /** `list_with_metadata(namespace, tag)`, corrected: it fails exactly when
      some record under the namespace is not a secret, and otherwise lists,
      sorted by name, exactly the stored secrets of the namespace that pass
      the tag filter, each under the name `get` finds it by. */
  function ListWithMetadata(v: Vault, namespace: string, tagFilter: Option<string>): (r: Result<seq<Listing>>)
    ensures v.currentTenant.None? ==> r == Err(VaultLocked)
    ensures v.currentTenant.Some? ==> (r.Ok? <==> AllSecrets(v, SecretPrefix(v.currentTenant.value, namespace)))
    ensures r.Ok? ==> SortedBy(r.value, NameKey)
    ensures r.Ok? ==> v.currentTenant.Some? && forall x :: x in r.value <==> Stored(v, namespace, tagFilter, x)
    ensures r.Ok? ==> NoDuplicates(r.value)
  {
    if v.currentTenant.None? then Err(VaultLocked)
    else
      var prefix := SecretPrefix(v.currentTenant.value, namespace);
      var entries := Sled.ScanPrefix(v.db, prefix);
      var f := ListStepFn(prefix, tagFilter);
      ListFacts(v, namespace, tagFilter);
      ListDistinct(v, namespace, tagFilter);
      var found :- FilterMapResult(entries, f);
      var sorted := SortBy(found, NameKey);
      assert forall x :: x in sorted <==> x in found by {
        forall x ensures x in sorted <==> x in found {
          assert x in multiset(sorted) <==> x in multiset(found);
        }
      }
      Ok(sorted)
  }

  /** The scan in `ListWithMetadata` visits exactly the stored records under
      the prefix, so its steps succeed and produce listings as the contract
      says. */
  lemma ListFacts(v: Vault, namespace: string, tagFilter: Option<string>)
    requires v.currentTenant.Some?
    ensures
      var prefix := SecretPrefix(v.currentTenant.value, namespace);
      var r := FilterMapResult(Sled.ScanPrefix(v.db, prefix), ListStepFn(prefix, tagFilter));
      && (r.Ok? <==> AllSecrets(v, prefix))
      && (r.Ok? ==> forall x :: x in r.value <==> Stored(v, namespace, tagFilter, x))
  {
    var prefix := SecretPrefix(v.currentTenant.value, namespace);
    var entries := Sled.ScanPrefix(v.db, prefix);
    if forall i :: 0 <= i < |entries| ==> ListStepFn(prefix, tagFilter)(entries[i]).Ok? {
      forall k | StartsWith(k, prefix) && Sled.Get(v.db, k).Some? ensures Sled.Get(v.db, k).value.SecretRec? {
        Sled.ScanPrefixComplete(v.db, prefix, k);
      }
    }
    if AllSecrets(v, prefix) {
      forall i | 0 <= i < |entries| ensures ListStepFn(prefix, tagFilter)(entries[i]).Ok? {
        Sled.ScanPrefixGet(v.db, prefix, i);
      }
    }
    forall x ensures (exists i :: 0 <= i < |entries| && ListStepFn(prefix, tagFilter)(entries[i]) == Ok(Some(x))) <==> Stored(v, namespace, tagFilter, x) {
      ListedIff(v, namespace, tagFilter, x);
    }
  }

  /** Two scanned keys are distinct, so the corrected listing reports no
      secret twice, before or after sorting. */
  lemma ListDistinct(v: Vault, namespace: string, tagFilter: Option<string>)
    requires v.currentTenant.Some?
    ensures
      var prefix := SecretPrefix(v.currentTenant.value, namespace);
      var res := FilterMapResult(Sled.ScanPrefix(v.db, prefix), ListStepFn(prefix, tagFilter));
      res.Ok? ==> NoDuplicates(res.value) && NoDuplicates(SortBy(res.value, NameKey))
  {
    var prefix := SecretPrefix(v.currentTenant.value, namespace);
    var entries := Sled.ScanPrefix(v.db, prefix);
    var f := ListStepFn(prefix, tagFilter);
    forall i, j | 0 <= i < j < |entries| && f(entries[i]).Ok? && f(entries[i]).value.Some?
      ensures f(entries[j]) != f(entries[i])
    {
      if f(entries[j]) == f(entries[i]) {
        var name := f(entries[i]).value.value.0;
        assert entries[i].0 == prefix + name;
        assert entries[j].0 == prefix + name;
        Sled.ScanPrefixKeysDistinct(v.db, prefix, i, j);
      }
    }
    FilterMapResultDistinct(entries, f);
    var res := FilterMapResult(entries, f);
    if res.Ok? {
      NoDuplicatesCount(res.value);
      NoDuplicatesCount(SortBy(res.value, NameKey));
    }
  }

  lemma ListedIff(v: Vault, namespace: string, tagFilter: Option<string>, x: Listing)
    requires v.currentTenant.Some?
    ensures
      var prefix := SecretPrefix(v.currentTenant.value, namespace);
      var entries := Sled.ScanPrefix(v.db, prefix);
      (exists i :: 0 <= i < |entries| && ListStepFn(prefix, tagFilter)(entries[i]) == Ok(Some(x))) <==> Stored(v, namespace, tagFilter, x)
  {
    var prefix := SecretPrefix(v.currentTenant.value, namespace);
    var entries := Sled.ScanPrefix(v.db, prefix);
    var f := ListStepFn(prefix, tagFilter);
    if exists i :: 0 <= i < |entries| && f(entries[i]) == Ok(Some(x)) {
      var i :| 0 <= i < |entries| && f(entries[i]) == Ok(Some(x));
      ListedIsStored(v, namespace, tagFilter, i);
    }
    if Stored(v, namespace, tagFilter, x) {
      StoredIsListed(v, namespace, tagFilter, x);
      var i :| 0 <= i < |entries| && ListStep(prefix, tagFilter, entries[i]) == Ok(Some(x));
      assert f(entries[i]) == Ok(Some(x));
    }
  }

  lemma ListedIsStored(v: Vault, namespace: string, tagFilter: Option<string>, i: int)
    requires v.currentTenant.Some?
    requires 0 <= i < |Sled.ScanPrefix(v.db, SecretPrefix(v.currentTenant.value, namespace))|
    requires ListStep(SecretPrefix(v.currentTenant.value, namespace), tagFilter,
                      Sled.ScanPrefix(v.db, SecretPrefix(v.currentTenant.value, namespace))[i]).Ok?
    requires ListStep(SecretPrefix(v.currentTenant.value, namespace), tagFilter,
                      Sled.ScanPrefix(v.db, SecretPrefix(v.currentTenant.value, namespace))[i]).value.Some?
    ensures Stored(v, namespace, tagFilter,
                   ListStep(SecretPrefix(v.currentTenant.value, namespace), tagFilter,
                            Sled.ScanPrefix(v.db, SecretPrefix(v.currentTenant.value, namespace))[i]).value.value)
  {
    var prefix := SecretPrefix(v.currentTenant.value, namespace);
    var e := Sled.ScanPrefix(v.db, prefix)[i];
    Sled.ScanPrefixGet(v.db, prefix, i);
    assert e.0 == prefix + e.0[|prefix|..];
  }

  lemma StoredIsListed(v: Vault, namespace: string, tagFilter: Option<string>, x: Listing)
    requires v.currentTenant.Some?
    requires Stored(v, namespace, tagFilter, x)
    ensures
      var prefix := SecretPrefix(v.currentTenant.value, namespace);
      var entries := Sled.ScanPrefix(v.db, prefix);
      exists i :: 0 <= i < |entries| && ListStep(prefix, tagFilter, entries[i]) == Ok(Some(x))
  {
    var prefix := SecretPrefix(v.currentTenant.value, namespace);
    var entries := Sled.ScanPrefix(v.db, prefix);
    var k := SecretKey(v.currentTenant.value, namespace, x.0);
    Sled.ScanPrefixComplete(v.db, prefix, k);
    var i :| 0 <= i < |entries| && entries[i] == (k, Sled.Get(v.db, k).value);
    assert k[|prefix|..] == x.0;
    assert ListStep(prefix, tagFilter, entries[i]) == Ok(Some(x));
  }

  /** `list(namespace)` as written: the names `list_with_metadata` reports. */
  function ListAsWritten(v: Vault, namespace: string): (r: Result<seq<string>>)
    ensures v.currentTenant.None? ==> r == Err(VaultLocked)
    ensures r.Ok? <==> ListWithMetadataAsWritten(v, namespace, None).Ok?
    ensures r.Ok? ==> |r.value| == |ListWithMetadataAsWritten(v, namespace, None).value|
    ensures r.Ok? ==> v.currentTenant.Some?
    ensures r.Ok? && v.currentTenant.Some? ==>
              forall n :: n in r.value <==> exists m :: ListedAsWritten(v, namespace, None, (n, m))
  {
    var found :- ListWithMetadataAsWritten(v, namespace, None);
    Ok(Names(found))
  }

  /** The names of a listing, in order. */
  function Names(found: seq<Listing>): (names: seq<string>)
    ensures |names| == |found| && forall i :: 0 <= i < |found| ==> names[i] == found[i].0
  {
    seq(|found|, i requires 0 <= i < |found| => found[i].0)
  }

  /** A sorted listing of exactly the stored secrets names exactly their
      keys, in ascending order. */
  lemma NamesOfListing(v: Vault, namespace: string, found: seq<Listing>)
    requires v.currentTenant.Some?
    requires SortedBy(found, NameKey)
    requires forall x :: x in found <==> Stored(v, namespace, None, x)
    ensures forall i :: 0 < i < |Names(found)| ==> !StrLess(Names(found)[i], Names(found)[i - 1])
    ensures forall key :: key in Names(found) <==>
      var rec := Sled.Get(v.db, SecretKey(v.currentTenant.value, namespace, key));
      rec.Some? && rec.value.SecretRec?
  {
    var names := Names(found);
    forall key | key in names
      ensures Sled.Get(v.db, SecretKey(v.currentTenant.value, namespace, key)).Some?
              && Sled.Get(v.db, SecretKey(v.currentTenant.value, namespace, key)).value.SecretRec?
    {
      var i :| 0 <= i < |names| && names[i] == key;
      assert Stored(v, namespace, None, found[i]);
    }
    forall key | Sled.Get(v.db, SecretKey(v.currentTenant.value, namespace, key)).Some?
                 && Sled.Get(v.db, SecretKey(v.currentTenant.value, namespace, key)).value.SecretRec?
      ensures key in names
    {
      var meta := Sled.Get(v.db, SecretKey(v.currentTenant.value, namespace, key)).value.secret.metadata;
      assert Stored(v, namespace, None, (key, meta));
      var i :| 0 <= i < |found| && found[i] == (key, meta);
      assert names[i] == key;
    }
    forall i | 0 < i < |names| ensures !StrLess(names[i], names[i - 1]) {
      assert !PairLess(NameKey(found[i]), NameKey(found[i - 1]));
    }
  }

  /** `list(namespace)`, corrected: exactly the keys under which the current
      tenant has a secret in the namespace, in ascending order. */
  function List(v: Vault, namespace: string): (r: Result<seq<string>>)
    ensures v.currentTenant.None? ==> r == Err(VaultLocked)
    ensures r.Ok? <==> ListWithMetadata(v, namespace, None).Ok?
    ensures r.Ok? ==> forall i :: 0 < i < |r.value| ==> !StrLess(r.value[i], r.value[i - 1])
    ensures r.Ok? ==> v.currentTenant.Some? && forall key :: key in r.value <==>
      var rec := Sled.Get(v.db, SecretKey(v.currentTenant.value, namespace, key));
      rec.Some? && rec.value.SecretRec?
    ensures r.Ok? ==> NoDuplicates(r.value)
  {
    var found :- ListWithMetadata(v, namespace, None);
    NamesOfListing(v, namespace, found);
    NamesDistinct(v, namespace, found);
    Ok(Names(found))
  }

  /** A stored name fixes its metadata, so a listing of stored secrets
      that repeats no pair repeats no name. */
  lemma NamesDistinct(v: Vault, namespace: string, found: seq<Listing>)
    requires v.currentTenant.Some?
    requires NoDuplicates(found)
    requires forall x :: x in found ==> Stored(v, namespace, None, x)
    ensures NoDuplicates(Names(found))
  {
    forall i, j | 0 <= i < j < |found| ensures Names(found)[i] != Names(found)[j] {
      assert Stored(v, namespace, None, found[i]) && Stored(v, namespace, None, found[j]);
    }
  }

  /** No record under `prefix` has a ':' in the part of its key after the
      prefix. */
  ghost predicate PlainNames(v: Vault, prefix: string) {
    forall k :: StartsWith(k, prefix) && Sled.Get(v.db, k).Some? ==> ':' !in k[|prefix|..]
  }

  /** While no stored name in the namespace holds a ':', a secret the
      as-written listing reports is stored under the name it reports, and
      every stored secret is reported under its own name. */
  lemma PlainListedIsStored(v: Vault, namespace: string, tagFilter: Option<string>, x: Listing)
    requires v.currentTenant.Some? && PlainNames(v, SecretPrefix(v.currentTenant.value, namespace))
    ensures ListedAsWritten(v, namespace, tagFilter, x) <==> Stored(v, namespace, tagFilter, x)
  {
    var prefix := SecretPrefix(v.currentTenant.value, namespace);
    var entries := Sled.ScanPrefix(v.db, prefix);
    if ListedAsWritten(v, namespace, tagFilter, x) {
      var i :| 0 <= i < |entries| && entries[i].1.SecretRec?
               && TagOk(tagFilter, entries[i].1.secret.metadata.tags)
               && x == (LastPiece(entries[i].0, ':'), entries[i].1.secret.metadata);
      Sled.ScanPrefixGet(v.db, prefix, i);
      var k := entries[i].0;
      var rest := k[|prefix|..];
      assert k == prefix[..|prefix| - 1] + [':'] + rest;
      LastPieceAfter(prefix[..|prefix| - 1], ':', rest);
      assert SecretKey(v.currentTenant.value, namespace, x.0) == k;
    }
    if Stored(v, namespace, tagFilter, x) {
      var k := SecretKey(v.currentTenant.value, namespace, x.0);
      assert StartsWith(k, prefix) && k[|prefix|..] == x.0;
      Sled.ScanPrefixComplete(v.db, prefix, k);
      var i :| 0 <= i < |entries| && entries[i] == (k, Sled.Get(v.db, k).value);
      assert k == prefix[..|prefix| - 1] + [':'] + x.0;
      LastPieceAfter(prefix[..|prefix| - 1], ':', x.0);
    }
  }

  /** While no stored name in the namespace holds a ':', the listings as
      written are the corrected ones. */
  lemma ListAsWrittenAgrees(v: Vault, namespace: string, tagFilter: Option<string>)
    requires v.currentTenant.Some? ==> PlainNames(v, SecretPrefix(v.currentTenant.value, namespace))
    ensures ListWithMetadataAsWritten(v, namespace, tagFilter) == ListWithMetadata(v, namespace, tagFilter)
    ensures ListAsWritten(v, namespace) == List(v, namespace)
  {
    if v.currentTenant.Some? {
      ListStepsAgree(v, namespace, tagFilter);
      ListStepsAgree(v, namespace, None);
    }
  }

  lemma ListStepsAgree(v: Vault, namespace: string, tagFilter: Option<string>)
    requires v.currentTenant.Some? && PlainNames(v, SecretPrefix(v.currentTenant.value, namespace))
    ensures
      var prefix := SecretPrefix(v.currentTenant.value, namespace);
      var entries := Sled.ScanPrefix(v.db, prefix);
      FilterMapResult(entries, ListStepAsWrittenFn(tagFilter)) == FilterMapResult(entries, ListStepFn(prefix, tagFilter))
  {
    var prefix := SecretPrefix(v.currentTenant.value, namespace);
    var entries := Sled.ScanPrefix(v.db, prefix);
    forall i | 0 <= i < |entries|
      ensures ListStepAsWrittenFn(tagFilter)(entries[i]) == ListStepFn(prefix, tagFilter)(entries[i])
    {
      Sled.ScanPrefixGet(v.db, prefix, i);
      var k := entries[i].0;
      var rest := k[|prefix|..];
      assert k == prefix[..|prefix| - 1] + [':'] + rest;
      LastPieceAfter(prefix[..|prefix| - 1], ':', rest);
    }
    FilterMapResultAgree(entries, ListStepAsWrittenFn(tagFilter), ListStepFn(prefix, tagFilter));
  }

  /** Whatever `put` stores is listed under its own key afterwards. */
  lemma PutThenList(v: Vault, key: string, value: string, namespace: string, d: Draws)
    requires Unlocked(v)
    ensures List(PutWithTags(v, key, value, namespace, [], d).0, namespace).Ok? ==>
      key in List(PutWithTags(v, key, value, namespace, [], d).0, namespace).value
  {
  }

  // ---------------------------------------------------------------------
  // search
  // ---------------------------------------------------------------------

  /** Some tag contains the (lower-cased) query, ignoring case. */
  predicate TagMatches(tags: seq<string>, q: string) {
    exists i :: 0 <= i < |tags| && Contains(ToLower(tags[i]), q)
  }

  /** The prefix every secret key of a tenant starts with. */
  function TenantPrefix(tenantId: string): string {
    "secret:" + tenantId + ":"
  }

  /** The body of the search loop once a namespace and key are parsed: the
      namespace filter, then a match on the key, and only then is the
      record deserialised to look at its tags. */
  function SearchMatch(q: string, nsFilter: Option<string>, namespace: string, key: string, rec: Record): Result<Option<(string, string)>> {
    if nsFilter.Some? && namespace != nsFilter.value then Ok(None)
    else if Contains(ToLower(key), q) then Ok(Some((namespace, key)))
    else if !rec.SecretRec? then Err(Serialization)
    else if TagMatches(rec.secret.metadata.tags, q) then Ok(Some((namespace, key)))
    else Ok(None)
  }

  /** One step of the search loop as written: the namespace and key are the
      third and fourth pieces of `split(':')`. */
  function SearchStepAsWritten(q: string, nsFilter: Option<string>, e: (string, Record)): Result<Option<(string, string)>> {
    var parts := Split(e.0, ':');
    if |parts| < 4 then Ok(None)
    else SearchMatch(q, nsFilter, parts[2], parts[3], e.1)
  }

  /** The step of the search loop as written, as the function the loop
      applies to each entry. */
  function SearchStepAsWrittenFn(q: string, nsFilter: Option<string>): ((string, Record)) -> Result<Option<(string, string)>> {
    e => SearchStepAsWritten(q, nsFilter, e)
  }

  function Identity(p: (string, string)): (string, string) { p }

  /** What the search as written reports for the entry `e`: the third and
      fourth pieces of its key's `split(':')`, when there are that many,
      as namespace and key, provided the namespace passes the filter and
      the key, or a tag of the secret, contains the query. */
  ghost predicate SplitHit(q: string, nsFilter: Option<string>, e: (string, Record), x: (string, string)) {
    var parts := Split(e.0, ':');
    && |parts| >= 4
    && x == (parts[2], parts[3])
    && (nsFilter.None? || x.0 == nsFilter.value)
    && (Contains(ToLower(x.1), q) || (e.1.SecretRec? && TagMatches(e.1.secret.metadata.tags, q)))
  }

  /** The scan of `SearchAsWritten` fails only on a record that is not a
      secret, and reports exactly the split hits. */
  lemma SearchAsWrittenFacts(v: Vault, q: string, nsFilter: Option<string>)
    requires v.currentTenant.Some?
    ensures
      var prefix := TenantPrefix(v.currentTenant.value);
      var entries := Sled.ScanPrefix(v.db, prefix);
      var r := FilterMapResult(entries, SearchStepAsWrittenFn(q, nsFilter));
      && (AllSecrets(v, prefix) ==> r.Ok?)
      && (r.Err? ==> r.error == Serialization)
      && (r.Ok? ==> forall x :: x in r.value <==> exists i :: 0 <= i < |entries| && SplitHit(q, nsFilter, entries[i], x))
  {
    var prefix := TenantPrefix(v.currentTenant.value);
    var entries := Sled.ScanPrefix(v.db, prefix);
    var f := SearchStepAsWrittenFn(q, nsFilter);
    AllSecretsScanned(v, prefix);
    forall i | 0 <= i < |entries|
      ensures f(entries[i]).Err? ==> f(entries[i]).error == Serialization
      ensures entries[i].1.SecretRec? ==> f(entries[i]).Ok?
      ensures forall x :: f(entries[i]) == Ok(Some(x)) <==> SplitHit(q, nsFilter, entries[i], x)
    {
      assert f(entries[i]) == SearchStepAsWritten(q, nsFilter, entries[i]);
    }
  }

  /** `search(query, namespace)` as written: it walks every record of the
      tenant, takes the third and fourth pieces of the key's `split(':')`
      as namespace and key (skipping keys with fewer pieces), and reports,
      sorted, the pairs that pass the namespace filter and whose key or
      secret's tags contain the query, ignoring case. It can only fail with
      a serialization error, and does not when every record is a secret. */
  function SearchAsWritten(v: Vault, query: string, nsFilter: Option<string>): (r: Result<seq<(string, string)>>)
    ensures v.currentTenant.None? ==> r == Err(VaultLocked)
    ensures v.currentTenant.Some? ==>
      var entries := Sled.ScanPrefix(v.db, TenantPrefix(v.currentTenant.value));
      var q := ToLower(query);
      && (AllSecrets(v, TenantPrefix(v.currentTenant.value)) ==> r.Ok?)
      && (r.Err? ==> r.error == Serialization)
      && (r.Ok? ==> forall x :: x in r.value <==> exists i :: 0 <= i < |entries| && SplitHit(q, nsFilter, entries[i], x))
    ensures r.Ok? ==> SortedBy(r.value, Identity)
  {
    if v.currentTenant.None? then Err(VaultLocked)
    else
      var prefix := TenantPrefix(v.currentTenant.value);
      var entries := Sled.ScanPrefix(v.db, prefix);
      var q := ToLower(query);
      var res := FilterMapResult(entries, SearchStepAsWrittenFn(q, nsFilter));
      SearchAsWrittenFacts(v, q, nsFilter);
      if res.Err? then Err(res.error)
      else
        var found := res.value;
        var sorted := SortBy(found, Identity);
        assert forall x :: x in sorted <==> x in found by {
          forall x ensures x in sorted <==> x in found {
            assert x in multiset(sorted) <==> x in multiset(found);
          }
        }
        Ok(sorted)
  }

  /** One step of the corrected search loop: the namespace is the text
      between the tenant's prefix and the next ':', the key everything after
      it. */
  function SearchStep(prefix: string, q: string, nsFilter: Option<string>, e: (string, Record)): Result<Option<(string, string)>> {
    var rest := if StartsWith(e.0, prefix) then e.0[|prefix|..] else e.0;
    match SplitOnce(rest, ':')
    case None => Ok(None)
    case Some((namespace, key)) => SearchMatch(q, nsFilter, namespace, key, e.1)
  }

  /** The step of the corrected search loop, as the function the loop
      applies to each entry. */
  function SearchStepFn(prefix: string, q: string, nsFilter: Option<string>): ((string, Record)) -> Result<Option<(string, string)>> {
    e => SearchStep(prefix, q, nsFilter, e)
  }

  /** The current tenant holds a record under namespace `x.0` and key `x.1`
      that the search reports: the namespace passes the filter, and the key
      or a tag of the secret contains the query. */
  ghost predicate Found(v: Vault, q: string, nsFilter: Option<string>, x: (string, string))
    requires v.currentTenant.Some?
  {
    var rec := Sled.Get(v.db, SecretKey(v.currentTenant.value, x.0, x.1));
    && ':' !in x.0
    && (nsFilter.None? || x.0 == nsFilter.value)
    && rec.Some?
    && (Contains(ToLower(x.1), q) || (rec.value.SecretRec? && TagMatches(rec.value.secret.metadata.tags, q)))
  }

  /** `search(query, namespace)`, corrected: it succeeds when every record of
      the tenant is a secret, and reports, sorted, exactly the namespace/key
      pairs `get` can read whose key or tags contain the query, ignoring
      case. */
  function Search(v: Vault, query: string, nsFilter: Option<string>): (r: Result<seq<(string, string)>>)
    ensures v.currentTenant.None? ==> r == Err(VaultLocked)
    ensures v.currentTenant.Some? && AllSecrets(v, TenantPrefix(v.currentTenant.value)) ==> r.Ok?
    ensures r.Ok? ==> SortedBy(r.value, Identity)
    ensures r.Ok? ==> v.currentTenant.Some? && forall x :: x in r.value <==> Found(v, ToLower(query), nsFilter, x)
    ensures r.Ok? ==> NoDuplicates(r.value)
  {
    if v.currentTenant.None? then Err(VaultLocked)
    else
      var prefix := TenantPrefix(v.currentTenant.value);
      var entries := Sled.ScanPrefix(v.db, prefix);
      var q := ToLower(query);
      var f := SearchStepFn(prefix, q, nsFilter);
      var res := FilterMapResult(entries, f);
      SearchFacts(v, q, nsFilter, f);
      SearchDistinct(v, q, nsFilter);
      if res.Err? then Err(res.error)
      else
        var found := res.value;
        var sorted := SortBy(found, Identity);
        assert forall x :: x in sorted <==> x in found by {
          forall x ensures x in sorted <==> x in found {
            assert x in multiset(sorted) <==> x in multiset(found);
          }
        }
        Ok(sorted)
  }

  /** When every record under `prefix` is a secret, so is every record the
      scan yields. */
  lemma AllSecretsScanned(v: Vault, prefix: string)
    ensures AllSecrets(v, prefix) ==> ScannedSecrets(v, prefix)
  {
    var entries := Sled.ScanPrefix(v.db, prefix);
    forall i | 0 <= i < |entries| && AllSecrets(v, prefix) ensures entries[i].1.SecretRec? {
      Sled.ScanPrefixGet(v.db, prefix, i);
    }
  }

  /** The scan of `Search` reports exactly what `Found` describes. */
  lemma SearchFacts(v: Vault, q: string, nsFilter: Option<string>, f: ((string, Record)) -> Result<Option<(string, string)>>)
    requires v.currentTenant.Some?
    requires forall e :: f(e) == SearchStep(TenantPrefix(v.currentTenant.value), q, nsFilter, e)
    ensures
      var r := FilterMapResult(Sled.ScanPrefix(v.db, TenantPrefix(v.currentTenant.value)), f);
      && (AllSecrets(v, TenantPrefix(v.currentTenant.value)) ==> r.Ok?)
      && (r.Ok? ==> forall x :: x in r.value <==> Found(v, q, nsFilter, x))
  {
    var prefix := TenantPrefix(v.currentTenant.value);
    var entries := Sled.ScanPrefix(v.db, prefix);
    if AllSecrets(v, prefix) {
      forall i | 0 <= i < |entries| ensures f(entries[i]).Ok? {
        Sled.ScanPrefixGet(v.db, prefix, i);
      }
    }
    forall x ensures (exists i :: 0 <= i < |entries| && f(entries[i]) == Ok(Some(x))) <==> Found(v, q, nsFilter, x) {
      if exists i :: 0 <= i < |entries| && f(entries[i]) == Ok(Some(x)) {
        var i :| 0 <= i < |entries| && f(entries[i]) == Ok(Some(x));
        SearchedIsFound(v, q, nsFilter, i);
      }
      if Found(v, q, nsFilter, x) {
        FoundIsSearched(v, q, nsFilter, x);
      }
    }
  }

  /** Two entries of the scan never yield the same pair: the pair spells
      out the entry's whole key, and the scan meets each key once. */
  lemma SearchHitsDistinct(v: Vault, q: string, nsFilter: Option<string>, i: int, j: int)
    requires v.currentTenant.Some?
    requires 0 <= i < j < |Sled.ScanPrefix(v.db, TenantPrefix(v.currentTenant.value))|
    ensures
      var prefix := TenantPrefix(v.currentTenant.value);
      var entries := Sled.ScanPrefix(v.db, prefix);
      var hit := SearchStep(prefix, q, nsFilter, entries[i]);
      hit.Ok? && hit.value.Some? ==> SearchStep(prefix, q, nsFilter, entries[j]) != hit
  {
    var t := v.currentTenant.value;
    var prefix := TenantPrefix(t);
    var entries := Sled.ScanPrefix(v.db, prefix);
    var hit := SearchStep(prefix, q, nsFilter, entries[i]);
    if hit.Ok? && hit.value.Some? && SearchStep(prefix, q, nsFilter, entries[j]) == hit {
      Sled.ScanPrefixGet(v.db, prefix, i);
      Sled.ScanPrefixGet(v.db, prefix, j);
      SearchHitKey(t, q, nsFilter, entries[i]);
      SearchHitKey(t, q, nsFilter, entries[j]);
      Sled.ScanPrefixKeysDistinct(v.db, prefix, i, j);
    }
  }

  /** A pair the corrected step reports spells out the entry's key. */
  lemma SearchHitKey(t: string, q: string, nsFilter: Option<string>, e: (string, Record))
    requires StartsWith(e.0, TenantPrefix(t))
    ensures
      var hit := SearchStep(TenantPrefix(t), q, nsFilter, e);
      hit.Ok? && hit.value.Some? ==> e.0 == SecretKey(t, hit.value.value.0, hit.value.value.1)
  {
    var hit := SearchStep(TenantPrefix(t), q, nsFilter, e);
    if hit.Ok? && hit.value.Some? {
      SearchStepPair(TenantPrefix(t), q, nsFilter, e);
      SearchedKey(t, e.0);
    }
  }

  /** A pair the corrected step reports is the rest of the key after the
      prefix, split at its first ':'. */
  lemma SearchStepPair(prefix: string, q: string, nsFilter: Option<string>, e: (string, Record))
    requires StartsWith(e.0, prefix)
    ensures
      var hit := SearchStep(prefix, q, nsFilter, e);
      hit.Ok? && hit.value.Some? ==> SplitOnce(e.0[|prefix|..], ':') == Some(hit.value.value)
  {
  }

  /** The corrected search reports each pair once. */
  lemma SearchDistinct(v: Vault, q: string, nsFilter: Option<string>)
    requires v.currentTenant.Some?
    ensures
      var prefix := TenantPrefix(v.currentTenant.value);
      var res := FilterMapResult(Sled.ScanPrefix(v.db, prefix), SearchStepFn(prefix, q, nsFilter));
      res.Ok? ==> NoDuplicates(SortBy(res.value, Identity))
  {
    var prefix := TenantPrefix(v.currentTenant.value);
    var entries := Sled.ScanPrefix(v.db, prefix);
    var f := SearchStepFn(prefix, q, nsFilter);
    forall i, j | 0 <= i < j < |entries| && f(entries[i]).Ok? && f(entries[i]).value.Some?
      ensures f(entries[j]) != f(entries[i])
    {
      SearchHitsDistinct(v, q, nsFilter, i, j);
    }
    FilterMapResultDistinct(entries, f);
    var res := FilterMapResult(entries, f);
    if res.Ok? {
      NoDuplicatesCount(res.value);
      NoDuplicatesCount(SortBy(res.value, Identity));
    }
  }

  /** `s` holds at most one ':'. */
  predicate OneColonAtMost(s: string) {
    match SplitOnce(s, ':')
    case None => true
    case Some((_, b)) => ':' !in b
  }

  /** The tenant's id holds no ':', and the rest of each stored key of the
      tenant at most one: the separator between namespace and key. */
  ghost predicate PlainKeys(v: Vault, tenantId: string) {
    && ':' !in tenantId
    && forall k :: StartsWith(k, TenantPrefix(tenantId)) && Sled.Get(v.db, k).Some? ==> OneColonAtMost(k[|TenantPrefix(tenantId)|..])
  }

  /** While no tenant id, namespace or stored key holds a ':', the search
      as written is the corrected one. */
  lemma SearchAsWrittenAgrees(v: Vault, query: string, nsFilter: Option<string>)
    requires v.currentTenant.Some? ==> PlainKeys(v, v.currentTenant.value)
    ensures SearchAsWritten(v, query, nsFilter) == Search(v, query, nsFilter)
  {
    if v.currentTenant.Some? {
      var t := v.currentTenant.value;
      var prefix := TenantPrefix(t);
      var entries := Sled.ScanPrefix(v.db, prefix);
      var q := ToLower(query);
      forall i | 0 <= i < |entries|
        ensures SearchStepAsWrittenFn(q, nsFilter)(entries[i]) == SearchStepFn(prefix, q, nsFilter)(entries[i])
      {
        Sled.ScanPrefixGet(v.db, prefix, i);
        SearchStepsAgree(t, q, nsFilter, entries[i]);
      }
      FilterMapResultAgree(entries, SearchStepAsWrittenFn(q, nsFilter), SearchStepFn(prefix, q, nsFilter));
    }
  }

  /** On a key of the shape `secret:<tenant>:<namespace>:<key>` with no ':'
      inside the pieces, both parses agree. */
  lemma SearchStepsAgree(t: string, q: string, nsFilter: Option<string>, e: (string, Record))
    requires ':' !in t && StartsWith(e.0, TenantPrefix(t))
    requires OneColonAtMost(e.0[|TenantPrefix(t)|..])
    ensures SearchStepAsWritten(q, nsFilter, e) == SearchStep(TenantPrefix(t), q, nsFilter, e)
  {
    var rest := e.0[|TenantPrefix(t)|..];
    assert e.0 == "secret" + [':'] + (t + [':'] + rest);
    SplitAfterHead("secret", ':', t + [':'] + rest);
    SplitAfterHead(t, ':', rest);
    match SplitOnce(rest, ':')
    case None =>
      SplitNoSeparator(rest, ':');
    case Some((a, b)) =>
      SplitAfterHead(a, ':', b);
      SplitNoSeparator(b, ':');
  }

  /** What `Found` describes is reported by a search that succeeds. */
  lemma SearchReports(v: Vault, query: string, nsFilter: Option<string>, x: (string, string))
    requires v.currentTenant.Some? && AllSecrets(v, TenantPrefix(v.currentTenant.value))
    requires Found(v, ToLower(query), nsFilter, x)
    ensures Search(v, query, nsFilter).Ok? && x in Search(v, query, nsFilter).value
  {
  }

  lemma SearchedIsFound(v: Vault, q: string, nsFilter: Option<string>, i: int)
    requires v.currentTenant.Some?
    requires 0 <= i < |Sled.ScanPrefix(v.db, TenantPrefix(v.currentTenant.value))|
    ensures
      var step := SearchStep(TenantPrefix(v.currentTenant.value), q, nsFilter, Sled.ScanPrefix(v.db, TenantPrefix(v.currentTenant.value))[i]);
      step.Ok? && step.value.Some? ==> Found(v, q, nsFilter, step.value.value)
  {
    var t := v.currentTenant.value;
    var prefix := TenantPrefix(t);
    var e := Sled.ScanPrefix(v.db, prefix)[i];
    Sled.ScanPrefixGet(v.db, prefix, i);
    var step := SearchStep(prefix, q, nsFilter, e);
    if step.Ok? && step.value.Some? {
      SearchStepPair(prefix, q, nsFilter, e);
      SearchedKey(t, e.0);
    }
  }

  /** A key under the tenant's prefix whose rest splits at a ':' is the
      secret key of the two halves. */
  lemma SearchedKey(tenantId: string, k: string)
    requires StartsWith(k, TenantPrefix(tenantId))
    requires SplitOnce(k[|TenantPrefix(tenantId)|..], ':').Some?
    ensures
      var (namespace, key) := SplitOnce(k[|TenantPrefix(tenantId)|..], ':').value;
      ':' !in namespace && k == SecretKey(tenantId, namespace, key)
  {
    var prefix := TenantPrefix(tenantId);
    var rest := k[|prefix|..];
    var (namespace, key) := SplitOnce(rest, ':').value;
    assert k == prefix + rest;
    assert rest == namespace + [':'] + key;
    assert k == SecretKey(tenantId, namespace, key);
  }

  lemma FoundIsSearched(v: Vault, q: string, nsFilter: Option<string>, x: (string, string))
    requires v.currentTenant.Some?
    requires Found(v, q, nsFilter, x)
    ensures
      var prefix := TenantPrefix(v.currentTenant.value);
      var entries := Sled.ScanPrefix(v.db, prefix);
      exists i :: 0 <= i < |entries| && SearchStep(prefix, q, nsFilter, entries[i]) == Ok(Some(x))
  {
    var t := v.currentTenant.value;
    var prefix := TenantPrefix(t);
    var entries := Sled.ScanPrefix(v.db, prefix);
    var k := SecretKey(t, x.0, x.1);
    assert k == prefix + (x.0 + [':'] + x.1);
    Sled.ScanPrefixComplete(v.db, prefix, k);
    var i :| 0 <= i < |entries| && entries[i] == (k, Sled.Get(v.db, k).value);
    assert k[|prefix|..] == x.0 + [':'] + x.1;
    SplitOnceJoin(x.0, ':', x.1);
    assert SearchStep(prefix, q, nsFilter, entries[i]) == Ok(Some(x));
  }

  // ---------------------------------------------------------------------
  // A key with ':' in it
  // ---------------------------------------------------------------------

  const COLON_KEY: string := "db:password"

  /** A store unlocked for tenant "t" holding one secret, stored by `put` in
      namespace "ns" under the key "db:password", without tags. */
  function ColonVault(mk: Crypto.MasterKey, meta: SecretMetadata, coins: Crypto.Coins): (v: Vault)
    ensures Readable(v.db) && Unlocked(v)
  {
    var k := SecretKey("t", "ns", COLON_KEY);
    var rec := SecretRec(Secret(meta.(tags := []), Crypto.Encrypt(mk, Utf8.Encode("v"), coins)));
    var db: Sled.Tree<Record> := [(k, rec)];
    assert forall q :: Sled.Get(db, q).Some? ==> q == k;
    Vault(db, Some(mk), Some("t"))
  }

  /** How `split(':')` takes apart the key of a secret whose name has one
      ':' in it. */
  lemma SplitColonKey(tenantId: string, namespace: string, a: string, b: string)
    requires ':' !in tenantId && ':' !in namespace && ':' !in a && ':' !in b
    ensures Split(SecretKey(tenantId, namespace, a + [':'] + b), ':') == ["secret", tenantId, namespace, a, b]
  {
    SplitAfterHead(a, ':', b);
    SplitNoSeparator(b, ':');
    SplitSecretKey(tenantId, namespace, a + [':'] + b);
  }

  /** Both scans the listing and the search make find the one entry. */
  lemma ColonScans(mk: Crypto.MasterKey, meta: SecretMetadata, coins: Crypto.Coins)
    ensures Sled.ScanPrefix(ColonVault(mk, meta, coins).db, SecretPrefix("t", "ns")) == ColonVault(mk, meta, coins).db
    ensures Sled.ScanPrefix(ColonVault(mk, meta, coins).db, TenantPrefix("t")) == ColonVault(mk, meta, coins).db
  {
    var db := ColonVault(mk, meta, coins).db;
    assert db[0].0 == SecretPrefix("t", "ns") + COLON_KEY;
    assert db[0].0 == TenantPrefix("t") + ("ns" + [':'] + COLON_KEY);
    assert db[1..] == [];
  }

  /** As written, `list` names the secret "password", and `get` finds nothing
      under that name. */
  lemma ColonKeyListAsWritten(mk: Crypto.MasterKey, meta: SecretMetadata, coins: Crypto.Coins, d: Draws)
    ensures ListWithMetadataAsWritten(ColonVault(mk, meta, coins), "ns", None) == Ok([("password", meta.(tags := []))])
    ensures ListAsWritten(ColonVault(mk, meta, coins), "ns") == Ok(["password"])
    ensures Get(ColonVault(mk, meta, coins), "password", "ns", d).1 == Ok(None)
  {
    var v := ColonVault(mk, meta, coins);
    var e := v.db[0];
    ColonScans(mk, meta, coins);
    SplitColonKey("t", "ns", "db", "password");
    assert "db" + [':'] + "password" == COLON_KEY;
    var x := ("password", e.1.secret.metadata);
    assert ListStepAsWritten(None, e) == Ok(Some(x));
    var found := FilterMapResult(v.db, ListStepAsWrittenFn(None));
    assert found.Ok? && x in found.value;
    assert found.value == [x];
    var sorted := SortBy(found.value, NameKey);
    assert x in multiset(sorted);
    assert sorted == [x];
    assert ListWithMetadataAsWritten(v, "ns", None) == Ok([x]);
    var names := ListAsWritten(v, "ns");
    assert names.Ok? && |names.value| == 1 && names.value[0] == "password";
    assert names.value == ["password"];
    assert SecretKey("t", "ns", "password") != e.0;
  }

  /** As written, `search` for "db" reports a key "db" that `get` does not
      find. */
  lemma ColonKeySearchAsWritten(mk: Crypto.MasterKey, meta: SecretMetadata, coins: Crypto.Coins, d: Draws)
    ensures SearchAsWritten(ColonVault(mk, meta, coins), "db", None) == Ok([("ns", "db")])
    ensures Get(ColonVault(mk, meta, coins), "db", "ns", d).1 == Ok(None)
  {
    var v := ColonVault(mk, meta, coins);
    var e := v.db[0];
    ColonScans(mk, meta, coins);
    SplitColonKey("t", "ns", "db", "password");
    assert "db" + [':'] + "password" == COLON_KEY;
    assert ToLower("db") == "db";
    assert Contains("db", "db") by { ContainsSelf("db"); }
    assert SearchStepAsWritten("db", None, e) == Ok(Some(("ns", "db")));
    var hit := FilterMapResult(v.db, SearchStepAsWrittenFn("db", None));
    assert hit.Ok? && ("ns", "db") in hit.value;
    assert hit.value == [("ns", "db")];
    var sorted := SortBy(hit.value, Identity);
    assert ("ns", "db") in multiset(sorted);
    assert sorted == [("ns", "db")];
    assert SecretKey("t", "ns", "db") != e.0;
  }

  /** As written, `search` for "password" misses the secret. */
  lemma ColonKeySearchMissed(mk: Crypto.MasterKey, meta: SecretMetadata, coins: Crypto.Coins)
    ensures SearchAsWritten(ColonVault(mk, meta, coins), "password", None) == Ok([])
  {
    var v := ColonVault(mk, meta, coins);
    var e := v.db[0];
    ColonScans(mk, meta, coins);
    SplitColonKey("t", "ns", "db", "password");
    assert "db" + [':'] + "password" == COLON_KEY;
    assert ToLower("db") == "db" && ToLower("password") == "password";
    assert !Contains("db", "password");
    assert SearchStepAsWritten("password", None, e) == Ok(None);
    var miss := FilterMapResult(v.db, SearchStepAsWrittenFn("password", None));
    assert miss.Ok? && miss.value == [];
  }

  /** Every record of the tenant in the store is the one secret. */
  lemma ColonAllSecrets(mk: Crypto.MasterKey, meta: SecretMetadata, coins: Crypto.Coins)
    ensures AllSecrets(ColonVault(mk, meta, coins), SecretPrefix("t", "ns"))
    ensures AllSecrets(ColonVault(mk, meta, coins), TenantPrefix("t"))
  {
    var v := ColonVault(mk, meta, coins);
    assert forall q :: Sled.Get(v.db, q).Some? ==> q == v.db[0].0;
  }

  /** Corrected, `list` names the secret by its full key. */
  lemma ColonKeyListed(mk: Crypto.MasterKey, meta: SecretMetadata, coins: Crypto.Coins)
    ensures List(ColonVault(mk, meta, coins), "ns").Ok?
    ensures COLON_KEY in List(ColonVault(mk, meta, coins), "ns").value
  {
    ColonAllSecrets(mk, meta, coins);
  }

  /** `get` reads the secret under its full key. */
  lemma ColonKeyRead(mk: Crypto.MasterKey, meta: SecretMetadata, coins: Crypto.Coins, d: Draws)
    ensures Get(ColonVault(mk, meta, coins), COLON_KEY, "ns", d).1 == Ok(Some("v"))
  {
    Utf8.DecodeEncode("v");
  }

  /** The secret is what the corrected `search` for "password" describes. */
  lemma ColonKeyFound(mk: Crypto.MasterKey, meta: SecretMetadata, coins: Crypto.Coins)
    ensures Found(ColonVault(mk, meta, coins), "password", None, ("ns", COLON_KEY))
  {
    assert ToLower(COLON_KEY) == COLON_KEY;
    ContainsAt(COLON_KEY, "password", 3);
  }

  /** Corrected, `search` for "password" finds the secret. */
  lemma ColonKeySearched(mk: Crypto.MasterKey, meta: SecretMetadata, coins: Crypto.Coins)
    ensures Search(ColonVault(mk, meta, coins), "password", None).Ok?
    ensures ("ns", COLON_KEY) in Search(ColonVault(mk, meta, coins), "password", None).value
  {
    ColonAllSecrets(mk, meta, coins);
    assert ToLower("password") == "password";
    ColonKeyFound(mk, meta, coins);
    SearchReports(ColonVault(mk, meta, coins), "password", None, ("ns", COLON_KEY));
  }
}

=== FILE: role_tables.dfy ===
/** The three role tables side by side. The application's `auth` module
    calls its top role `Admin`, the storage layer and the original crate
    call it `TenantAdmin`; the other four roles share their names. */
module RoleTables {
  import AppAuth
  import StorageSession
  import LegacyAuth

  function ToStorage(r: AppAuth.Role): (q: StorageSession.Role)
    ensures r.Admin? <==> q.TenantAdmin?
  {
    match r
    case Admin => StorageSession.TenantAdmin
    case Owner => StorageSession.Owner
    case Writer => StorageSession.Writer
    case Reader => StorageSession.Reader
    case Auditor => StorageSession.Auditor
  }

  function ToLegacy(r: AppAuth.Role): (q: LegacyAuth.Role)
    ensures r.Admin? <==> q.TenantAdmin?
  {
    match r
    case Admin => LegacyAuth.TenantAdmin
    case Owner => LegacyAuth.Owner
    case Writer => LegacyAuth.Writer
    case Reader => LegacyAuth.Reader
    case Auditor => LegacyAuth.Auditor
  }

  /** The renaming is a bijection between the application's roles and the
      storage layer's. */
  lemma ToStorageBijective(r1: AppAuth.Role, r2: AppAuth.Role, q: StorageSession.Role)
    ensures ToStorage(r1) == ToStorage(r2) ==> r1 == r2
    ensures exists r :: ToStorage(r) == q
  {
    match q
    case TenantAdmin => assert ToStorage(AppAuth.Admin) == q;
    case Owner => assert ToStorage(AppAuth.Owner) == q;
    case Writer => assert ToStorage(AppAuth.Writer) == q;
    case Reader => assert ToStorage(AppAuth.Reader) == q;
    case Auditor => assert ToStorage(AppAuth.Auditor) == q;
  }

  /** All three tables agree on reading, writing and administration. */
  lemma ReadWriteAdminAgree(r: AppAuth.Role, s: LegacyAuth.Session)
    requires s.role == ToLegacy(r)
    ensures AppAuth.CanRead(r) == StorageSession.CanRead(ToStorage(r)) == LegacyAuth.CanRead(s)
    ensures AppAuth.CanWrite(r) == StorageSession.CanWrite(ToStorage(r)) == LegacyAuth.CanWrite(s)
    ensures AppAuth.CanAdmin(r) == StorageSession.CanAdmin(ToStorage(r)) == LegacyAuth.CanAdmin(s)
  {
  }

  /** The two audit tables disagree on exactly one role: an owner audits in
      the storage layer's table but not in the `auth` module's. */
  lemma AuditDiffersOnlyForOwner(r: AppAuth.Role)
    ensures AppAuth.CanAudit(r) != StorageSession.CanAudit(ToStorage(r)) <==> r == AppAuth.Owner
  {
  }
}

=== FILE: secret_gen.dfy ===
/** `storage::secret`: the default secret policy and `SecretGenerator`.
    Every random index or byte the generators draw is an input. */
module SecretGen {
  import opened Base
  import opened Charset
  import Hex
  import AppAuth

  /** `SecretPolicy`: counts are `u32` in the source. */
  datatype SecretPolicy = SecretPolicy(
    maxVersions: Option<nat>,
    autoRotateDays: Option<nat>,
    requireApproval: bool,
    allowedUsers: seq<string>,
    allowedRoles: seq<string>)

  /** `SecretPolicy::default()`. */
  function DefaultPolicy(): (p: SecretPolicy)
    ensures p.maxVersions == Some(10) && p.autoRotateDays.None?
    ensures !p.requireApproval && p.allowedUsers == []
  {
    SecretPolicy(Some(10), None, false, [], ["owner", "writer"])
  }

  /** The default policy admits, by role name, exactly the roles that may
      write without administering the vault outright: owners and writers,
      not admins. */
  lemma DefaultPolicyRoles(r: AppAuth.Role)
    ensures AppAuth.RoleName(r) in DefaultPolicy().allowedRoles <==> r == AppAuth.Owner || r == AppAuth.Writer
    ensures AppAuth.RoleName(r) in DefaultPolicy().allowedRoles ==> AppAuth.CanWrite(r)
  {
  }

  /** The characters `generate_password` picks from: letters and digits,
      then the symbols when asked for. */
  function PasswordCharset(includeSymbols: bool): (cs: string)
    ensures |cs| == if includeSymbols then 88 else 62
  {
    ALPHANUMERIC + (if includeSymbols then SYMBOLS else "")
  }

  /** `generate_password(length, include_symbols)`: `length` characters,
      the i-th being the charset's character at the i-th draw of
      `rng.gen_range(0..charset.len())`. */
  function GeneratePassword(length: nat, includeSymbols: bool, draws: seq<nat>): (p: string)
    requires |draws| == length
    requires forall i :: 0 <= i < |draws| ==> draws[i] < |PasswordCharset(includeSymbols)|
    ensures |p| == length
    ensures forall i :: 0 <= i < |p| ==> p[i] in PasswordCharset(includeSymbols)
    ensures !includeSymbols ==> forall i :: 0 <= i < |p| ==> IsAlnum(p[i])
  {
    seq(length, i requires 0 <= i < length => PasswordCharset(includeSymbols)[draws[i]])
  }

  /** Every string of the requested length over the charset is a possible
      password: the generator can produce all of them. */
  lemma PasswordReachable(includeSymbols: bool, target: string)
    requires forall i :: 0 <= i < |target| ==> target[i] in PasswordCharset(includeSymbols)
    ensures exists draws: seq<nat> ::
      && |draws| == |target|
      && (forall i :: 0 <= i < |draws| ==> draws[i] < |PasswordCharset(includeSymbols)|)
      && GeneratePassword(|target|, includeSymbols, draws) == target
  {
    var cs := PasswordCharset(includeSymbols);
    var draws := seq(|target|, i requires 0 <= i < |target| => IndexOf(cs, target[i]));
    assert GeneratePassword(|target|, includeSymbols, draws) == target;
  }

  /** The prefix `generate_api_key` uses when none is given. */
  const DEFAULT_API_KEY_PREFIX: string := "vk"

  /** The number of random characters in an API key. */
  const API_KEY_RANDOM_LENGTH: nat := 32

  /** The 32 alphanumeric characters of an API key, one per draw. */
  function RandomPart(draws: seq<nat>): (s: string)
    requires forall i :: 0 <= i < |draws| ==> draws[i] < 62
    ensures |s| == |draws|
    ensures forall i :: 0 <= i < |s| ==> s[i] == AlnumChar(draws[i]) && IsAlnum(s[i])
  {
    AlphanumericAt();
    seq(|draws|, i requires 0 <= i < |draws| => ALPHANUMERIC[draws[i]])
  }

  /** `generate_api_key(prefix)`: the prefix (default "vk"), an underscore,
      and 32 letters or digits drawn from `ALPHANUMERIC`. */
  function GenerateApiKey(prefix: Option<string>, draws: seq<nat>): (k: string)
    requires |draws| == API_KEY_RANDOM_LENGTH
    requires forall i :: 0 <= i < |draws| ==> draws[i] < 62
    ensures |k| == |prefix.UnwrapOr(DEFAULT_API_KEY_PREFIX)| + 1 + API_KEY_RANDOM_LENGTH
    ensures k[..|prefix.UnwrapOr(DEFAULT_API_KEY_PREFIX)|] == prefix.UnwrapOr(DEFAULT_API_KEY_PREFIX)
    ensures k[|prefix.UnwrapOr(DEFAULT_API_KEY_PREFIX)|] == '_'
    ensures forall i :: |prefix.UnwrapOr(DEFAULT_API_KEY_PREFIX)| < i < |k| ==> IsAlnum(k[i])
  {
    prefix.UnwrapOr(DEFAULT_API_KEY_PREFIX) + "_" + RandomPart(draws)
  }

  /** An API key can be taken apart again: its last 32 characters are the
      random part, and what precedes the underscore before them is the
      prefix, even when the prefix itself contains underscores. */
  lemma ApiKeyParts(prefix: Option<string>, draws: seq<nat>)
    requires |draws| == API_KEY_RANDOM_LENGTH
    requires forall i :: 0 <= i < |draws| ==> draws[i] < 62
    ensures GenerateApiKey(prefix, draws)[..|GenerateApiKey(prefix, draws)| - API_KEY_RANDOM_LENGTH - 1] == prefix.UnwrapOr(DEFAULT_API_KEY_PREFIX)
    ensures forall i :: 0 <= i < API_KEY_RANDOM_LENGTH ==>
              GenerateApiKey(prefix, draws)[|GenerateApiKey(prefix, draws)| - API_KEY_RANDOM_LENGTH + i] == AlnumChar(draws[i])
  {
  }

  /** `generate_hex_key(length)`: `length / 2` random bytes, hex-encoded. */
  function GenerateHexKey(length: nat, bytes: seq<byte>): (s: string)
    requires |bytes| == length / 2
    ensures |s| == 2 * (length / 2) && |s| <= length
    ensures forall i :: 0 <= i < |s| ==> Hex.IsLowerHex(s[i])
    ensures Hex.Decode(s) == Some(bytes)
  {
    Hex.DecodeEncode(bytes);
    Hex.Encode(bytes)
  }

  /** An odd length is rounded down: `generate_hex_key(n)` returns one
      character fewer than asked for when `n` is odd. */
  lemma HexKeyOddLength(length: nat, bytes: seq<byte>)
    requires |bytes| == length / 2 && length % 2 == 1
    ensures |GenerateHexKey(length, bytes)| == length - 1
  {
  }
}

=== FILE: session_file.dfy ===
/** The session file both session managers keep (`SessionManager` in
    app/src/auth/mod.rs serialises it as JSON, the one in
    app/src/storage/session.rs with bincode). Only what the managers observe
    is modelled: whether the file exists and whether its bytes decode to a
    session. */
module SessionFile {
  import opened Base

  /** The file at the session path: absent, holding a decodable session, or
      holding bytes that do not decode. */
  datatype Slot<S> = NoFile | Stored(session: S) | Undecodable

  /** `save_session`: the file now holds the session. */
  function Save<S>(s: S): (slot: Slot<S>)
    ensures slot.Stored? && slot.session == s
  {
    Stored(s)
  }

  /** `clear_session`: remove the file if it exists; never fails. */
  function Clear<S>(slot: Slot<S>): (r: (Slot<S>, Result<()>))
    ensures r.0.NoFile? && r.1.Ok?
  {
    (NoFile, Ok(()))
  }

  /** `load_session`: no file is `Ok(None)`; bytes that do not decode are
      the decoder's error; a session still valid is returned; an expired
      one is deleted and reported as `Ok(None)`. `valid` is `is_valid` at
      the instant of the call. */
  function Load<S>(slot: Slot<S>, valid: S -> bool, decodeError: VaultError): (r: (Slot<S>, Result<Option<S>>))
    ensures r.1.Err? <==> slot.Undecodable?
    ensures r.1.Err? ==> r.1.error == decodeError
    ensures r.1.Ok? && r.1.value.Some? <==> slot.Stored? && valid(slot.session)
    ensures r.1.Ok? && r.1.value.Some? ==> r.1.value.value == slot.session
    ensures r.0.Stored? ==> valid(r.0.session)
    ensures r.0 == slot || (slot.Stored? && r.0.NoFile?)
  {
    match slot
    case NoFile => (NoFile, Ok(None))
    case Undecodable => (slot, Err(decodeError))
    case Stored(s) =>
      if valid(s) then (slot, Ok(Some(s)))
      else
        var (cleared, _) := Clear(slot);
        (cleared, Ok(None))
  }

  /** Loading is idempotent at a fixed instant: a second load finds what
      the first left behind and reports the same outcome. */
  lemma LoadTwice<S>(slot: Slot<S>, valid: S -> bool, decodeError: VaultError)
    ensures Load(Load(slot, valid, decodeError).0, valid, decodeError) == Load(slot, valid, decodeError)
  {
  }

  /** A session that was just saved is loaded back exactly when it is
      still valid. */
  lemma LoadAfterSave<S>(s: S, valid: S -> bool, decodeError: VaultError)
    ensures Load(Save(s), valid, decodeError).1 == if valid(s) then Ok(Some(s)) else Ok(None)
  {
  }

  /** After `clear_session` there is no session to load. */
  lemma LoadAfterClear<S>(slot: Slot<S>, valid: S -> bool, decodeError: VaultError)
    ensures Load(Clear(slot).0, valid, decodeError) == (NoFile, Ok(None))
  {
  }

  /** `get_current_session`: `load_session`, with "no session" turned into
      `Auth(missing)`. */
  function Current<S>(slot: Slot<S>, valid: S -> bool, decodeError: VaultError, missing: string): (r: (Slot<S>, Result<S>))
    ensures r.0 == Load(slot, valid, decodeError).0
    ensures r.1.Ok? <==> slot.Stored? && valid(slot.session)
    ensures r.1.Ok? ==> r.1.value == slot.session
    ensures slot.Undecodable? ==> r.1 == Err(decodeError)
    ensures !slot.Undecodable? && r.1.Err? ==> r.1.error == Auth(missing)
  {
    var (after, loaded) := Load(slot, valid, decodeError);
    match loaded
    case Err(e) => (after, Err(e))
    case Ok(None) => (after, Err(Auth(missing)))
    case Ok(Some(s)) => (after, Ok(s))
  }
}

=== FILE: sled.dfy ===
/** The embedded key/value tree the vault keeps its records in (`sled::Db`):
    keys are strings, each present at most once, kept in ascending order,
    which is the order `iter` and `scan_prefix` visit them in. A tree is a
    strictly ascending list of entries; `Get` is the map it represents, and
    every update is specified by what `Get` returns afterwards. */
module Sled {
  import opened Base
  import opened Text

  /** Each key lies strictly below the next. */
  predicate Ascending<V>(s: seq<(string, V)>)
    decreases |s|
  {
    |s| <= 1 || (StrLess(s[0].0, s[1].0) && Ascending(s[1..]))
  }

  type Tree<V> = s: seq<(string, V)> | Ascending(s) witness []

  /** The keys present in a list of entries. */
  function Keys<V>(s: seq<(string, V)>): set<string> {
    set i | 0 <= i < |s| :: s[i].0
  }

  lemma KeysCons<V>(s: seq<(string, V)>)
    requires |s| > 0
    ensures Keys(s) == {s[0].0} + Keys(s[1..])
  {
    forall k | k in Keys(s) ensures k in {s[0].0} + Keys(s[1..]) {
      var i :| 0 <= i < |s| && s[i].0 == k;
      if i > 0 { assert s[1..][i - 1].0 == k; }
    }
    forall k | k in Keys(s[1..]) ensures k in Keys(s) {
      var i :| 0 <= i < |s[1..]| && s[1..][i].0 == k;
      assert s[i + 1].0 == k;
    }
  }

  /** Every later key lies above the first. */
  lemma {:induction false} HeadBelow<V>(t: Tree<V>, i: int)
    requires 0 < i < |t|
    ensures StrLess(t[0].0, t[i].0)
    decreases i
  {
    if i > 1 {
      var rest: Tree<V> := t[1..];
      HeadBelow(rest, i - 1);
      StrLessTransitive(t[0].0, t[1].0, t[i].0);
    }
  }

  /** Dropping entries from the front keeps a tree ascending. */
  lemma {:induction false} AscendingSuffix<V>(t: Tree<V>, i: int)
    requires 0 <= i <= |t|
    ensures Ascending(t[i..])
    decreases i
  {
    if i > 0 {
      AscendingSuffix(t[1..], i - 1);
      assert t[1..][i - 1..] == t[i..];
    }
  }

  /** Keys ascend strictly along the whole tree, not only between
      neighbours. */
  lemma KeysAscend<V>(t: Tree<V>, j: int, i: int)
    requires 0 <= j < i < |t|
    ensures StrLess(t[j].0, t[i].0)
  {
    AscendingSuffix(t, j);
    var u: Tree<V> := t[j..];
    HeadBelow(u, i - j);
  }

  /** No key occurs twice: an entry's key is not among the keys before it. */
  lemma KeyNotBefore<V>(t: Tree<V>, i: int)
    requires 0 <= i < |t|
    ensures t[i].0 !in Keys(t[..i])
  {
    if t[i].0 in Keys(t[..i]) {
      var j :| 0 <= j < |t[..i]| && t[..i][j].0 == t[i].0;
      KeysAscend(t, j, i);
      StrLessIrreflexive(t[i].0);
    }
  }

  /** The keys of a prefix grow one entry at a time. */
  lemma KeysSnoc<V>(s: seq<(string, V)>, i: int)
    requires 0 <= i < |s|
    ensures Keys(s[..i + 1]) == Keys(s[..i]) + {s[i].0}
  {
    assert forall j :: 0 <= j < i ==> s[..i + 1][j] == s[..i][j];
    assert s[..i + 1][i] == s[i];
  }

  /** The first key occurs only once. */
  lemma HeadUnique<V>(t: Tree<V>)
    requires |t| > 0
    ensures t[0].0 !in Keys(t[1..])
  {
    if t[0].0 in Keys(t[1..]) {
      var i :| 0 <= i < |t[1..]| && t[1..][i].0 == t[0].0;
      HeadBelow(t, i + 1);
      StrLessIrreflexive(t[0].0);
    }
  }

  /** `db.get(key)`: the value stored under the key, if the key is present. */
  function Get<V>(t: Tree<V>, k: string): (r: Option<V>)
    ensures r.Some? <==> k in Keys(t)
    ensures r.Some? ==> (k, r.value) in t
  {
    if |t| == 0 then None
    else
      KeysCons(t);
      if t[0].0 == k then Some(t[0].1)
      else Get(t[1..], k)
  }

  /** Every entry listed in a tree is what `Get` finds under its key. */
  lemma {:induction false} GetEntry<V>(t: Tree<V>, i: int)
    requires 0 <= i < |t|
    ensures Get(t, t[i].0) == Some(t[i].1)
    decreases i
  {
    if i > 0 {
      HeadBelow(t, i);
      StrLessIrreflexive(t[0].0);
      GetEntry(t[1..], i - 1);
    }
  }

  /** `db.contains_key(key)`. */
  function ContainsKey<V>(t: Tree<V>, k: string): (b: bool)
    ensures b <==> Get(t, k).Some?
  {
    k in Keys(t)
  }

  /** `db.insert(key, value)`, keeping the keys in order. The head of the
      result is the new key or the old head. */
  function Insert<V>(t: Tree<V>, k: string, v: V): (r: Tree<V>)
    ensures |r| > 0 && (r[0].0 == k || (|t| > 0 && r[0].0 == t[0].0))
  {
    if |t| == 0 then [(k, v)]
    else if t[0].0 == k then
      assert ([(k, v)] + t[1..])[1..] == t[1..];
      [(k, v)] + t[1..]
    else if StrLess(k, t[0].0) then
      assert ([(k, v)] + t)[1..] == t;
      [(k, v)] + t
    else
      StrLessTotal(k, t[0].0);
      var rest := Insert(t[1..], k, v);
      assert ([t[0]] + rest)[1..] == rest;
      [t[0]] + rest
  }

  /** After `insert` the key maps to the value and every other key maps to
      what it mapped to before. */
  lemma {:induction false} GetInsert<V>(t: Tree<V>, k: string, v: V, q: string)
    ensures Get(Insert(t, k, v), q) == if q == k then Some(v) else Get(t, q)
    decreases |t|
  {
    if |t| > 0 && t[0].0 != k && !StrLess(k, t[0].0) {
      GetInsert(t[1..], k, v, q);
    }
  }

  /** `after` binds `k` to `v` and agrees with `before` on every other key. */
  ghost predicate Updated<V>(before: Tree<V>, after: Tree<V>, k: string, v: V) {
    Get(after, k) == Some(v) && forall q :: q != k ==> Get(after, q) == Get(before, q)
  }

  /** `insert` as a whole: the new key is bound, nothing else changes. */
  lemma InsertSpec<V>(t: Tree<V>, k: string, v: V)
    ensures Get(Insert(t, k, v), k) == Some(v)
    ensures forall q :: q != k ==> Get(Insert(t, k, v), q) == Get(t, q)
    ensures Updated(t, Insert(t, k, v), k, v)
  {
    GetInsert(t, k, v, k);
    forall q | q != k ensures Get(Insert(t, k, v), q) == Get(t, q) {
      GetInsert(t, k, v, q);
    }
  }

  /** `db.remove(key)`, returning the value the key held, if any. The head of
      the result is one of the first two entries. */
  function Remove<V>(t: Tree<V>, k: string): (r: (Tree<V>, Option<V>))
    ensures r.1 == Get(t, k)
    ensures |r.0| <= |t|
    ensures |r.0| > 0 ==> r.0[0] == t[0] || (|t| > 1 && r.0[0] == t[1])
  {
    if |t| == 0 then ([], None)
    else if t[0].0 == k then (t[1..], Some(t[0].1))
    else
      var rest := Remove(t[1..], k);
      assert |rest.0| > 0 ==> StrLess(t[0].0, rest.0[0].0) by {
        if |rest.0| > 0 { HeadBelow(t, if rest.0[0] == t[1] then 1 else 2); }
      }
      assert ([t[0]] + rest.0)[1..] == rest.0;
      ([t[0]] + rest.0, rest.1)
  }

  /** After `remove` the key is absent and every other key maps to what it
      mapped to before. */
  lemma {:induction false} GetRemove<V>(t: Tree<V>, k: string, q: string)
    ensures Get(Remove(t, k).0, q) == if q == k then None else Get(t, q)
    decreases |t|
  {
    if |t| > 0 {
      if t[0].0 == k {
        HeadUnique(t);
      } else {
        GetRemove(t[1..], k, q);
      }
    }
  }

  /** `remove` as a whole: the key is unbound, nothing else changes. */
  lemma RemoveSpec<V>(t: Tree<V>, k: string)
    ensures Get(Remove(t, k).0, k) == None
    ensures forall q :: q != k ==> Get(Remove(t, k).0, q) == Get(t, q)
  {
    GetRemove(t, k, k);
    forall q | q != k ensures Get(Remove(t, k).0, q) == Get(t, q) {
      GetRemove(t, k, q);
    }
  }

  /** Removing an absent key leaves the tree exactly as it was. */
  lemma {:induction false} RemoveAbsent<V>(t: Tree<V>, k: string)
    requires Get(t, k).None?
    ensures Remove(t, k).0 == t
    decreases |t|
  {
    if |t| > 0 {
      RemoveAbsent(t[1..], k);
      assert [t[0]] + t[1..] == t;
    }
  }

  /** `db.scan_prefix(p)`: the entries whose key starts with `p`, in key
      order. */
  function ScanPrefix<V>(t: Tree<V>, p: string): (r: seq<(string, V)>)
    ensures |r| <= |t|
    ensures forall i :: 0 <= i < |r| ==> r[i] in t && StartsWith(r[i].0, p)
    ensures forall i :: 0 <= i < |t| && StartsWith(t[i].0, p) ==> t[i] in r
  {
    if |t| == 0 then []
    else
      var rest := ScanPrefix(t[1..], p);
      if StartsWith(t[0].0, p) then [t[0]] + rest else rest
  }

  /** `scan_prefix` yields each key at most once. */
  lemma {:induction false} ScanPrefixKeysDistinct<V>(t: Tree<V>, p: string, i: int, j: int)
    requires 0 <= i < j < |ScanPrefix(t, p)|
    ensures ScanPrefix(t, p)[i].0 != ScanPrefix(t, p)[j].0
    decreases |t|
  {
    var rest := ScanPrefix(t[1..], p);
    if StartsWith(t[0].0, p) {
      if i == 0 {
        var e := rest[j - 1];
        var m :| 0 <= m < |t[1..]| && t[1..][m] == e;
        HeadBelow(t, m + 1);
        StrLessIrreflexive(t[0].0);
      } else {
        ScanPrefixKeysDistinct(t[1..], p, i - 1, j - 1);
      }
    } else {
      ScanPrefixKeysDistinct(t[1..], p, i, j);
    }
  }

  /** What `scan_prefix` yields is what `get` finds. */
  lemma ScanPrefixGet<V>(t: Tree<V>, p: string, i: int)
    requires 0 <= i < |ScanPrefix(t, p)|
    ensures StartsWith(ScanPrefix(t, p)[i].0, p)
    ensures Get(t, ScanPrefix(t, p)[i].0) == Some(ScanPrefix(t, p)[i].1)
  {
    var j :| 0 <= j < |t| && t[j] == ScanPrefix(t, p)[i];
    GetEntry(t, j);
  }

  /** Every key under the prefix that `get` finds is yielded by
      `scan_prefix`. */
  lemma ScanPrefixComplete<V>(t: Tree<V>, p: string, k: string)
    requires StartsWith(k, p) && Get(t, k).Some?
    ensures exists i :: 0 <= i < |ScanPrefix(t, p)| && ScanPrefix(t, p)[i] == (k, Get(t, k).value)
  {
    var j :| 0 <= j < |t| && t[j] == (k, Get(t, k).value);
    assert t[j] in ScanPrefix(t, p);
  }

  /** The keys of a tree that start with `p`. */
  function KeysWithPrefix<V>(t: seq<(string, V)>, p: string): set<string> {
    set k | k in Keys(t) && StartsWith(k, p)
  }

  /** Counting the entries whose key starts with `p`, as a walk over
      `db.iter()` does, gives the number of such keys. */
  function CountPrefix<V>(t: Tree<V>, p: string): (n: nat)
    ensures n == |KeysWithPrefix(t, p)|
  {
    if |t| == 0 then 0
    else
      KeysCons(t);
      HeadUnique(t);
      var rest := CountPrefix(t[1..], p);
      if StartsWith(t[0].0, p) then
        assert KeysWithPrefix(t, p) == KeysWithPrefix(t[1..], p) + {t[0].0};
        rest + 1
      else
        assert KeysWithPrefix(t, p) == KeysWithPrefix(t[1..], p);
        rest
  }
}

=== FILE: sort.dfy ===
/** `slice::sort_by` / `slice::sort` as the store uses them: a sort on a
    key of two strings compared lexicographically (a `(String, String)`
    tuple's derived order; the listing passes its name and an empty second
    component). */
module Sorting {
  import opened Text

  /** No element's key is below the key of the element before it. */
  predicate SortedBy<T>(s: seq<T>, key: T -> (string, string)) {
    forall i :: 0 < i < |s| ==> !PairLess(key(s[i]), key(s[i - 1]))
  }

  /** Inserting one element in front of the first element whose key is not
      below its own. */
  function InsertBy<T>(x: T, s: seq<T>, key: T -> (string, string)): (r: seq<T>)
    requires SortedBy(s, key)
    ensures SortedBy(r, key)
    ensures multiset(r) == multiset(s) + multiset{x}
    ensures |r| == |s| + 1 && (r[0] == x || (|s| > 0 && r[0] == s[0]))
  {
    if |s| == 0 then [x]
    else if !PairLess(key(s[0]), key(x)) then [x] + s
    else
      var rest := InsertBy(x, s[1..], key);
      assert !PairLess(key(rest[0]), key(s[0])) by {
        if rest[0] == x { PairLessAsymmetric(key(s[0]), key(x)); }
      }
      assert s == [s[0]] + s[1..];
      [s[0]] + rest
  }

  lemma PairLessAsymmetric(p: (string, string), q: (string, string))
    requires PairLess(p, q)
    ensures !PairLess(q, p)
  {
    if PairLess(q, p) {
      PairLessTransitive(p, q, p);
      PairLessIrreflexive(p);
    }
  }

  /** Sorting by insertion: the result is ordered by key and holds the same
      elements, each as often as before. */
  function SortBy<T>(s: seq<T>, key: T -> (string, string)): (r: seq<T>)
    ensures SortedBy(r, key)
    ensures multiset(r) == multiset(s)
    ensures |r| == |s|
  {
    if |s| == 0 then []
    else
      assert s == [s[0]] + s[1..];
      InsertBy(s[0], SortBy(s[1..], key), key)
  }
}

=== FILE: stats.dfy ===
/** `VaultStorage::get_stats`: one walk over every record in the store,
    counting secret keys, collecting the tenant ids and the
    "{tenant}:{namespace}" pairs the keys name, as `split(':')` reads them,
    and adding up the stored values' sizes. Records are not encoded to
    bytes here, so the size of a stored value is a parameter. */
module Stats {
  import opened Base
  import opened Text
  import Sled
  import opened Store

  datatype VaultStats = VaultStats(secretCount: nat, namespaceCount: nat, tenantCount: nat, totalSize: nat)

  /** The sizes of the stored values of `t`, added up. */
  function SizeOf(t: seq<(string, Record)>, size: Record -> nat): nat
    decreases |t|
  {
    if |t| == 0 then 0 else size(t[0].1) + SizeOf(t[1..], size)
  }

  /** Adding one more entry at the end adds its size. */
  lemma {:induction false} SizeOfSnoc(t: seq<(string, Record)>, e: (string, Record), size: Record -> nat)
    ensures SizeOf(t + [e], size) == SizeOf(t, size) + size(e.1)
    decreases |t|
  {
    if |t| > 0 {
      assert (t + [e])[1..] == t[1..] + [e];
      SizeOfSnoc(t[1..], e, size);
    }
  }

  /** `insert` changes the total size by the new value's size less the size
      of the value it replaces, if any. */
  lemma {:induction false} InsertSize(t: Sled.Tree<Record>, k: string, rec: Record, size: Record -> nat)
    ensures SizeOf(Sled.Insert(t, k, rec), size)
         == SizeOf(t, size) + size(rec) - (if Sled.Get(t, k).Some? then size(Sled.Get(t, k).value) else 0)
    decreases |t|
  {
    if |t| > 0 && t[0].0 != k && !StrLess(k, t[0].0) {
      InsertSize(t[1..], k, rec, size);
      StrLessTotal(k, t[0].0);
      var rest := Sled.Insert(t[1..], k, rec);
      assert Sled.Insert(t, k, rec) == [t[0]] + rest;
      assert ([t[0]] + rest)[1..] == rest;
    } else if |t| > 0 && t[0].0 == k {
      assert Sled.Insert(t, k, rec)[1..] == t[1..];
    } else if |t| > 0 {
      assert Sled.Insert(t, k, rec)[1..] == t;
      Sled.HeadUnique(t);
      assert k !in Sled.Keys(t) by {
        if k in Sled.Keys(t) {
          var i :| 0 <= i < |t| && t[i].0 == k;
          if i > 0 {
            Sled.HeadBelow(t, i);
            StrLessAsymmetric(k, t[0].0);
          }
        }
      }
    }
  }

  const SECRET_TAG: string := "secret:"
  const TENANT_TAG: string := "tenant:"

  /** The tenant id the walk collects for one key, if any: the second
      `split(':')` piece of a secret key with at least three pieces, or of a
      tenant key with at least two. */
  function TenantOf(k: string): Option<string> {
    var parts := Split(k, ':');
    if StartsWith(k, SECRET_TAG) then
      if |parts| >= 3 then Some(parts[1]) else None
    else if StartsWith(k, TENANT_TAG) then
      if |parts| >= 2 then Some(parts[1]) else None
    else None
  }

  /** The "{tenant}:{namespace}" text the walk collects for one key, if
      any. */
  function NamespaceOf(k: string): Option<string> {
    var parts := Split(k, ':');
    if StartsWith(k, SECRET_TAG) && |parts| >= 3 then Some(parts[1] + ":" + parts[2]) else None
  }

  /** The distinct tenant ids named by a set of keys. */
  function TenantIds(keys: set<string>): set<string> {
    set k | k in keys && TenantOf(k).Some? :: TenantOf(k).value
  }

  /** The distinct "{tenant}:{namespace}" texts named by a set of keys. */
  function NamespaceIds(keys: set<string>): set<string> {
    set k | k in keys && NamespaceOf(k).Some? :: NamespaceOf(k).value
  }

  function OptionSet(o: Option<string>): set<string> {
    if o.Some? then {o.value} else {}
  }

  /** The tenants named by the first i + 1 keys of a tree. */
  lemma TenantIdsStep(t: Sled.Tree<Record>, i: int)
    requires 0 <= i < |t|
    ensures TenantIds(Sled.Keys(t[..i + 1])) == TenantIds(Sled.Keys(t[..i])) + OptionSet(TenantOf(t[i].0))
  {
    Sled.KeysSnoc(t, i);
  }

  /** The namespaces named by the first i + 1 keys of a tree. */
  lemma NamespaceIdsStep(t: Sled.Tree<Record>, i: int)
    requires 0 <= i < |t|
    ensures NamespaceIds(Sled.Keys(t[..i + 1])) == NamespaceIds(Sled.Keys(t[..i])) + OptionSet(NamespaceOf(t[i].0))
  {
    Sled.KeysSnoc(t, i);
  }

  /** Keys under a prefix grow with the keys. */
  lemma PrefixKeysSnoc(t: Sled.Tree<Record>, i: int, p: string)
    requires 0 <= i < |t|
    ensures Sled.KeysWithPrefix(t[..i + 1], p)
         == Sled.KeysWithPrefix(t[..i], p) + (if StartsWith(t[i].0, p) then {t[i].0} else {})
    ensures t[i].0 !in Sled.KeysWithPrefix(t[..i], p)
  {
    Sled.KeysSnoc(t, i);
    Sled.KeyNotBefore(t, i);
  }

  /** One turn of the walk in `get_stats`: count a secret key, and collect
      the tenant and namespace the key names. */
  method VisitKey(key: string, secretCount: nat, tenants: set<string>, namespaces: set<string>)
    returns (count: nat, tenants': set<string>, namespaces': set<string>)
    ensures count == if StartsWith(key, SECRET_TAG) then secretCount + 1 else secretCount
    ensures tenants' == tenants + OptionSet(TenantOf(key))
    ensures namespaces' == namespaces + OptionSet(NamespaceOf(key))
  {
    count, tenants', namespaces' := secretCount, tenants, namespaces;
    if StartsWith(key, SECRET_TAG) {
      count := secretCount + 1;
      var parts := Split(key, ':');
      if |parts| >= 3 {
        tenants' := tenants + {parts[1]};
        namespaces' := namespaces + {parts[1] + ":" + parts[2]};
      }
    } else if StartsWith(key, TENANT_TAG) {
      var parts := Split(key, ':');
      if |parts| >= 2 {
        tenants' := tenants + {parts[1]};
      }
    }
  }

  /** What the walk has counted and collected after visiting `s`, in
      order. */
  function WalkCount(s: seq<(string, Record)>): nat
    decreases |s|
  {
    if |s| == 0 then 0
    else WalkCount(s[..|s| - 1]) + if StartsWith(s[|s| - 1].0, SECRET_TAG) then 1 else 0
  }

  function WalkTenants(s: seq<(string, Record)>): set<string>
    decreases |s|
  {
    if |s| == 0 then {} else WalkTenants(s[..|s| - 1]) + OptionSet(TenantOf(s[|s| - 1].0))
  }

  function WalkNamespaces(s: seq<(string, Record)>): set<string>
    decreases |s|
  {
    if |s| == 0 then {} else WalkNamespaces(s[..|s| - 1]) + OptionSet(NamespaceOf(s[|s| - 1].0))
  }

  /** Since no key occurs twice, the walk over the first i entries counts
      each secret key once and collects exactly the tenants and namespaces
      those keys name. */
  lemma {:induction false} WalkMatchesKeys(t: Sled.Tree<Record>, i: int)
    requires 0 <= i <= |t|
    ensures WalkCount(t[..i]) == |Sled.KeysWithPrefix(t[..i], SECRET_TAG)|
    ensures WalkTenants(t[..i]) == TenantIds(Sled.Keys(t[..i]))
    ensures WalkNamespaces(t[..i]) == NamespaceIds(Sled.Keys(t[..i]))
    decreases i
  {
    if i == 0 {
      assert Sled.Keys(t[..0]) == {};
      assert Sled.KeysWithPrefix(t[..0], SECRET_TAG) == {};
    } else {
      WalkMatchesKeys(t, i - 1);
      assert t[..i][..i - 1] == t[..i - 1];
      PrefixKeysSnoc(t, i - 1, SECRET_TAG);
      TenantIdsStep(t, i - 1);
      NamespaceIdsStep(t, i - 1);
    }
  }

  /** `get_stats`: the number of secret keys, the numbers of distinct
      tenants and of distinct tenant/namespace pairs the keys name, and the
      total size of the stored values, `size` giving each one's encoded
      length. Every record is visited once, in key order. */
  method GetStats(v: Vault, size: Record -> nat) returns (s: VaultStats)
    ensures s.secretCount == |Sled.KeysWithPrefix(v.db, SECRET_TAG)|
    ensures s.tenantCount == |TenantIds(Sled.Keys(v.db))|
    ensures s.namespaceCount == |NamespaceIds(Sled.Keys(v.db))|
    ensures s.totalSize == SizeOf(v.db, size)
  {
    var secretCount := 0;
    var namespaces: set<string> := {};
    var tenants: set<string> := {};
    var totalSize := 0;
    var i := 0;
    while i < |v.db|
      invariant 0 <= i <= |v.db|
      invariant secretCount == WalkCount(v.db[..i])
      invariant tenants == WalkTenants(v.db[..i])
      invariant namespaces == WalkNamespaces(v.db[..i])
      invariant totalSize == SizeOf(v.db[..i], size)
    {
      assert v.db[..i + 1][..i] == v.db[..i];
      assert v.db[..i + 1] == v.db[..i] + [v.db[i]];
      SizeOfSnoc(v.db[..i], v.db[i], size);
      totalSize := totalSize + size(v.db[i].1);
      secretCount, tenants, namespaces := VisitKey(v.db[i].0, secretCount, tenants, namespaces);
      i := i + 1;
    }
    WalkMatchesKeys(v.db, |v.db|);
    assert v.db[..|v.db|] == v.db;
    s := VaultStats(secretCount, |namespaces|, |tenants|, totalSize);
  }

  // ---------------------------------------------------------------------
  // What the walk reads from each kind of key
  // ---------------------------------------------------------------------

  lemma TenantKeyNames(tenantId: string)
    requires ':' !in tenantId
    ensures TenantOf(TenantKey(tenantId)) == Some(tenantId)
    ensures NamespaceOf(TenantKey(tenantId)) == None
  {
    var k := TenantKey(tenantId);
    assert k == "tenant" + [':'] + tenantId;
    assert k[0] == 't' && StartsWith(k, TENANT_TAG);
    SplitAfterHead("tenant", ':', tenantId);
    SplitNoSeparator(tenantId, ':');
  }

  lemma SecretKeyNames(tenantId: string, namespace: string, key: string)
    requires ':' !in tenantId && ':' !in namespace
    ensures TenantOf(SecretKey(tenantId, namespace, key)) == Some(tenantId)
    ensures NamespaceOf(SecretKey(tenantId, namespace, key)) == Some(tenantId + ":" + namespace)
  {
    var k := SecretKey(tenantId, namespace, key);
    assert k == SECRET_TAG + (tenantId + ":" + namespace + ":" + key);
    SplitSecretKey(tenantId, namespace, key);
  }

  lemma AuditKeyNames(tenantId: string, ts: Time)
    ensures TenantOf(AuditKey(tenantId, ts)) == None
    ensures NamespaceOf(AuditKey(tenantId, ts)) == None
  {
    assert AuditKey(tenantId, ts)[0] == 'a';
  }

  /** `init_tenant` adds the tenant key and one audit key. */
  lemma InitTenantKeys(v: Vault, tenantId: string, admin: string, salt: Bytes32, d: Draws)
    ensures Sled.Keys(InitTenant(v, tenantId, admin, salt, d).db) == Sled.Keys(v.db) + {TenantKey(tenantId), AuditKey(tenantId, d.now)}
  {
    var r := InitTenant(v, tenantId, admin, salt, d);
    assert Sled.Get(r.db, TenantKey(tenantId)).Some?;
    forall q ensures q in Sled.Keys(r.db) <==> q in Sled.Keys(v.db) + {TenantKey(tenantId), AuditKey(tenantId, d.now)} {
      if q != TenantKey(tenantId) && q != AuditKey(tenantId, d.now) {
        assert Sled.Get(r.db, q) == Sled.Get(v.db, q);
      }
    }
  }

  /** A `put` on an unlocked store adds the secret key and one audit key. */
  lemma PutKeys(v: Vault, key: string, value: string, namespace: string, d: Draws)
    requires Unlocked(v)
    ensures Unlocked(Put(v, key, value, namespace, d).0)
    ensures Put(v, key, value, namespace, d).0.currentTenant == v.currentTenant
    ensures Sled.Keys(Put(v, key, value, namespace, d).0.db)
         == Sled.Keys(v.db) + {SecretKey(v.currentTenant.value, namespace, key), AuditKey(v.currentTenant.value, d.now)}
  {
    var r := Put(v, key, value, namespace, d).0;
    var k := SecretKey(v.currentTenant.value, namespace, key);
    var a := AuditKey(v.currentTenant.value, d.now);
    assert Sled.Get(r.db, k).Some? && Sled.Get(r.db, a).Some?;
    forall q ensures q in Sled.Keys(r.db) <==> q in Sled.Keys(v.db) + {k, a} {
      if q != k && q != a {
        assert Sled.Get(r.db, q) == Sled.Get(v.db, q);
      }
    }
  }

  /** The secret keys among a set of keys. */
  function SecretKeysIn(keys: set<string>): set<string> {
    set k | k in keys && StartsWith(k, SECRET_TAG)
  }

  /** What the walk collects from a union is the union of what it collects
      from each part. */
  lemma NamesOfUnion(a: set<string>, b: set<string>)
    ensures TenantIds(a + b) == TenantIds(a) + TenantIds(b)
    ensures NamespaceIds(a + b) == NamespaceIds(a) + NamespaceIds(b)
  {
  }

  lemma SecretsOfUnion(a: set<string>, b: set<string>)
    ensures SecretKeysIn(a + b) == SecretKeysIn(a) + SecretKeysIn(b)
  {
  }

  lemma NamesOfPair(k1: string, k2: string)
    ensures TenantIds({k1, k2}) == OptionSet(TenantOf(k1)) + OptionSet(TenantOf(k2))
    ensures NamespaceIds({k1, k2}) == OptionSet(NamespaceOf(k1)) + OptionSet(NamespaceOf(k2))
  {
  }

  lemma SecretsOfPair(k1: string, k2: string)
    ensures SecretKeysIn({k1, k2}) == (if StartsWith(k1, SECRET_TAG) then {k1} else {})
                                    + (if StartsWith(k2, SECRET_TAG) then {k2} else {})
  {
  }

  /** What the walk reads from a tenant key and an audit key. */
  lemma TenantPairNames(tenantId: string, ts: Time)
    requires ':' !in tenantId
    ensures TenantIds({TenantKey(tenantId), AuditKey(tenantId, ts)}) == {tenantId}
    ensures NamespaceIds({TenantKey(tenantId), AuditKey(tenantId, ts)}) == {}
    ensures SecretKeysIn({TenantKey(tenantId), AuditKey(tenantId, ts)}) == {}
  {
    TenantKeyNames(tenantId);
    AuditKeyNames(tenantId, ts);
    NamesOfPair(TenantKey(tenantId), AuditKey(tenantId, ts));
    SecretsOfPair(TenantKey(tenantId), AuditKey(tenantId, ts));
    assert TenantKey(tenantId)[0] == 't' && AuditKey(tenantId, ts)[0] == 'a';
  }

  /** What the walk reads from a secret key and an audit key. */
  lemma SecretPairNames(tenantId: string, namespace: string, key: string, ts: Time)
    requires ':' !in tenantId && ':' !in namespace
    ensures TenantIds({SecretKey(tenantId, namespace, key), AuditKey(tenantId, ts)}) == {tenantId}
    ensures NamespaceIds({SecretKey(tenantId, namespace, key), AuditKey(tenantId, ts)}) == {tenantId + ":" + namespace}
    ensures SecretKeysIn({SecretKey(tenantId, namespace, key), AuditKey(tenantId, ts)}) == {SecretKey(tenantId, namespace, key)}
  {
    SecretKeyNames(tenantId, namespace, key);
    AuditKeyNames(tenantId, ts);
    NamesOfPair(SecretKey(tenantId, namespace, key), AuditKey(tenantId, ts));
    SecretsOfPair(SecretKey(tenantId, namespace, key), AuditKey(tenantId, ts));
    assert StartsWith(SecretKey(tenantId, namespace, key), SECRET_TAG) && AuditKey(tenantId, ts)[0] == 'a';
  }

  /** The keys the walk sees after the setup below. */
  function SetupKeys(tenantId: string, n1: string, k1: string, n2: string, k2: string, t0: Time, t2: Time, t3: Time): set<string> {
    {TenantKey(tenantId), AuditKey(tenantId, t0)}
    + {SecretKey(tenantId, n1, k1), AuditKey(tenantId, t2)}
    + {SecretKey(tenantId, n2, k2), AuditKey(tenantId, t3)}
  }

  lemma SecretKeysDiffer(tenantId: string, n1: string, k1: string, n2: string, k2: string)
    requires ':' !in tenantId && ':' !in n1 && ':' !in n2 && n1 != n2
    ensures SecretKey(tenantId, n1, k1) != SecretKey(tenantId, n2, k2)
  {
    if SecretKey(tenantId, n1, k1) == SecretKey(tenantId, n2, k2) {
      SecretKeyInjective(tenantId, n1, k1, tenantId, n2, k2);
    }
  }

  /** What the walk collects from those keys: one tenant, two namespaces
      and two secret keys, since the namespaces differ. */
  lemma SetupNames(tenantId: string, n1: string, k1: string, n2: string, k2: string, t0: Time, t2: Time, t3: Time)
    requires ':' !in tenantId && ':' !in n1 && ':' !in n2 && n1 != n2
    ensures TenantIds(SetupKeys(tenantId, n1, k1, n2, k2, t0, t2, t3)) == {tenantId}
    ensures NamespaceIds(SetupKeys(tenantId, n1, k1, n2, k2, t0, t2, t3)) == {tenantId + ":" + n1, tenantId + ":" + n2}
    ensures |NamespaceIds(SetupKeys(tenantId, n1, k1, n2, k2, t0, t2, t3))| == 2
    ensures |SecretKeysIn(SetupKeys(tenantId, n1, k1, n2, k2, t0, t2, t3))| == 2
  {
    var p0 := {TenantKey(tenantId), AuditKey(tenantId, t0)};
    var p1 := {SecretKey(tenantId, n1, k1), AuditKey(tenantId, t2)};
    var p2 := {SecretKey(tenantId, n2, k2), AuditKey(tenantId, t3)};
    TenantPairNames(tenantId, t0);
    SecretPairNames(tenantId, n1, k1, t2);
    SecretPairNames(tenantId, n2, k2, t3);
    NamesOfUnion(p0, p1);
    NamesOfUnion(p0 + p1, p2);
    SecretsOfUnion(p0, p1);
    SecretsOfUnion(p0 + p1, p2);
    SecretKeysDiffer(tenantId, n1, k1, n2, k2);
    AppendCancel(tenantId + ":", n1, n2);
  }

  /** A tenant created in an empty store and unlocked. */
  function UnlockedVault(tenantId: string, admin: string, salt: Bytes32, passphrase: string, d0: Draws, d1: Draws): Vault {
    Unlock(InitTenant(EMPTY, tenantId, admin, salt, d0), tenantId, passphrase, d1.coins).0
  }

  lemma UnlockedVaultKeys(tenantId: string, admin: string, salt: Bytes32, passphrase: string, d0: Draws, d1: Draws)
    ensures Unlocked(UnlockedVault(tenantId, admin, salt, passphrase, d0, d1))
    ensures UnlockedVault(tenantId, admin, salt, passphrase, d0, d1).currentTenant == Some(tenantId)
    ensures Sled.Keys(UnlockedVault(tenantId, admin, salt, passphrase, d0, d1).db) == {TenantKey(tenantId), AuditKey(tenantId, d0.now)}
  {
    assert Sled.Keys(EMPTY.db) == {};
    InitTenantKeys(EMPTY, tenantId, admin, salt, d0);
  }

  /** The setup of the storage tests' statistics case: a tenant is created
      in an empty store and unlocked, and one secret is put in each of two
      namespaces. */
  function SetupVault(
    tenantId: string, admin: string, salt: Bytes32, passphrase: string,
    n1: string, k1: string, x1: string, n2: string, k2: string, x2: string,
    d0: Draws, d1: Draws, d2: Draws, d3: Draws): Vault
  {
    var v1 := UnlockedVault(tenantId, admin, salt, passphrase, d0, d1);
    var v2 := Put(v1, k1, x1, n1, d2).0;
    Put(v2, k2, x2, n2, d3).0
  }

  /** The setup leaves the tenant key, the two secret keys and three audit
      keys. */
  lemma SetupVaultKeys(
    tenantId: string, admin: string, salt: Bytes32, passphrase: string,
    n1: string, k1: string, x1: string, n2: string, k2: string, x2: string,
    d0: Draws, d1: Draws, d2: Draws, d3: Draws)
    ensures Sled.Keys(SetupVault(tenantId, admin, salt, passphrase, n1, k1, x1, n2, k2, x2, d0, d1, d2, d3).db)
         == SetupKeys(tenantId, n1, k1, n2, k2, d0.now, d2.now, d3.now)
  {
    var v1 := UnlockedVault(tenantId, admin, salt, passphrase, d0, d1);
    UnlockedVaultKeys(tenantId, admin, salt, passphrase, d0, d1);
    PutKeys(v1, k1, x1, n1, d2);
    var v2 := Put(v1, k1, x1, n1, d2).0;
    PutKeys(v2, k2, x2, n2, d3);
  }

  /** After that setup the walk counts two secrets, one tenant and two
      namespaces; the audit records count for nothing. */
  lemma StatsOfTwoNamespaces(
    tenantId: string, admin: string, salt: Bytes32, passphrase: string,
    n1: string, k1: string, x1: string, n2: string, k2: string, x2: string,
    d0: Draws, d1: Draws, d2: Draws, d3: Draws)
    requires ':' !in tenantId && ':' !in n1 && ':' !in n2 && n1 != n2
    ensures
      var keys := Sled.Keys(SetupVault(tenantId, admin, salt, passphrase, n1, k1, x1, n2, k2, x2, d0, d1, d2, d3).db);
      && |SecretKeysIn(keys)| == 2
      && TenantIds(keys) == {tenantId}
      && NamespaceIds(keys) == {tenantId + ":" + n1, tenantId + ":" + n2}
      && |NamespaceIds(keys)| == 2
  {
    SetupVaultKeys(tenantId, admin, salt, passphrase, n1, k1, x1, n2, k2, x2, d0, d1, d2, d3);
    SetupNames(tenantId, n1, k1, n2, k2, d0.now, d2.now, d3.now);
  }
}

=== FILE: storage_session.dfy ===
/** Roles and sessions of the storage layer's `session` module (the second
    session manager of the application, which keeps its session file in
    bincode). The clock is a parameter. */
module StorageSession {
  import opened Base
  import SessionFile

  datatype Role = TenantAdmin | Owner | Writer | Reader | Auditor

  predicate CanRead(r: Role) {
    true
  }

  predicate CanWrite(r: Role) {
    r.TenantAdmin? || r.Owner? || r.Writer?
  }

  predicate CanAdmin(r: Role) {
    r.TenantAdmin? || r.Owner?
  }

  /** Here owners may read the audit log too. */
  predicate CanAudit(r: Role) {
    r.TenantAdmin? || r.Owner? || r.Auditor?
  }

  /** In this table every administrator audits, and auditing is the only
      permission the read-only auditor holds beyond reading. */
  lemma PermissionLattice(r: Role)
    ensures CanAdmin(r) ==> CanWrite(r) && CanAudit(r)
    ensures CanWrite(r) ==> CanRead(r)
    ensures CanAudit(r) && !CanWrite(r) <==> r == Auditor
  {
  }

  datatype Session = Session(
    id: Uuid,
    tenantId: string,
    userId: string,
    role: Role,
    expiresAt: Time,
    createdAt: Time,
    lastAccessed: Time,
    ipAddress: Option<string>,
    userAgent: Option<string>)

  /** `Session::new(tenant, user, role, duration_hours)`: no client address
      or agent is recorded. */
  function NewSession(tenantId: string, userId: string, role: Role, durationHours: int, now: Time, id: Uuid): (s: Session)
    ensures s.id == id && s.tenantId == tenantId && s.userId == userId && s.role == role
    ensures s.createdAt == now && s.lastAccessed == now
    ensures s.expiresAt - s.createdAt == Hours(durationHours)
    ensures s.ipAddress.None? && s.userAgent.None?
  {
    Session(id, tenantId, userId, role, now + Hours(durationHours), now, now, None, None)
  }

  predicate IsValid(s: Session, now: Time) {
    now < s.expiresAt
  }

  /** `time_until_expiry`, the same computation as the application
      session's. */
  function TimeUntilExpiry(s: Session, now: Time): (d: int)
    ensures now + d == s.expiresAt
  {
    s.expiresAt - now
  }

  lemma ValidIffTimeLeft(s: Session, now: Time)
    ensures IsValid(s, now) <==> TimeUntilExpiry(s, now) > 0
  {
  }

  /** `refresh`: record the access and set the expiry one hour ahead. */
  function Refresh(s: Session, now: Time): (r: Session)
    ensures r.(expiresAt := s.expiresAt, lastAccessed := s.lastAccessed) == s
    ensures r.lastAccessed == now
    ensures TimeUntilExpiry(r, now) == Hours(1)
  {
    s.(lastAccessed := now, expiresAt := now + Hours(1))
  }

  /** After a refresh the session is valid for exactly the next hour,
      whatever its expiry was before: a refresh can shorten a session that
      had more than an hour left. */
  lemma RefreshOneHour(s: Session, now: Time, t: Time)
    ensures IsValid(Refresh(s, now), t) <==> t < now + Hours(1)
    ensures TimeUntilExpiry(s, now) > Hours(1) ==> Refresh(s, now).expiresAt < s.expiresAt
  {
  }

  type SessionSlot = SessionFile.Slot<Session>

  /** `SessionManager::load_session` at instant `now`. */
  function LoadSession(slot: SessionSlot, now: Time): (r: (SessionSlot, Result<Option<Session>>))
    ensures r.1.Err? <==> slot.Undecodable?
    ensures r.1.Err? ==> r.1.error == Serialization
    ensures r.1.Ok? && r.1.value.Some? <==> slot.Stored? && IsValid(slot.session, now)
    ensures r.1.Ok? && r.1.value.Some? ==> r.1.value.value == slot.session
    ensures slot.Stored? && !IsValid(slot.session, now) ==> r.0.NoFile?
    ensures r.0.Stored? ==> IsValid(r.0.session, now)
  {
    SessionFile.Load(slot, s => IsValid(s, now), Serialization)
  }

  /** `SessionManager::get_current_session` at instant `now`. */
  function GetCurrentSession(slot: SessionSlot, now: Time): (r: (SessionSlot, Result<Session>))
    ensures r.0 == LoadSession(slot, now).0
    ensures r.1.Ok? <==> slot.Stored? && IsValid(slot.session, now)
    ensures r.1.Ok? ==> r.1.value == slot.session
    ensures slot.Undecodable? ==> r.1 == Err(Serialization)
    ensures !slot.Undecodable? && r.1.Err? ==> r.1.error == Auth("No active session found")
  {
    SessionFile.Current(slot, s => IsValid(s, now), Serialization, "No active session found")
  }
}

=== FILE: store.dfy ===
/** `storage::VaultStorage`: the application's secret store. Records live in
    one ordered key/value tree under three kinds of key,
      `tenant:{id}`, `secret:{tenant}:{namespace}:{key}` and
      `audit:{tenant}:{timestamp in nanoseconds}`,
    and the store remembers, once unlocked, the master key and the tenant it
    was unlocked for. Every operation returns the store as it leaves it
    together with its `Result`. */
module Store {
  import opened Base
  import opened Text
  import opened Aead
  import opened Collect
  import opened Sorting
  import Sled
  import Crypto
  import Utf8
  import Tenants
  import Audit

  datatype SecretMetadata = SecretMetadata(
    id: Uuid,
    tenantId: string,
    namespace: string,
    key: string,
    version: nat,
    createdAt: Time,
    updatedAt: Time,
    createdBy: string,
    tags: seq<string>)

  datatype Secret = Secret(metadata: SecretMetadata, encryptedValue: Crypto.EncryptedData)

  /** What a stored value deserialises to. Reading a value as the wrong
      kind of record is a `bincode` failure. */
  datatype Record =
    | TenantRec(tenant: Tenants.Tenant)
    | SecretRec(secret: Secret)
    | AuditRec(entry: Audit.AuditEntry)

  datatype Vault = Vault(
    db: Sled.Tree<Record>,
    masterKey: Option<Crypto.MasterKey>,
    currentTenant: Option<string>)

  /** The store right after `VaultStorage::new`: empty and locked. */
  const EMPTY: Vault := Vault([], None, None)

  /** The clock reading and random draws one operation consumes: the current
      time, the ids of a new secret and a new audit entry, and the salt and
      nonce of one encryption. */
  datatype Draws = Draws(now: Time, secretId: Uuid, auditId: Uuid, coins: Crypto.Coins)

  // ---------------------------------------------------------------------
  // Keys
  // ---------------------------------------------------------------------

  function TenantKey(tenantId: string): string {
    "tenant:" + tenantId
  }

  function SecretPrefix(tenantId: string, namespace: string): string {
    "secret:" + tenantId + ":" + namespace + ":"
  }

  function SecretKey(tenantId: string, namespace: string, key: string): string {
    SecretPrefix(tenantId, namespace) + key
  }

  function AuditKey(tenantId: string, timestamp: Time): string {
    "audit:" + tenantId + ":" + IntToDecimal(timestamp)
  }

  /** The three kinds of key never collide: they differ in their first
      character. */
  lemma KeyKindsDistinct(t1: string, t2: string, t3: string, ns: string, key: string, ts: Time)
    ensures TenantKey(t1) != SecretKey(t2, ns, key)
    ensures TenantKey(t1) != AuditKey(t3, ts)
    ensures SecretKey(t2, ns, key) != AuditKey(t3, ts)
  {
    assert TenantKey(t1)[0] == 't';
    assert SecretKey(t2, ns, key)[0] == 's';
    assert AuditKey(t3, ts)[0] == 'a';
  }

  /** Audit keys start with "audit:"; secret keys do not. */
  lemma AuditKeyPrefix(t1: string, ts: Time, t2: string, ns: string, key: string)
    ensures StartsWith(AuditKey(t1, ts), "audit:")
    ensures !StartsWith(SecretKey(t2, ns, key), "audit:")
  {
    assert AuditKey(t1, ts)[..6] == "audit:";
    assert SecretKey(t2, ns, key)[0] == 's';
  }

  /** Two audit records of one tenant share a key exactly when they share a
      timestamp: a second event in the same nanosecond overwrites the first. */
  lemma AuditKeyInjective(tenantId: string, ts1: Time, ts2: Time)
    ensures AuditKey(tenantId, ts1) == AuditKey(tenantId, ts2) <==> ts1 == ts2
  {
    var p := "audit:" + tenantId + ":";
    if AuditKey(tenantId, ts1) == AuditKey(tenantId, ts2) {
      assert AuditKey(tenantId, ts1)[|p|..] == IntToDecimal(ts1);
      assert AuditKey(tenantId, ts2)[|p|..] == IntToDecimal(ts2);
      IntToDecimalInjective(ts1, ts2);
    }
  }

  /** With colon-free tenant and namespace, `split(':')` recovers the
      fields of a secret key, the key itself possibly split further. */
  lemma SplitSecretKey(tenantId: string, namespace: string, key: string)
    requires ':' !in tenantId && ':' !in namespace
    ensures Split(SecretKey(tenantId, namespace, key), ':') == ["secret", tenantId, namespace] + Split(key, ':')
  {
    assert SecretKey(tenantId, namespace, key) == "secret" + [':'] + (tenantId + [':'] + (namespace + [':'] + key));
    SplitAfterHead("secret", ':', tenantId + [':'] + (namespace + [':'] + key));
    SplitAfterHead(tenantId, ':', namespace + [':'] + key);
    SplitAfterHead(namespace, ':', key);
  }

  /** The separator is not escaped: a tenant whose id contains ':' shares
      keys with another tenant's namespace. */
  lemma SecretKeyCollision()
    ensures SecretKey("a", "b:c", "k") == SecretKey("a:b", "c", "k")
  {
  }

  /** Without ':' in tenant and namespace, the secret key determines all
      three fields. */
  lemma SecretKeyInjective(t1: string, n1: string, k1: string, t2: string, n2: string, k2: string)
    requires ':' !in t1 && ':' !in n1 && ':' !in t2 && ':' !in n2
    requires SecretKey(t1, n1, k1) == SecretKey(t2, n2, k2)
    ensures t1 == t2 && n1 == n2 && k1 == k2
  {
    var s := SecretKey(t1, n1, k1);
    assert s == "secret" + [':'] + (t1 + [':'] + (n1 + [':'] + k1));
    assert s == "secret" + [':'] + (t2 + [':'] + (n2 + [':'] + k2));
    assert s[7..] == t1 + [':'] + (n1 + [':'] + k1) == t2 + [':'] + (n2 + [':'] + k2);
    SplitOnceJoin(t1, ':', n1 + [':'] + k1);
    SplitOnceJoin(t2, ':', n2 + [':'] + k2);
    SplitOnceJoin(n1, ':', k1);
    SplitOnceJoin(n2, ':', k2);
  }

  // ---------------------------------------------------------------------
  // Store invariant and the audit trail
  // ---------------------------------------------------------------------

  /** Every stored secret carries a 12-byte nonce, so decrypting it cannot
      hit the panic in `Nonce::from_slice`. Every operation keeps this. */
  ghost predicate Readable(db: Sled.Tree<Record>) {
    forall k :: Sled.Get(db, k).Some? && Sled.Get(db, k).value.SecretRec? ==>
      |Sled.Get(db, k).value.secret.encryptedValue.nonce| == 12
  }

  lemma InsertUpdates(db: Sled.Tree<Record>, k: string, rec: Record)
    ensures Sled.Updated(db, Sled.Insert(db, k, rec), k, rec)
    ensures Readable(db) && (rec.SecretRec? ==> |rec.secret.encryptedValue.nonce| == 12) ==> Readable(Sled.Insert(db, k, rec))
  {
    Sled.InsertSpec(db, k, rec);
  }

  /** `log_audit_event(tenant, event, description)` at time `now`: the entry
      is written under its audit key with user id "system"; nothing else
      changes. The source builds the entry from six fields only; the
      optional fields of `AuditEntry` are left empty here. */
  function LogAuditEvent(v: Vault, tenantId: string, eventType: string, description: string, now: Time, id: Uuid): (r: Vault)
    ensures r.masterKey == v.masterKey && r.currentTenant == v.currentTenant
    ensures Sled.Updated(v.db, r.db, AuditKey(tenantId, now), AuditRec(Audit.New(tenantId, eventType, description, "system", id, now)))
    ensures Readable(v.db) ==> Readable(r.db)
  {
    var entry := Audit.New(tenantId, eventType, description, "system", id, now);
    InsertUpdates(v.db, AuditKey(tenantId, now), AuditRec(entry));
    v.(db := Sled.Insert(v.db, AuditKey(tenantId, now), AuditRec(entry)))
  }

  // ---------------------------------------------------------------------
  // Tenants and unlocking
  // ---------------------------------------------------------------------

  /** `tenant_exists(id)`. */
  function TenantExists(v: Vault, tenantId: string): (b: bool)
    ensures b <==> Sled.Get(v.db, TenantKey(tenantId)).Some?
  {
    Sled.ContainsKey(v.db, TenantKey(tenantId))
  }

  /** `get_tenant(id)`: the tenant record, `None` when absent, a
      serialisation error when the key holds something else. */
  function GetTenant(v: Vault, tenantId: string): (r: Result<Option<Tenants.Tenant>>)
    ensures Sled.Get(v.db, TenantKey(tenantId)).None? ==> r == Ok(None)
    ensures Sled.Get(v.db, TenantKey(tenantId)).Some? ==>
      if Sled.Get(v.db, TenantKey(tenantId)).value.TenantRec?
      then r == Ok(Some(Sled.Get(v.db, TenantKey(tenantId)).value.tenant))
      else r == Err(Serialization)
  {
    match Sled.Get(v.db, TenantKey(tenantId))
    case None => Ok(None)
    case Some(rec) => if rec.TenantRec? then Ok(Some(rec.tenant)) else Err(Serialization)
  }

  /** `init_tenant(id, admin)`: writes a fresh tenant record (named after its
      id, with a fresh salt) and a `tenant_created` audit entry. */
  function InitTenant(v: Vault, tenantId: string, admin: string, salt: Bytes32, d: Draws): (r: Vault)
    ensures r.masterKey == v.masterKey && r.currentTenant == v.currentTenant
    ensures TenantExists(r, tenantId)
    ensures GetTenant(r, tenantId) == Ok(Some(Tenants.New(tenantId, tenantId, admin, salt, d.now)))
    ensures Sled.Get(r.db, AuditKey(tenantId, d.now))
            == Some(AuditRec(Audit.New(tenantId, Audit.EVENT_TENANT_CREATED, "Tenant " + tenantId + " created by " + admin, "system", d.auditId, d.now)))
    ensures forall q :: q != TenantKey(tenantId) && q != AuditKey(tenantId, d.now) ==> Sled.Get(r.db, q) == Sled.Get(v.db, q)
    ensures Readable(v.db) ==> Readable(r.db)
  {
    var tenant := Tenants.New(tenantId, tenantId, admin, salt, d.now);
    InsertUpdates(v.db, TenantKey(tenantId), TenantRec(tenant));
    KeyKindsDistinct(tenantId, tenantId, tenantId, "", "", d.now);
    var v1 := v.(db := Sled.Insert(v.db, TenantKey(tenantId), TenantRec(tenant)));
    LogAuditEvent(v1, tenantId, Audit.EVENT_TENANT_CREATED, "Tenant " + tenantId + " created by " + admin, d.now, d.auditId)
  }

  /** The plaintext `unlock` encrypts and decrypts to test a derived key. */
  const TEST_BYTES: seq<byte> := [0x74, 0x65, 0x73, 0x74]

  /** `unlock(tenant, passphrase)`: derives an AES-256-GCM master key from the
      passphrase and the tenant's salt and remembers it with the tenant. The
      key check encrypts and decrypts a test value under the key just
      derived, so it accepts every passphrase; a wrong one only shows when a
      secret is read. */
  function Unlock(v: Vault, tenantId: string, passphrase: string, coins: Crypto.Coins): (r: (Vault, Result<()>))
    ensures Sled.Get(v.db, TenantKey(tenantId)).None? ==> r == (v, Err(TenantNotFound(tenantId)))
    ensures r.1.Ok? <==> Sled.Get(v.db, TenantKey(tenantId)).Some? && Sled.Get(v.db, TenantKey(tenantId)).value.TenantRec?
    ensures r.1.Ok? ==> r.0 == v.(masterKey := Some(Crypto.DeriveFromPassphrase(passphrase, Sled.Get(v.db, TenantKey(tenantId)).value.tenant.salt, Aes256Gcm)),
                                  currentTenant := Some(tenantId))
    ensures r.1.Err? ==> r.0 == v
  {
    match GetTenant(v, tenantId)
    case Err(e) => (v, Err(e))
    case Ok(None) => (v, Err(TenantNotFound(tenantId)))
    case Ok(Some(tenant)) =>
      var mk := Crypto.DeriveFromPassphrase(passphrase, tenant.salt, Aes256Gcm);
      var encrypted := Crypto.Encrypt(mk, TEST_BYTES, coins);
      var decrypted := Crypto.Decrypt(mk, encrypted);
      if decrypted.Err? || decrypted.value != TEST_BYTES then (v, Err(InvalidPassphrase))
      else (v.(masterKey := Some(mk), currentTenant := Some(tenantId)), Ok(()))
  }

  // ---------------------------------------------------------------------
  // Writing, reading and deleting one secret
  // ---------------------------------------------------------------------

  /** The store is unlocked: both the master key and the tenant are set. */
  predicate Unlocked(v: Vault) {
    v.masterKey.Some? && v.currentTenant.Some?
  }

  /** The metadata `put_with_tags` records: a fresh id, version 1, created and
      updated now, by "user", with the given tags. */
  function PutMetadata(tenantId: string, namespace: string, key: string, tags: seq<string>, d: Draws): SecretMetadata {
    SecretMetadata(d.secretId, tenantId, namespace, key, 1, d.now, d.now, "user", tags)
  }

  /** `put_with_tags(key, value, namespace, tags)`: encrypts the value's
      UTF-8 bytes under the master key, overwrites whatever was stored under
      the secret key, and logs `secret_created`. */
  function PutWithTags(v: Vault, key: string, value: string, namespace: string, tags: seq<string>, d: Draws): (r: (Vault, Result<()>))
    ensures !Unlocked(v) ==> r == (v, Err(VaultLocked))
    ensures Unlocked(v) ==> r.1.Ok? && r.0.masterKey == v.masterKey && r.0.currentTenant == v.currentTenant
    ensures Unlocked(v) ==>
      var k := SecretKey(v.currentTenant.value, namespace, key);
      var stored := Sled.Get(r.0.db, k);
      && stored.Some? && stored.value.SecretRec?
      && stored.value.secret.metadata == PutMetadata(v.currentTenant.value, namespace, key, tags, d)
      && stored.value.secret.encryptedValue.nonce == d.coins.nonce
      && stored.value.secret.encryptedValue.algorithm == v.masterKey.value.algorithm
      && Crypto.Decrypt(v.masterKey.value, stored.value.secret.encryptedValue) == Ok(Utf8.Encode(value))
      && Sled.Get(r.0.db, AuditKey(v.currentTenant.value, d.now))
         == Some(AuditRec(Audit.New(v.currentTenant.value, Audit.EVENT_SECRET_CREATED, "Secret " + namespace + "/" + key + " created", "system", d.auditId, d.now)))
      && forall q :: q != k && q != AuditKey(v.currentTenant.value, d.now) ==> Sled.Get(r.0.db, q) == Sled.Get(v.db, q)
    ensures Readable(v.db) ==> Readable(r.0.db)
  {
    if !Unlocked(v) then (v, Err(VaultLocked))
    else
      var mk := v.masterKey.value;
      var tenantId := v.currentTenant.value;
      var encrypted := Crypto.Encrypt(mk, Utf8.Encode(value), d.coins);
      var secret := Secret(PutMetadata(tenantId, namespace, key, tags, d), encrypted);
      var k := SecretKey(tenantId, namespace, key);
      InsertUpdates(v.db, k, SecretRec(secret));
      KeyKindsDistinct(tenantId, tenantId, tenantId, namespace, key, d.now);
      var v1 := v.(db := Sled.Insert(v.db, k, SecretRec(secret)));
      (LogAuditEvent(v1, tenantId, Audit.EVENT_SECRET_CREATED, "Secret " + namespace + "/" + key + " created", d.now, d.auditId), Ok(()))
  }

  /** `put(key, value, namespace)`: `put_with_tags` with no tags. */
  function Put(v: Vault, key: string, value: string, namespace: string, d: Draws): (r: (Vault, Result<()>))
    ensures r == PutWithTags(v, key, value, namespace, [], d)
  {
    PutWithTags(v, key, value, namespace, [], d)
  }

  /** The text a `VaultError::Crypto` displays (the `thiserror` format). */
  function CryptoErrorText(msg: string): string {
    "Crypto error: " + msg
  }

  /** `String::from_utf8`'s error text. Its exact wording (which byte, at
      which index) is not modelled. */
  const INVALID_UTF8: string := "invalid utf-8 sequence"

  /** `get_with_metadata(key, namespace)`: decrypts the secret stored under the
      key, decodes it as UTF-8 and logs `secret_accessed`. A missing key is
      `Ok(None)` with nothing logged. Decryption failures are re-wrapped with
      their display text. */
  function GetWithMetadata(v: Vault, key: string, namespace: string, d: Draws): (r: (Vault, Result<Option<(string, SecretMetadata)>>))
    requires Readable(v.db)
    ensures !Unlocked(v) ==> r == (v, Err(VaultLocked))
    ensures Unlocked(v) && Sled.Get(v.db, SecretKey(v.currentTenant.value, namespace, key)).None? ==> r == (v, Ok(None))
    ensures r.1.Err? || (r.1.Ok? && r.1.value.None?) ==> r.0 == v
    ensures r.1 == Ok(None) <==> Unlocked(v) && Sled.Get(v.db, SecretKey(v.currentTenant.value, namespace, key)).None?
    ensures r.1.Ok? && r.1.value.Some? ==>
      Unlocked(v) &&
      var stored := Sled.Get(v.db, SecretKey(v.currentTenant.value, namespace, key));
      && stored.Some? && stored.value.SecretRec?
      && r.1.value.value.1 == stored.value.secret.metadata
      && Crypto.Decrypt(v.masterKey.value, stored.value.secret.encryptedValue) == Ok(Utf8.Encode(r.1.value.value.0))
      && Sled.Updated(v.db, r.0.db, AuditKey(v.currentTenant.value, d.now),
           AuditRec(Audit.New(v.currentTenant.value, Audit.EVENT_SECRET_ACCESSED, "Secret " + namespace + "/" + key + " accessed", "system", d.auditId, d.now)))
    ensures Unlocked(v) ==>
      var stored := Sled.Get(v.db, SecretKey(v.currentTenant.value, namespace, key));
      stored.Some? && stored.value.SecretRec? && Crypto.Decrypt(v.masterKey.value, stored.value.secret.encryptedValue).Err? ==>
        r.1 == Err(Crypto(CryptoErrorText(Aead.DecryptFailure(stored.value.secret.encryptedValue.algorithm))))
    ensures r.0.masterKey == v.masterKey && r.0.currentTenant == v.currentTenant
    ensures Readable(r.0.db)
  {
    if !Unlocked(v) then (v, Err(VaultLocked))
    else
      var mk := v.masterKey.value;
      var tenantId := v.currentTenant.value;
      var k := SecretKey(tenantId, namespace, key);
      match Sled.Get(v.db, k)
      case None => (v, Ok(None))
      case Some(rec) =>
        if !rec.SecretRec? then (v, Err(Serialization))
        else
          var secret := rec.secret;
          match Crypto.Decrypt(mk, secret.encryptedValue)
          case Err(e) => (v, Err(Crypto(CryptoErrorText(e.msg))))
          case Ok(bytes) =>
            match Utf8.Decode(bytes)
            case None => (v, Err(Crypto(INVALID_UTF8)))
            case Some(text) =>
              Utf8.EncodeDecode(bytes);
              var v1 := LogAuditEvent(v, tenantId, Audit.EVENT_SECRET_ACCESSED, "Secret " + namespace + "/" + key + " accessed", d.now, d.auditId);
              (v1, Ok(Some((text, secret.metadata))))
  }

  /** `get(key, namespace)`: the value alone. */
  function Get(v: Vault, key: string, namespace: string, d: Draws): (r: (Vault, Result<Option<string>>))
    requires Readable(v.db)
    ensures r.0 == GetWithMetadata(v, key, namespace, d).0
    ensures r.1.Ok? <==> GetWithMetadata(v, key, namespace, d).1.Ok?
    ensures r.1.Err? ==> r.1.error == GetWithMetadata(v, key, namespace, d).1.error
    ensures r.1.Ok? ==> (r.1.value.Some? <==> GetWithMetadata(v, key, namespace, d).1.value.Some?)
    ensures r.1.Ok? && r.1.value.Some? ==> r.1.value.value == GetWithMetadata(v, key, namespace, d).1.value.value.0
  {
    var (v1, res) := GetWithMetadata(v, key, namespace, d);
    match res
    case Err(e) => (v1, Err(e))
    case Ok(None) => (v1, Ok(None))
    case Ok(Some((value, _))) => (v1, Ok(Some(value)))
  }

  /** The secret stored under `key` in `namespace` has a 12-byte nonce and
      decrypts, under the master key, to the UTF-8 bytes of `value`. */
  ghost predicate Decrypts(v: Vault, namespace: string, key: string, value: string) {
    Unlocked(v) &&
    var stored := Sled.Get(v.db, SecretKey(v.currentTenant.value, namespace, key));
    stored.Some? && stored.value.SecretRec? && |stored.value.secret.encryptedValue.nonce| == 12
    && Crypto.Decrypt(v.masterKey.value, stored.value.secret.encryptedValue) == Ok(Utf8.Encode(value))
  }

  /** The secret stored under `key` in `namespace` decrypts to `value` and
      carries the metadata `meta`. */
  ghost predicate Holds(v: Vault, namespace: string, key: string, value: string, meta: SecretMetadata) {
    Decrypts(v, namespace, key, value)
    && Sled.Get(v.db, SecretKey(v.currentTenant.value, namespace, key)).value.secret.metadata == meta
  }

  /** What a key holds depends only on its record and the master key. */
  lemma HoldsKept(a: Vault, b: Vault, namespace: string, key: string, value: string, meta: SecretMetadata)
    requires Holds(a, namespace, key, value, meta)
    requires b.masterKey == a.masterKey && b.currentTenant == a.currentTenant
    requires Sled.Get(b.db, SecretKey(b.currentTenant.value, namespace, key)) == Sled.Get(a.db, SecretKey(a.currentTenant.value, namespace, key))
    ensures Holds(b, namespace, key, value, meta)
  {
  }

  /** A stored secret decrypts to one value at most. */
  lemma DecryptsUnique(v: Vault, namespace: string, key: string, a: string, b: string)
    requires Decrypts(v, namespace, key, a) && Decrypts(v, namespace, key, b)
    ensures a == b
  {
    Utf8.EncodeInjective(a, b);
  }

  /** `get_with_metadata` reads back exactly what is stored: it returns a
      value and metadata if and only if the secret under the key decrypts
      to that value and carries that metadata. */
  lemma ReadHolds(v: Vault, key: string, namespace: string, d: Draws, value: string, meta: SecretMetadata)
    requires Readable(v.db)
    ensures GetWithMetadata(v, key, namespace, d).1 == Ok(Some((value, meta))) <==> Holds(v, namespace, key, value, meta)
  {
    if Holds(v, namespace, key, value, meta) {
      Utf8.DecodeEncode(value);
    }
  }

  /** `delete(key, namespace)`: removes the secret and logs
      `secret_deleted`; an absent key is `SecretNotFound("{namespace}/{key}")`
      and changes nothing. Only the tenant is needed, not the master key. */
  function Delete(v: Vault, key: string, namespace: string, d: Draws): (r: (Vault, Result<()>))
    ensures v.currentTenant.None? ==> r == (v, Err(VaultLocked))
    ensures v.currentTenant.Some? && Sled.Get(v.db, SecretKey(v.currentTenant.value, namespace, key)).None? ==>
      r == (v, Err(SecretNotFound(namespace + "/" + key)))
    ensures v.currentTenant.Some? && Sled.Get(v.db, SecretKey(v.currentTenant.value, namespace, key)).Some? ==>
      var k := SecretKey(v.currentTenant.value, namespace, key);
      && r.1.Ok?
      && Sled.Get(r.0.db, k).None?
      && Sled.Get(r.0.db, AuditKey(v.currentTenant.value, d.now))
         == Some(AuditRec(Audit.New(v.currentTenant.value, Audit.EVENT_SECRET_DELETED, "Secret " + namespace + "/" + key + " deleted", "system", d.auditId, d.now)))
      && forall q :: q != k && q != AuditKey(v.currentTenant.value, d.now) ==> Sled.Get(r.0.db, q) == Sled.Get(v.db, q)
    ensures r.0.masterKey == v.masterKey && r.0.currentTenant == v.currentTenant
    ensures Readable(v.db) ==> Readable(r.0.db)
  {
    if v.currentTenant.None? then (v, Err(VaultLocked))
    else
      var tenantId := v.currentTenant.value;
      var k := SecretKey(tenantId, namespace, key);
      var (db1, removed) := Sled.Remove(v.db, k);
      Sled.RemoveSpec(v.db, k);
      if removed.Some? then
        KeyKindsDistinct(tenantId, tenantId, tenantId, namespace, key, d.now);
        (LogAuditEvent(v.(db := db1), tenantId, Audit.EVENT_SECRET_DELETED, "Secret " + namespace + "/" + key + " deleted", d.now, d.auditId), Ok(()))
      else
        Sled.RemoveAbsent(v.db, k);
        (v.(db := db1), Err(SecretNotFound(namespace + "/" + key)))
  }

  /** Reading back what was just written gives the value and the metadata
      `put_with_tags` recorded, tags included. */
  lemma PutThenGet(v: Vault, key: string, value: string, namespace: string, tags: seq<string>, d1: Draws, d2: Draws)
    requires Unlocked(v) && Readable(v.db)
    ensures Readable(PutWithTags(v, key, value, namespace, tags, d1).0.db)
    ensures GetWithMetadata(PutWithTags(v, key, value, namespace, tags, d1).0, key, namespace, d2).1
            == Ok(Some((value, PutMetadata(v.currentTenant.value, namespace, key, tags, d1))))
  {
    Utf8.DecodeEncode(value);
  }

  /** After a successful `delete`, reading the key finds nothing. */
  lemma DeleteThenGet(v: Vault, key: string, namespace: string, d1: Draws, d2: Draws)
    requires Unlocked(v) && Readable(v.db)
    requires Delete(v, key, namespace, d1).1.Ok?
    ensures GetWithMetadata(Delete(v, key, namespace, d1).0, key, namespace, d2) == (Delete(v, key, namespace, d1).0, Ok(None))
  {
    KeyKindsDistinct(v.currentTenant.value, v.currentTenant.value, v.currentTenant.value, namespace, key, d1.now);
  }

  /** Initialising a tenant, unlocking it, storing a value and reading it
      back returns the value, whatever the passphrase. */
  lemma InitUnlockPutGet(tenantId: string, admin: string, salt: Bytes32, passphrase: string,
                         key: string, value: string, namespace: string, d0: Draws, d1: Draws, d2: Draws)
    ensures
      var v0 := InitTenant(EMPTY, tenantId, admin, salt, d0);
      var (v1, unlocked) := Unlock(v0, tenantId, passphrase, d1.coins);
      var (v2, put) := Put(v1, key, value, namespace, d1);
      && unlocked.Ok? && put.Ok?
      && Readable(v2.db)
      && Get(v2, key, namespace, d2).1 == Ok(Some(value))
  {
    var v0 := InitTenant(EMPTY, tenantId, admin, salt, d0);
    var (v1, unlocked) := Unlock(v0, tenantId, passphrase, d1.coins);
    PutThenGet(v1, key, value, namespace, [], d1, d2);
  }

  /** A secret written after unlocking with one passphrase cannot be read
      after re-unlocking with another: `unlock` accepts the wrong passphrase,
      but decryption then fails with the AES-256-GCM error. */
  lemma WrongPassphraseReadFails(v: Vault, tenantId: string, p1: string, p2: string, c1: Crypto.Coins, c2: Crypto.Coins,
                                 key: string, value: string, namespace: string, d1: Draws, d2: Draws)
    requires Readable(v.db) && p1 != p2
    requires Unlock(v, tenantId, p1, c1).1.Ok?
    ensures
      var (v1, _) := Unlock(v, tenantId, p1, c1);
      var (v2, _) := Put(v1, key, value, namespace, d1);
      var (v3, relocked) := Unlock(v2, tenantId, p2, c2);
      && relocked.Ok?
      && GetWithMetadata(v3, key, namespace, d2).1 == Err(Crypto(CryptoErrorText(DecryptFailure(Aes256Gcm))))
  {
    var (v1, _) := Unlock(v, tenantId, p1, c1);
    var salt := Sled.Get(v.db, TenantKey(tenantId)).value.tenant.salt;
    var mk1 := Crypto.DeriveFromPassphrase(p1, salt, Aes256Gcm);
    var mk2 := Crypto.DeriveFromPassphrase(p2, salt, Aes256Gcm);
    assert v1.masterKey == Some(mk1) && v1.currentTenant == Some(tenantId) && v1.db == v.db;
    var (v2, _) := Put(v1, key, value, namespace, d1);
    KeyKindsDistinct(tenantId, tenantId, tenantId, namespace, key, d1.now);
    assert Sled.Get(v2.db, TenantKey(tenantId)) == Sled.Get(v.db, TenantKey(tenantId));
    var k := SecretKey(tenantId, namespace, key);
    var stored := Sled.Get(v2.db, k).value.secret.encryptedValue;
    assert Crypto.Decrypt(mk1, stored).Ok?;
    var (v3, relocked) := Unlock(v2, tenantId, p2, c2);
    assert v3.masterKey == Some(mk2) && v3.currentTenant == Some(tenantId) && v3.db == v2.db;
    Crypto.DeriveSameKeyIff(p1, salt, Aes256Gcm, p2, salt, Aes256Gcm);
    assert Crypto.Decrypt(mk2, stored).Err?;
    assert stored.algorithm == Aes256Gcm;
  }
}

=== FILE: tenants.dfy ===
/** `storage::tenant`: the record a tenant is stored as, and its default
    settings. The file re-declares `EncryptionAlgorithm` and
    `KeyDerivationParams` with the same variants and fields as the crypto
    layer; the crypto layer's types stand for both here. */
module Tenants {
  import opened Base
  import opened Aead

  datatype TenantSettings = TenantSettings(
    maxSecrets: Option<nat>,
    maxNamespaces: Option<nat>,
    encryptionAlgorithm: Algorithm,
    keyDerivationParams: KdfParams,
    auditEnabled: bool,
    syncEnabled: bool)

  datatype Tenant = Tenant(
    id: string,
    name: string,
    admin: string,
    createdAt: Time,
    salt: Bytes32,
    passwordHash: Bytes32,
    settings: TenantSettings)

  /** `TenantSettings::default()`: no limits, AES-256-GCM, the standard
      Argon2id costs, auditing on and sync off. */
  function DefaultSettings(): (s: TenantSettings)
    ensures s.maxSecrets.None? && s.maxNamespaces.None?
    ensures s.encryptionAlgorithm == Aes256Gcm
    ensures s.keyDerivationParams == DEFAULT_KDF_PARAMS
    ensures s.auditEnabled && !s.syncEnabled
  {
    TenantSettings(None, None, Aes256Gcm, KdfParams(65536, 3, 1), true, false)
  }

  /** `Tenant::new(id, name, admin, salt)` at time `now`: the password hash
      is left all zero. */
  function New(id: string, name: string, admin: string, salt: Bytes32, now: Time): (t: Tenant)
    ensures t.id == id && t.name == name && t.admin == admin && t.salt == salt
    ensures t.createdAt == now
    ensures forall i :: 0 <= i < 32 ==> t.passwordHash[i] == 0
    ensures t.settings == DefaultSettings()
  {
    Tenant(id, name, admin, now, salt, Zeros(32), DefaultSettings())
  }

  /** `Tenant::new_with_password(id, name, admin, salt, hash)` at time `now`. */
  function NewWithPassword(id: string, name: string, admin: string, salt: Bytes32, passwordHash: Bytes32, now: Time): (t: Tenant)
    ensures t.id == id && t.name == name && t.admin == admin && t.salt == salt
    ensures t.createdAt == now && t.passwordHash == passwordHash
    ensures t.settings == DefaultSettings()
  {
    Tenant(id, name, admin, now, salt, passwordHash, DefaultSettings())
  }

  /** The two constructors differ only in the password hash: `new` is
      `new_with_password` with the all-zero hash. */
  lemma NewIsZeroHash(id: string, name: string, admin: string, salt: Bytes32, hash: Bytes32, now: Time)
    ensures New(id, name, admin, salt, now) == NewWithPassword(id, name, admin, salt, Zeros(32), now)
    ensures NewWithPassword(id, name, admin, salt, hash, now).(passwordHash := Zeros(32)) == New(id, name, admin, salt, now)
  {
  }
}

=== FILE: text.dfy ===
/** String operations the vault relies on: `str::split(':')` and the `format!`
    that inverts it, prefix and substring tests, ASCII lower-casing, the byte
    order Rust uses to compare `String`s, and decimal rendering of integers. */
module Text {
  import opened Base

  // ---------------------------------------------------------------------
  // Prefixes and substrings
  // ---------------------------------------------------------------------

  /** `s.starts_with(p)`. */
  predicate StartsWith(s: string, p: string) {
    |p| <= |s| && s[..|p|] == p
  }

  /** `hay.contains(needle)` for a string needle. */
  predicate Contains(hay: string, needle: string)
    decreases |hay|
  {
    StartsWith(hay, needle) || (|hay| > 0 && Contains(hay[1..], needle))
  }

  /** A substring found at an explicit offset is found by `Contains`. */
  lemma {:induction false} ContainsAt(hay: string, needle: string, i: nat)
    requires i + |needle| <= |hay|
    requires hay[i..i + |needle|] == needle
    ensures Contains(hay, needle)
    decreases i
  {
    if i == 0 {
      assert hay[..|needle|] == needle;
    } else {
      assert hay[1..][i - 1..i - 1 + |needle|] == hay[i..i + |needle|];
      ContainsAt(hay[1..], needle, i - 1);
    }
  }

  /** Every string contains itself, so a query equal to a key always matches it. */
  lemma ContainsSelf(s: string)
    ensures Contains(s, s)
  {
    assert s[..|s|] == s;
  }

  // ---------------------------------------------------------------------
  // Lower-casing
  // ---------------------------------------------------------------------

  function LowerChar(c: char): char {
    if 'A' <= c <= 'Z' then (c as int - 'A' as int + 'a' as int) as char else c
  }

  /** `str::to_lowercase`, restricted to the ASCII letters. */
  function ToLower(s: string): (r: string)
    ensures |r| == |s|
    ensures forall i :: 0 <= i < |s| ==> r[i] == LowerChar(s[i])
  {
    seq(|s|, i requires 0 <= i < |s| => LowerChar(s[i]))
  }

  /** Lower-casing twice is lower-casing once. */
  lemma ToLowerIdempotent(s: string)
    ensures ToLower(ToLower(s)) == ToLower(s)
  {
  }

  // ---------------------------------------------------------------------
  // split(':') and the format! strings it parses
  // ---------------------------------------------------------------------

  /** `parts.join(sep)`: the pieces with one separator between neighbours. */
  function Join(parts: seq<string>, sep: char): string
    requires |parts| >= 1
  {
    if |parts| == 1 then parts[0] else parts[0] + [sep] + Join(parts[1..], sep)
  }

  /** `s.split(sep).collect::<Vec<_>>()`: never empty; `n` separators give
      `n + 1` pieces, empty ones included. Joining the pieces restores `s`. */
  function Split(s: string, sep: char): (parts: seq<string>)
    ensures |parts| >= 1
    ensures forall i :: 0 <= i < |parts| ==> sep !in parts[i]
    ensures Join(parts, sep) == s
    decreases |s|
  {
    if |s| == 0 then [""]
    else
      var rest := Split(s[1..], sep);
      if s[0] == sep then
        assert [sep] + Join(rest, sep) == s;
        [""] + rest
      else
        var parts := [[s[0]] + rest[0]] + rest[1..];
        assert Join(parts, sep) == [s[0]] + Join(rest, sep) by {
          if |rest| > 1 {
            assert parts[1..] == rest[1..];
          }
        }
        assert [s[0]] + s[1..] == s;
        parts
  }

  /** The last piece of `split(sep)`, which `split(sep).last()` always yields. */
  function LastPiece(s: string, sep: char): string {
    var parts := Split(s, sep);
    parts[|parts| - 1]
  }

  /** Concatenation cancels on the left. */
  lemma AppendCancel(a: string, b: string, c: string)
    ensures a + b == a + c <==> b == c
  {
    if a + b == a + c {
      assert b == (a + b)[|a|..];
      assert c == (a + c)[|a|..];
    }
  }

  /** `s.split_once(sep)`: the text before the first separator and the text
      after it. */
  function SplitOnce(s: string, sep: char): (r: Option<(string, string)>)
    ensures r.Some? <==> sep in s
    ensures r.Some? ==> sep !in r.value.0 && s == r.value.0 + [sep] + r.value.1
  {
    if |s| == 0 then None
    else if s[0] == sep then Some(([], s[1..]))
    else
      match SplitOnce(s[1..], sep)
      case None => None
      case Some((a, b)) =>
        assert s == [s[0]] + s[1..];
        Some(([s[0]] + a, b))
  }

  /** The separator-free head of a string is where `split_once` cuts it. */
  lemma {:induction false} SplitOnceJoin(a: string, sep: char, b: string)
    requires sep !in a
    ensures SplitOnce(a + [sep] + b, sep) == Some((a, b))
    decreases |a|
  {
    var s := a + [sep] + b;
    if |a| > 0 {
      assert s[1..] == a[1..] + [sep] + b;
      SplitOnceJoin(a[1..], sep, b);
      assert [a[0]] + a[1..] == a;
    } else {
      assert s[1..] == b;
    }
  }

  /** A separator-free string splits into itself. */
  lemma {:induction false} SplitNoSeparator(a: string, sep: char)
    requires sep !in a
    ensures Split(a, sep) == [a]
    decreases |a|
  {
    if |a| > 0 {
      SplitNoSeparator(a[1..], sep);
      assert [a[0]] + a[1..] == a;
    }
  }

  /** Splitting after a separator-free head peels that head off. */
  lemma {:induction false} SplitAfterHead(a: string, sep: char, rest: string)
    requires sep !in a
    ensures Split(a + [sep] + rest, sep) == [a] + Split(rest, sep)
    decreases |a|
  {
    var s := a + [sep] + rest;
    if |a| == 0 {
      assert s[1..] == rest;
    } else {
      assert s[1..] == a[1..] + [sep] + rest;
      SplitAfterHead(a[1..], sep, rest);
      assert [a[0]] + a[1..] == a;
    }
  }

  /** A separator-free tail after a last separator is the last piece. */
  lemma {:induction false} SplitSnoc(x: string, sep: char, rest: string)
    requires sep !in rest
    ensures Split(x + [sep] + rest, sep) == Split(x, sep) + [rest]
    decreases |x|
  {
    var s := x + [sep] + rest;
    if |x| == 0 {
      assert s[1..] == rest;
      SplitNoSeparator(rest, sep);
    } else {
      assert s[1..] == x[1..] + [sep] + rest;
      SplitSnoc(x[1..], sep, rest);
    }
  }

  /** `split(sep).last()` of a string whose text after its last separator
      is `rest` yields `rest`. */
  lemma LastPieceAfter(x: string, sep: char, rest: string)
    requires sep !in rest
    ensures LastPiece(x + [sep] + rest, sep) == rest
  {
    SplitSnoc(x, sep, rest);
  }

  /** `split` inverts `join` on separator-free pieces: a string built with
      `format!("{}:{}:…")` from colon-free fields parses back into exactly
      those fields. */
  lemma {:induction false} SplitJoin(parts: seq<string>, sep: char)
    requires |parts| >= 1
    requires forall i :: 0 <= i < |parts| ==> sep !in parts[i]
    ensures Split(Join(parts, sep), sep) == parts
    decreases |parts|
  {
    if |parts| == 1 {
      SplitNoSeparator(parts[0], sep);
    } else {
      SplitJoin(parts[1..], sep);
      SplitAfterHead(parts[0], sep, Join(parts[1..], sep));
      assert [parts[0]] + parts[1..] == parts;
    }
  }

  /** Two joins of colon-free fields agree only when the fields agree. */
  lemma JoinInjective(p: seq<string>, q: seq<string>, sep: char)
    requires |p| >= 1 && |q| >= 1
    requires forall i :: 0 <= i < |p| ==> sep !in p[i]
    requires forall i :: 0 <= i < |q| ==> sep !in q[i]
    requires Join(p, sep) == Join(q, sep)
    ensures p == q
  {
    SplitJoin(p, sep);
    SplitJoin(q, sep);
  }

  // ---------------------------------------------------------------------
  // Ordering of Strings
  // ---------------------------------------------------------------------

  /** `a < b` for Rust `String`s. Rust compares the UTF-8 bytes
      lexicographically, and UTF-8 preserves code-point order, so comparing
      characters lexicographically gives the same answer. */
  predicate StrLess(a: string, b: string)
    decreases |a|
  {
    if |a| == 0 then |b| > 0
    else |b| > 0 && (a[0] < b[0] || (a[0] == b[0] && StrLess(a[1..], b[1..])))
  }

  lemma {:induction false} StrLessIrreflexive(a: string)
    ensures !StrLess(a, a)
    decreases |a|
  {
    if |a| > 0 {
      StrLessIrreflexive(a[1..]);
    }
  }

  lemma {:induction false} StrLessTransitive(a: string, b: string, c: string)
    requires StrLess(a, b) && StrLess(b, c)
    ensures StrLess(a, c)
    decreases |a|
  {
    if |a| > 0 && a[0] == b[0] && b[0] == c[0] {
      StrLessTransitive(a[1..], b[1..], c[1..]);
    }
  }

  lemma {:induction false} StrLessTotal(a: string, b: string)
    ensures a == b || StrLess(a, b) || StrLess(b, a)
    decreases |a|
  {
    if |a| > 0 && |b| > 0 && a[0] == b[0] {
      StrLessTotal(a[1..], b[1..]);
      if a[1..] == b[1..] {
        assert a == [a[0]] + a[1..] && b == [b[0]] + b[1..];
      }
    }
  }

  lemma StrLessAsymmetric(a: string, b: string)
    requires StrLess(a, b)
    ensures !StrLess(b, a)
  {
    if StrLess(b, a) {
      StrLessTransitive(a, b, a);
      StrLessIrreflexive(a);
    }
  }

  /** The derived `Ord` of `(String, String)`: first field, then second. */
  predicate PairLess(p: (string, string), q: (string, string)) {
    StrLess(p.0, q.0) || (p.0 == q.0 && StrLess(p.1, q.1))
  }

  lemma PairLessTransitive(p: (string, string), q: (string, string), r: (string, string))
    requires PairLess(p, q) && PairLess(q, r)
    ensures PairLess(p, r)
  {
    if StrLess(p.0, q.0) && StrLess(q.0, r.0) {
      StrLessTransitive(p.0, q.0, r.0);
    } else if StrLess(p.1, q.1) && StrLess(q.1, r.1) {
      StrLessTransitive(p.1, q.1, r.1);
    }
  }

  lemma PairLessTotal(p: (string, string), q: (string, string))
    ensures p == q || PairLess(p, q) || PairLess(q, p)
  {
    StrLessTotal(p.0, q.0);
    StrLessTotal(p.1, q.1);
  }

  lemma PairLessIrreflexive(p: (string, string))
    ensures !PairLess(p, p)
  {
    StrLessIrreflexive(p.0);
    StrLessIrreflexive(p.1);
  }

  // ---------------------------------------------------------------------
  // Decimal rendering (`{}` of an integer)
  // ---------------------------------------------------------------------

  function DigitChar(d: nat): char
    requires d < 10
  {
    ('0' as int + d) as char
  }

  predicate IsDigit(c: char) {
    '0' <= c <= '9'
  }

  /** The decimal digits of `n`, most significant first, without leading zeros. */
  function NatToDecimal(n: nat): (s: string)
    ensures |s| >= 1
    ensures forall i :: 0 <= i < |s| ==> IsDigit(s[i])
  {
    if n < 10 then [DigitChar(n)] else NatToDecimal(n / 10) + [DigitChar(n % 10)]
  }

  /** The value of a string of decimal digits. */
  function DecimalValue(s: string): nat
    requires forall i :: 0 <= i < |s| ==> IsDigit(s[i])
  {
    if |s| == 0 then 0
    else
      var last := s[|s| - 1];
      assert IsDigit(last);
      DecimalValue(s[..|s| - 1]) * 10 + (last as int - '0' as int)
  }

  lemma {:induction false} DecimalRoundTrip(n: nat)
    ensures DecimalValue(NatToDecimal(n)) == n
  {
    if n >= 10 {
      var s := NatToDecimal(n);
      DecimalRoundTrip(n / 10);
      assert s[..|s| - 1] == NatToDecimal(n / 10);
    }
  }

  /** `format!("{}", n)` for an `i64`/`u64` value. */
  function IntToDecimal(n: int): (s: string)
    ensures |s| >= 1
    ensures ':' !in s
  {
    if n < 0 then "-" + NatToDecimal(-n) else NatToDecimal(n)
  }

  /** Distinct integers print differently. */
  lemma IntToDecimalInjective(a: int, b: int)
    requires IntToDecimal(a) == IntToDecimal(b)
    ensures a == b
  {
    var s := IntToDecimal(a);
    assert s[0] == '-' <==> a < 0 by {
      if a >= 0 { assert IsDigit(NatToDecimal(a)[0]); }
    }
    assert s[0] == '-' <==> b < 0 by {
      if b >= 0 { assert IsDigit(NatToDecimal(b)[0]); }
    }
    if a < 0 {
      assert NatToDecimal(-a) == s[1..] == NatToDecimal(-b);
      DecimalRoundTrip(-a);
      DecimalRoundTrip(-b);
    } else {
      DecimalRoundTrip(a);
      DecimalRoundTrip(b);
    }
  }
}

=== FILE: users.dfy ===
/** `storage::user`: tenant members and the invitations that admit them.
    The clock, fresh ids and the invitation token's random draws are
    inputs. */
module Users {
  import opened Base
  import opened Charset
  import AppAuth

  datatype User = User(
    id: Uuid,
    email: string,
    tenantId: string,
    role: AppAuth.Role,
    createdAt: Time,
    lastLogin: Option<Time>,
    isActive: bool,
    passwordHash: Option<Bytes32>,
    publicKey: Option<string>)

  /** `User::new(email, tenant, role)`: active, never logged in, with neither
      password hash nor public key. */
  function NewUser(email: string, tenantId: string, role: AppAuth.Role, now: Time, id: Uuid): (u: User)
    ensures u.id == id && u.email == email && u.tenantId == tenantId && u.role == role && u.createdAt == now
    ensures u.isActive && u.lastLogin.None? && u.passwordHash.None? && u.publicKey.None?
  {
    User(id, email, tenantId, role, now, None, true, None, None)
  }

  /** `with_password`: sets the hash, nothing else. */
  function WithPassword(u: User, hash: Bytes32): (r: User)
    ensures r.passwordHash == Some(hash)
    ensures r.(passwordHash := u.passwordHash) == u
  {
    u.(passwordHash := Some(hash))
  }

  /** `with_public_key`: sets the key, nothing else. */
  function WithPublicKey(u: User, key: string): (r: User)
    ensures r.publicKey == Some(key)
    ensures r.(publicKey := u.publicKey) == u
  {
    u.(publicKey := Some(key))
  }

  /** The two builders touch different fields, so their order is
      irrelevant. */
  lemma BuildersCommute(u: User, hash: Bytes32, key: string)
    ensures WithPublicKey(WithPassword(u, hash), key) == WithPassword(WithPublicKey(u, key), hash)
  {
  }

  /** `update_last_login`: records the instant, nothing else. */
  function UpdateLastLogin(u: User, now: Time): (r: User)
    ensures r.lastLogin == Some(now)
    ensures r.(lastLogin := u.lastLogin) == u
  {
    u.(lastLogin := Some(now))
  }

  /** `deactivate`: clears the active flag, nothing else. */
  function Deactivate(u: User): (r: User)
    ensures !r.isActive
    ensures r.(isActive := u.isActive) == u
  {
    u.(isActive := false)
  }

  /** `change_role`: replaces the role, nothing else. */
  function ChangeRole(u: User, role: AppAuth.Role): (r: User)
    ensures r.role == role
    ensures r.(role := u.role) == u
  {
    u.(role := role)
  }

  /** The user-record updates are idempotent and the last role change
      wins. */
  lemma UpdatesSettle(u: User, r1: AppAuth.Role, r2: AppAuth.Role, t1: Time, t2: Time)
    ensures ChangeRole(ChangeRole(u, r1), r2) == ChangeRole(u, r2)
    ensures Deactivate(Deactivate(u)) == Deactivate(u)
    ensures UpdateLastLogin(UpdateLastLogin(u, t1), t2) == UpdateLastLogin(u, t2)
    ensures ChangeRole(u, u.role) == u
  {
  }

  // ---------------------------------------------------------------------
  // Invitations
  // ---------------------------------------------------------------------

  datatype TenantInvitation = TenantInvitation(
    id: Uuid,
    tenantId: string,
    email: string,
    role: AppAuth.Role,
    invitedBy: string,
    createdAt: Time,
    expiresAt: Time,
    accepted: bool,
    token: string)

  /** The number of characters in an invitation token. */
  const TOKEN_LENGTH: nat := 32

  /** One draw of `rng.gen_range(0..62)`. */
  type AlnumDraw = d: nat | d < 62

  /** The token the draws spell: each draw picks one character of
      `ALPHANUMERIC`. */
  function Token(draws: seq<AlnumDraw>): (t: string)
    ensures |t| == |draws|
    ensures forall i :: 0 <= i < |t| ==> IsAlnum(t[i])
  {
    AlphanumericAt();
    seq(|draws|, i requires 0 <= i < |draws| => ALPHANUMERIC[draws[i]])
  }

  /** The token determines the draws, and every alphanumeric string is the
      token of some draws: no two draw sequences collide, none is missed. */
  lemma TokenBijective(d1: seq<AlnumDraw>, d2: seq<AlnumDraw>, t: string)
    ensures Token(d1) == Token(d2) ==> d1 == d2
    ensures (forall i :: 0 <= i < |t| ==> IsAlnum(t[i])) ==> exists d :: Token(d) == t
  {
    AlphanumericAt();
    if Token(d1) == Token(d2) {
      assert |d1| == |d2|;
      forall i | 0 <= i < |d1| ensures d1[i] == d2[i] {
        assert Token(d1)[i] == Token(d2)[i];
        AlnumCharInjective(d1[i], d2[i]);
      }
    }
    if forall i :: 0 <= i < |t| ==> IsAlnum(t[i]) {
      var d: seq<AlnumDraw> := seq(|t|, i requires 0 <= i < |t| && IsAlnum(t[i]) => AlnumIndex(t[i]));
      assert Token(d) == t;
    }
  }

  /** `TenantInvitation::new(tenant, email, role, invited_by)`: a 32-character
      alphanumeric token, valid for seven days, not yet accepted. The source
      reads the clock twice; the model reads it once. */
  function NewInvitation(tenantId: string, email: string, role: AppAuth.Role, invitedBy: string,
                         now: Time, id: Uuid, draws: seq<AlnumDraw>): (inv: TenantInvitation)
    requires |draws| == TOKEN_LENGTH
    ensures inv.id == id && inv.tenantId == tenantId && inv.email == email && inv.role == role && inv.invitedBy == invitedBy
    ensures inv.createdAt == now && inv.expiresAt == now + Days(7)
    ensures !inv.accepted
    ensures |inv.token| == TOKEN_LENGTH && forall i :: 0 <= i < |inv.token| ==> IsAlnum(inv.token[i])
  {
    TenantInvitation(id, tenantId, email, role, invitedBy, now, now + Days(7), false, Token(draws))
  }

  /** `is_valid`: not yet accepted and not yet expired. */
  predicate IsValid(inv: TenantInvitation, now: Time) {
    !inv.accepted && now < inv.expiresAt
  }

  /** `accept`: marks the invitation accepted, nothing else. */
  function Accept(inv: TenantInvitation): (r: TenantInvitation)
    ensures r.accepted
    ensures r.(accepted := inv.accepted) == inv
  {
    inv.(accepted := true)
  }

  /** A fresh invitation can be used for exactly seven days; once accepted
      it can never be used again. */
  lemma InvitationLifetime(tenantId: string, email: string, role: AppAuth.Role, invitedBy: string,
                           now: Time, id: Uuid, draws: seq<AlnumDraw>, t: Time)
    requires |draws| == TOKEN_LENGTH
    ensures IsValid(NewInvitation(tenantId, email, role, invitedBy, now, id, draws), t) <==> t < now + Days(7)
    ensures !IsValid(Accept(NewInvitation(tenantId, email, role, invitedBy, now, id, draws)), t)
  {
  }

  /** Accepting is final: no accepted invitation is valid at any instant. */
  lemma AcceptedNeverValid(inv: TenantInvitation, t: Time)
    ensures !IsValid(Accept(inv), t)
    ensures Accept(Accept(inv)) == Accept(inv)
  {
  }
}

=== FILE: utf8.dfy ===
/** UTF-8, the byte form of every Rust `String`: `str::as_bytes` is `Encode`,
    and `String::from_utf8` is `Decode`, which rejects every byte string that
    is not the encoding of some text (overlong forms, surrogates, code points
    above U+10FFFF, truncated sequences). The two are proved inverse. */
module Utf8 {
  import opened Base

  predicate IsContinuation(b: byte) {
    0x80 <= b <= 0xBF
  }

  /** The one- to four-byte encoding of one scalar value: the code point is
      cut into 6-bit groups, the low groups go into continuation bytes and the
      rest into a lead byte whose high bits announce the length. */
  function EncodeChar(c: char): (b: seq<byte>)
    ensures 1 <= |b| <= 4
    ensures |b| == 1 <==> (c as int) < 0x80
  {
    var n := c as int;
    var n1 := n / 64;
    var n2 := n1 / 64;
    if n < 0x80 then [n]
    else if n < 0x800 then [0xC0 + n1, 0x80 + n % 64]
    else if n < 0x1_0000 then [0xE0 + n2, 0x80 + n1 % 64, 0x80 + n % 64]
    else [0xF0 + n2 / 64, 0x80 + n2 % 64, 0x80 + n1 % 64, 0x80 + n % 64]
  }

  /** `s.as_bytes()`. */
  function Encode(s: string): (b: seq<byte>)
    ensures |b| >= |s|
    ensures |s| == 0 <==> |b| == 0
  {
    if |s| == 0 then [] else EncodeChar(s[0]) + Encode(s[1..])
  }

  /** The scalar value at the front of `b` and the number of bytes it takes,
      accepting exactly the well-formed sequences of the UTF-8 standard
      (table 3-7 of the Unicode Standard). */
  function DecodeChar(b: seq<byte>): (r: Option<(char, nat)>)
    ensures r.Some? ==> 1 <= r.value.1 <= |b| && r.value.1 <= 4
  {
    if |b| == 0 then None
    else
      var x0 := b[0] as int;
      if x0 < 0x80 then Some((x0 as char, 1))
      else if 0xC2 <= x0 <= 0xDF then
        if |b| < 2 || !IsContinuation(b[1]) then None
        else Some(((Payload2(x0, b[1])) as char, 2))
      else if 0xE0 <= x0 <= 0xEF then
        if |b| < 3 || !IsContinuation(b[1]) || !IsContinuation(b[2]) then None
        else if x0 == 0xE0 && b[1] < 0xA0 then None
        else if x0 == 0xED && b[1] > 0x9F then None
        else Some(((Payload3(x0, b[1], b[2])) as char, 3))
      else if 0xF0 <= x0 <= 0xF4 then
        if |b| < 4 || !IsContinuation(b[1]) || !IsContinuation(b[2]) || !IsContinuation(b[3]) then None
        else if x0 == 0xF0 && b[1] < 0x90 then None
        else if x0 == 0xF4 && b[1] > 0x8F then None
        else Some(((Payload4(x0, b[1], b[2], b[3])) as char, 4))
      else None
  }

  /** The code point carried by a lead byte and its continuation bytes. */
  function Payload2(x0: int, x1: int): int { (x0 - 0xC0) * 64 + (x1 - 0x80) }

  function Payload3(x0: int, x1: int, x2: int): int {
    (x0 - 0xE0) * 4096 + (x1 - 0x80) * 64 + (x2 - 0x80)
  }

  function Payload4(x0: int, x1: int, x2: int, x3: int): int {
    (x0 - 0xF0) * 262144 + (x1 - 0x80) * 4096 + (x2 - 0x80) * 64 + (x3 - 0x80)
  }

  /** `String::from_utf8(bytes)`: the text, or `None` where Rust reports a
      `FromUtf8Error`. */
  function Decode(b: seq<byte>): (r: Option<string>)
    ensures r.Some? ==> |r.value| <= |b|
    decreases |b|
  {
    if |b| == 0 then Some([])
    else
      match DecodeChar(b)
      case None => None
      case Some((c, k)) =>
        match Decode(b[k..])
        case None => None
        case Some(rest) => Some([c] + rest)
  }

  /** Reading one encoded character back from the front of any byte string. */
  lemma DecodeEncodeChar(c: char, rest: seq<byte>)
    ensures DecodeChar(EncodeChar(c) + rest) == Some((c, |EncodeChar(c)|))
  {
    var n := c as int;
    var n1 := n / 64;
    var n2 := n1 / 64;
    var e := EncodeChar(c);
    var b := e + rest;
    assert n == n1 * 64 + n % 64;
    assert n1 == n2 * 64 + n1 % 64;
    assert n2 == (n2 / 64) * 64 + n2 % 64;
    assert b[..|e|] == e;
    if n < 0x80 {
    } else if n < 0x800 {
      assert Payload2(b[0], b[1]) == n;
    } else if n < 0x1_0000 {
      assert Payload3(b[0], b[1], b[2]) == n;
    } else {
      assert Payload4(b[0], b[1], b[2], b[3]) == n;
    }
  }

  /** `String::from_utf8(s.as_bytes().to_vec())` gives back `s`. */
  lemma {:induction false} DecodeEncode(s: string)
    ensures Decode(Encode(s)) == Some(s)
    decreases |s|
  {
    if |s| > 0 {
      var e := EncodeChar(s[0]);
      var b := Encode(s);
      DecodeEncodeChar(s[0], Encode(s[1..]));
      assert b[|e|..] == Encode(s[1..]);
      DecodeEncode(s[1..]);
      assert [s[0]] + s[1..] == s;
    }
  }

  /** Whatever `DecodeChar` accepts is exactly the encoding of what it returns. */
  lemma EncodeDecodeChar(b: seq<byte>)
    requires DecodeChar(b).Some?
    ensures EncodeChar(DecodeChar(b).value.0) == b[..DecodeChar(b).value.1]
  {
    var k := DecodeChar(b).value.1;
    var n := DecodeChar(b).value.0 as int;
    if k == 2 {
      var x0, x1 := b[0] as int, b[1] as int;
      assert n == Payload2(x0, x1);
      DivMod64(x0 - 0xC0, x1 - 0x80);
    } else if k == 3 {
      var x0, x1, x2 := b[0] as int, b[1] as int, b[2] as int;
      assert n == Payload3(x0, x1, x2);
      DivMod64((x0 - 0xE0) * 64 + (x1 - 0x80), x2 - 0x80);
      DivMod64(x0 - 0xE0, x1 - 0x80);
    } else if k == 4 {
      var x0, x1, x2, x3 := b[0] as int, b[1] as int, b[2] as int, b[3] as int;
      assert n == Payload4(x0, x1, x2, x3);
      DivMod64(((x0 - 0xF0) * 64 + (x1 - 0x80)) * 64 + (x2 - 0x80), x3 - 0x80);
      DivMod64((x0 - 0xF0) * 64 + (x1 - 0x80), x2 - 0x80);
      DivMod64(x0 - 0xF0, x1 - 0x80);
    }
  }

  lemma DivMod64(q: int, r: int)
    requires 0 <= r < 64
    ensures (q * 64 + r) / 64 == q && (q * 64 + r) % 64 == r
  {
  }

  /** Every byte string `Decode` accepts is the encoding of its result, so
      `from_utf8` and `as_bytes` are mutually inverse. */
  lemma {:induction false} EncodeDecode(b: seq<byte>)
    requires Decode(b).Some?
    ensures Encode(Decode(b).value) == b
    decreases |b|
  {
    if |b| > 0 {
      var c := DecodeChar(b).value.0;
      var k := DecodeChar(b).value.1;
      EncodeDecodeChar(b);
      EncodeDecode(b[k..]);
      var s := Decode(b).value;
      assert s[0] == c && s[1..] == Decode(b[k..]).value;
      assert b[..k] + b[k..] == b;
    }
  }

  /** Distinct strings have distinct byte forms: a corollary of
      `DecodeEncode`. */
  lemma EncodeInjective(s: string, t: string)
    requires Encode(s) == Encode(t)
    ensures s == t
  {
    DecodeEncode(s);
    DecodeEncode(t);
  }
}
